=== FILE: README.md ===
# umanux user database, modelled in Dafny

umanux is a Rust library that reads and edits the Linux account databases
`/etc/passwd`, `/etc/shadow` and `/etc/group`. This project models its core
in Dafny and proves properties of that model:

- the record types and their text forms: username, uid/gid, GECOS, passwd
  line, shadow line and group line, each with its parser and its display;
- the error taxonomy;
- the source hashes that detect changed files;
- the `.lock`/temporary-file locking protocol and the guarded file writes;
- the database, `UserDBLocal`:
  - loading from strings or from locked files;
  - linking the users to their groups;
  - the read and validation queries;
  - `delete_user`, including the cascade over the deleted user's groups,
    both as the crate writes it and with the group-file fix described
    under Findings;
  - `new_user`.

The modules follow the crate's structure:

| Dafny module (file) | crate part |
|---|---|
| `Errors` (errors.dfy) | `src/error.rs` |
| `Text` (text.dfy), `Decimal` (decimal.dfy) | the `str` operations the crate relies on: `split`, `trim`, `lines`, `parse::<u32/i64/u64>` and `Display` of integers |
| `PasswdFields`, `GecosFields`, `ShadowFields` | `src/user/passwd_fields.rs`, `src/user/gecos_fields.rs`, `src/user/shadow_fields.rs` |
| `UserRecord` (user.dfy) | `src/user/mod.rs` |
| `GroupRecord` (group.dfy) | `src/group/mod.rs` |
| `Hashes` (hashes.dfy) | `src/userlib/hashes.rs` |
| `Files` (files.dfy) | `src/userlib/files.rs` |
| `Loading`, `Linking`, `Database`, `Deletion`, `Creation` | `src/userlib/mod.rs` |

Modelling choices:

- **Strings and integers.** Strings are `seq<char>`. Integer widths are
  explicit: `U32` ids, the `i64` day counts, and the `u64` shadow extension
  field. The shadow date parser checks its multiplication of days by 86400
  against the `i64` range.
- **Panics.** Every panic, `unwrap` and `expect` on an input-dependent path
  becomes an `Err` result, so each error path stays visible.
- **Files.** The file system is a map from path text to file contents. The
  process id is a parameter.
- **Outcomes.** Every operation that changes the database returns an
  `Outcome`: the new database, the new file system and the `Result`.
- **Hash-map order.** The crate iterates `HashMap`s in an unspecified order.
  The methods that do so (`GetAllUsers`, `GetUserById`, the primary-group
  phase of `GroupsToUsers`) choose that order nondeterministically. A ghost
  out-parameter records the order they picked.

## Model

| member | source | states |
|---|---|---|
| Errors.FromText | src/error.rs:78-88 | a string converts to a `Message(Simple)` error that displays exactly that string and has no `source` |
| Errors.FromIo | src/error.rs:90-94 | an I/O error converts to a simple message showing the I/O error's text, with no `source` |
| Errors.FromContext | src/error.rs:96-100 | a (context, I/O error) pair displays as `context,cause` and keeps the I/O error as its `source` |
| Errors.MessageEqIsEquivalence | src/error.rs:32-45 | message equality, defined as equality of the displayed text, is reflexive, symmetric and transitive |
| Errors.ContextEqualsPlainText | src/error.rs:65-76 | an I/O-context error equals the plain-text error with the same display, although only the first has a `source` |
| Errors.MessageNeverEqualsFixedError | src/error.rs:16-24 | a `Message` error is never equal to one of the four fixed variants |
| Errors.FixedDisplaysDistinct | src/error.rs:47-63 | the four fixed variants display four different texts |
| Text.JoinSplit | src/user/mod.rs:104 | joining the pieces of `split(sep)` with `sep` gives back the line |
| Text.SplitJoin | src/user/mod.rs:221-234 | splitting a join of separator-free fields gives back exactly those fields |
| Text.SplitConcat | src/user/mod.rs:104 | the pieces of a concatenation are the pieces of both halves, with the two boundary pieces fused |
| Text.FindFromIsFirst | src/user/mod.rs:53-59 | the match that `split` by a pattern cuts at is the first one at or after the starting position |
| Text.FindFromNone | src/user/mod.rs:53-59 | no match is found exactly when the pattern occurs nowhere at or after the start |
| Text.TrimIsSliceBetweenWhitespace | src/user/mod.rs:56 | `trim` returns a slice of its input with only whitespace cut from both ends |
| Text.TrimmedEnds | src/user/mod.rs:56 | a non-empty trimmed text starts and ends with a non-whitespace character |
| Text.TrimMatches | src/userlib/files.rs:236 | stripping a character from both ends leaves a text that neither starts nor ends with it |
| Text.LinesAfterNewline | src/userlib/mod.rs:494-495 | appending one newline-free line to a text that ends in a newline appends exactly that line to `lines()` |
| Text.LinesOfTerminated | src/userlib/files.rs:112 | the newline that `replace_contents` adds does not change the lines of the text |
| Text.NoLinesInEmptyText | src/userlib/mod.rs:494-495 | the empty text has no lines |
| Text.RemoveInOnce | src/user/mod.rs:53-59 | cutting a record that occurs once out of a text leaves the trimmed text before it, a newline, and the trimmed text after it |
| Text.RemoveInAbsent | src/group/mod.rs:55-61 | cutting a record that does not occur only trims the text |
| Text.Utf8Len | src/userlib/mod.rs:498 | the byte length of a text is between one and four times its character count |
| Text.Utf8LenConcat | src/userlib/mod.rs:498 | the byte length of a concatenation is the sum of the parts' byte lengths |
| Text.Utf8LenAscii | src/userlib/mod.rs:498 | ASCII text has as many bytes as characters |
| Text.UnescapeEscapeAll | src/group/mod.rs:134 | the `{:?}` escaping of a string loses nothing: reading the escapes back gives the string |
| Text.EscapeAllPlain | src/group/mod.rs:134 | printable ASCII without double quotes or backslashes is written by `{:?}` as itself |
| Text.DebugListSingle | src/user/shadow_fields.rs:121 | a one-field list shows as the escaped field in quotes and brackets, and the field reads back from it |
| Text.DebugListQuoteExample | src/group/mod.rs:134 | the field `a"b` is shown as `["a\"b"]` |
| Decimal.NatToString | src/user/passwd_fields.rs:105-109 | the decimal display of a number is canonical and reads back as that number |
| Decimal.NatToStringOfCanonical | src/user/passwd_fields.rs:105-109 | displaying the value of a canonical digit string gives back that string |
| Decimal.CanonicalNatInjective | src/user/passwd_fields.rs:105-109 | two canonical digit strings are equal exactly when their values are |
| Decimal.ParseUnsigned | src/user/passwd_fields.rs:111-118 | unsigned parsing rejects the empty text, a lone `+`, any non-digit after the first character, and any value at or beyond the type's limit |
| Decimal.ParseI64 | src/user/shadow_fields.rs:136 | signed 64-bit parsing rejects empty or sign-only text and stray characters, and stays within the `i64` range |
| Decimal.ParseUnsignedOfDisplay | src/user/passwd_fields.rs:105-118 | parsing the display of a number below the limit gives that number |
| Decimal.DisplayOfParseUnsigned | src/user/passwd_fields.rs:105-118 | displaying a parsed canonical number gives back its text |
| Decimal.ParseUnsignedNonCanonical | src/user/passwd_fields.rs:111-118 | `+7` and `007` parse to 7, so displaying does not always restore non-canonical input |
| Decimal.ParseI64OfDisplay | src/user/shadow_fields.rs:75-81 | parsing the display of any `i64` gives it back |
| Decimal.DisplayOfParseI64 | src/user/shadow_fields.rs:141-148 | displaying a parsed canonical signed number gives back its text |
| PasswdFields.MatchUsernamePattern | src/user/passwd_fields.rs:52-58 | the character-by-character matcher accepts exactly the names of the username pattern |
| PasswdFields.UsernameTryFrom | src/user/passwd_fields.rs:35-50 | a username is accepted exactly when it matches the pattern or is `Debian-exim`; otherwise the error is `Invalid username <name>` |
| PasswdFields.ValidUsernameShape | src/user/passwd_fields.rs:52-58 | a valid username has 1 to 32 characters and `$` only in last position |
| PasswdFields.AcceptedUsernameHasNoSeparator | src/user/passwd_fields.rs:35-58 | an accepted username is non-empty and holds no `:`, `,` or newline |
| PasswdFields.RejectedUsernameExamples | src/user/passwd_fields.rs:200-224 | `täst`, `11elf`, `test/name` and a 33-letter name are rejected |
| PasswdFields.AcceptedUsernameExamples | src/user/passwd_fields.rs:225-236 | `Debian-exim`, `t`, `superman`, `anna3pete` and `enya$` are accepted unchanged |
| PasswdFields.ParseId | src/user/passwd_fields.rs:111-118 | a uid/gid parse fails exactly when the text is not a `u32` numeral |
| PasswdFields.ParseIdOfDisplay | src/user/passwd_fields.rs:105-118 | parsing the display of any id gives back the id |
| PasswdFields.IdDisplayOfParse | src/user/passwd_fields.rs:105-118 | displaying a parsed canonical id gives back its text |
| PasswdFields.SystemIdExamples | src/user/passwd_fields.rs:238-250 | 999 and 0 are system ids and 1000 is not |
| GecosFields.GecosTryFrom | src/user/gecos_fields.rs:123-147 | a GECOS field is rejected exactly when it has 2 or 3 comma-separated items; otherwise its items are the pieces and it displays as the input |
| GecosFields.DetailToStringIsJoin | src/user/gecos_fields.rs:97-121 | a detailed GECOS displays as its items joined by commas |
| GecosFields.ParseOfToString | src/user/gecos_fields.rs:97-147 | parsing the display of a canonical GECOS gives it back |
| GecosFields.EmptyOtherDoesNotRoundTrip | src/user/gecos_fields.rs:114-117 | an empty `other` list displays with a trailing comma and parses back as a list holding one empty item |
| GecosFields.NonEmpty | src/user/gecos_fields.rs:38-42 | an empty component is reported as absent |
| GecosFields.GetComment | src/user/gecos_fields.rs:27-32 | the comment is present exactly for a simple GECOS |
| GecosFields.GetFullName | src/user/gecos_fields.rs:34-45 | the full name is present exactly for a detailed GECOS with a non-empty name |
| GecosFields.GetRoom | src/user/gecos_fields.rs:47-58 | the room is present exactly when it is a non-empty detail |
| GecosFields.GetPhoneWork | src/user/gecos_fields.rs:60-71 | the work phone is present exactly when it is a non-empty detail |
| GecosFields.GetPhoneHome | src/user/gecos_fields.rs:73-84 | the home phone is present exactly when it is a non-empty detail |
| GecosFields.GetOther | src/user/gecos_fields.rs:86-94 | the other items are present exactly for a detailed GECOS that has them |
| GecosFields.NameOnlyDetail | src/user/gecos_fields.rs:127-138 | `<name>,,,` parses as a detail with only the full name set and no other items |
| GecosFields.GecosDetailExample | src/user/gecos_fields.rs:149-194 | `systemd Network Management,,,` parses to the detail with only the full name |
| GecosFields.GecosSimpleExample | src/user/gecos_fields.rs:149-194 | a comma-free comment parses to a simple GECOS |
| GecosFields.GecosGetterExamples | src/user/gecos_fields.rs:196-225 | the getter results for a name-only detail and for a simple comment |
| GecosFields.GecosTwoOrThreeItemsRejected | src/user/gecos_fields.rs:143-145 | `a,b` and `a,b,c` are rejected |
| ShadowFields.TruncDiv | src/user/shadow_fields.rs:71 | the quotient has the sign of the dividend and its multiple of the divisor lies between zero and the dividend, less than one divisor away, so it rounds toward zero as Rust's `/` does |
| ShadowFields.DaysOfSeconds | src/user/shadow_fields.rs:67-73 | a date stored as days times 86400 seconds displays as those days again |
| ShadowFields.DateSinceEpoch | src/user/shadow_fields.rs:132-140 | an empty date field is absent; a field that is not an `i64` numeral is a parse error; otherwise the date is the day count times 86400 seconds, within the `i64` range |
| ShadowFields.DurationForDays | src/user/shadow_fields.rs:141-148 | an empty duration field is absent; otherwise it is the parsed `i64` day count |
| ShadowFields.ParseExtensions | src/user/shadow_fields.rs:113-117 | an empty extension field is absent; otherwise it must parse as `u64` |
| ShadowFields.SplitShadowDisplay | src/user/shadow_fields.rs:45-65 | a shadow record displays as its nine fields joined by colons |
| ShadowFields.ShadowFromString | src/user/shadow_fields.rs:98-127 | a shadow line parses only with exactly 9 fields; it keeps the line, the position, an accepted username and the password verbatim |
| ShadowFields.DateRoundTrip | src/user/shadow_fields.rs:67-73 | displaying a parsed canonical date field gives back the field |
| ShadowFields.DurationRoundTrip | src/user/shadow_fields.rs:75-81 | displaying a parsed canonical duration field gives back the field |
| ShadowFields.ExtensionsRoundTrip | src/user/shadow_fields.rs:58-62 | displaying a parsed canonical extension field gives back the field |
| ShadowFields.FieldsOfParsed | src/user/shadow_fields.rs:45-127 | the display fields of a parsed canonical line are the line's fields |
| ShadowFields.ShadowRoundTrip | src/user/shadow_fields.rs:150-155 | a canonical shadow line parses and displays back to itself |
| UserRecord.PasswordToString | src/user/passwd_fields.rs:67-75 | an encrypted password displays verbatim; a shadow or disabled password displays as `x` |
| UserRecord.PasswordToStringIsX | src/user/passwd_fields.rs:67-75 | the password field shows `x` exactly when it is not encrypted or is the encrypted text `x` |
| UserRecord.GetShadow | src/user/mod.rs:27-33 | the shadow entry is present exactly for a shadow password |
| UserRecord.GetPassword | src/user/mod.rs:131-137 | only a disabled password has no text; otherwise it is the encrypted or the shadow password |
| UserRecord.UserFromString | src/user/mod.rs:100-122 | a passwd line parses only with exactly 7 fields, failing with `Failed to parse: not enough elements`; it keeps the line, the position, the username, the password, the home directory and the shell |
| UserRecord.UserFromStringChecks | src/user/mod.rs:100-122 | a 7-field line is accepted exactly when the username is accepted and both ids and the GECOS parse; the ids and the GECOS are the parsed values; otherwise the error is `Invalid username <name>`, else the id's parse error, else the GECOS error, in field order |
| UserRecord.SplitUserDisplay | src/user/mod.rs:221-235 | a user displays as its seven fields joined by colons |
| UserRecord.EmptyLineIsNotAUser | src/user/mod.rs:248-252 | the empty line is rejected with the not-enough-elements message |
| UserRecord.UserRoundTrip | src/user/mod.rs:286-305 | a parsed passwd line with canonical ids displays back to itself |
| UserRecord.UserParseOfDisplay | src/user/mod.rs:100-122 | a printable user parses back from its display, the display becoming its source line |
| UserRecord.Compare | src/user/mod.rs:185-195 | users compare by their line position only |
| UserRecord.CompareIsTotalPreorder | src/user/mod.rs:185-195 | the comparison is antisymmetric and transitive |
| UserRecord.DefaultUser | src/user/mod.rs:197-219 | the default user: `defaultusername`, disabled password, ids 1001, empty comment, home `/`, shell `/bin/nologin`, position `u32::MAX` |
| UserRecord.DefaultUserDisplay | src/user/mod.rs:197-235 | the default user renamed to `name` displays as `name:x:1001:1001::/:/bin/nologin` |
| UserRecord.SetUsername | src/user/mod.rs:60-63 | only the username changes |
| UserRecord.DisablePassword | src/user/mod.rs:64-67 | only the password changes, to disabled |
| UserRecord.SetUid | src/user/mod.rs:68-71 | only the uid changes |
| UserRecord.SetGid | src/user/mod.rs:72-75 | only the gid changes |
| UserRecord.SetHomeDir | src/user/mod.rs:76-79 | only the home directory changes |
| UserRecord.SetShellPath | src/user/mod.rs:80-83 | only the shell changes |
| UserRecord.AddGroup | src/userlib/mod.rs:419 | a group link is appended and nothing else changes |
| GroupRecord.GroupnameTryFrom | src/group/mod.rs:22-39 | a group name is accepted exactly when it is an accepted username; otherwise the error is `Invalid groupname -<name>-` |
| GroupRecord.NonEmptyPieces | src/group/mod.rs:145-151 | the empty member names are dropped |
| GroupRecord.ParseNames | src/group/mod.rs:151-153 | a member list parses exactly when every name is an accepted username |
| GroupRecord.ParseMembersList | src/group/mod.rs:143-155 | the members are the non-empty comma-separated names, each an accepted username |
| GroupRecord.GroupFromString | src/group/mod.rs:121-140 | a group line parses only with exactly 4 fields; the password is always disabled and the members are the non-empty names of the last field |
| GroupRecord.GroupFromStringChecks | src/group/mod.rs:121-140 | a line without 4 fields fails with `Failed to parse: not enough elements (<n>): <fields as {:?}>`; a 4-field line is accepted exactly when the name is accepted and the gid and the member list parse; the gid is the parsed value; otherwise the first failing field's error is returned |
| GroupRecord.SplitGroupDisplay | src/group/mod.rs:88-103 | a group displays as its four fields joined by colons |
| GroupRecord.AppendUser | src/userlib/mod.rs:436-439 | a member is appended and nothing else changes |
| GroupRecord.RemoveMember | src/userlib/mod.rs:249-253 | the name leaves the member list, every other member stays, no new member appears, and nothing else changes |
| GroupRecord.MemberFieldRoundTrip | src/group/mod.rs:96-100 | a canonical member field parses and joins back to itself |
| GroupRecord.GroupRoundTrip | src/group/mod.rs:157-162 | a canonical group line parses and displays back to itself |
| GroupRecord.GroupPasswordAlwaysShownAsX | src/group/mod.rs:128 | a parsed group always shows `x` as its password |
| GroupRecord.EmptyMemberDropped | src/group/mod.rs:143-155 | `a,,b` gives the members `a` and `b` |
| GroupRecord.EmptyMemberField | src/group/mod.rs:170-175 | an empty member field gives no members |
| Hashes.HasChangedIffDifferent | src/userlib/hashes.rs:15-22 | a text has changed exactly when it differs from the hashed one |
| Hashes.NewHashes | src/userlib/hashes.rs:31-39 | each of the three hashes reports a change exactly for texts different from its own file's |
| Files.DefaultFiles | src/userlib/files.rs:17-26 | the default files are `/etc/passwd`, `/etc/shadow` and `/etc/group`, which makes them non-virtual |
| Files.DefaultFilesSeparate | src/userlib/files.rs:17-26 | the three default files and their lock files are all different paths |
| Files.LockPath | src/userlib/files.rs:176 | the lock file is the file name plus `.lock` |
| Files.TempPath | src/userlib/files.rs:172 | the temporary file is the file name plus a dot and the pid |
| Files.LockNamesDistinct | src/userlib/files.rs:167-176 | the lock and temporary files never coincide with the locked file or with each other |
| Files.LockPathInjective | src/userlib/files.rs:176 | two files share a lock file exactly when they are the same file |
| Files.EtcPasswdLockName | src/userlib/files.rs:137-141 | `/etc/passwd` locks through `/etc/passwd.12397` and `/etc/passwd.lock` for pid 12397 |
| Files.TryToLockFile | src/userlib/files.rs:160-267 | locking succeeds exactly when the lock file is free and the file exists; the lock then holds the pid; in every case the temporary file is gone afterwards |
| Files.DropGuard | src/userlib/files.rs:270-275 | dropping a guard removes exactly its lock file |
| Files.LockedFileCannotBeLocked | src/userlib/files.rs:221-259 | a file whose lock file exists cannot be locked, and nothing but the temporary file changes |
| Files.SecondLockHitsStaleCheck | src/userlib/files.rs:236-245 | locking a file a second time finds the pid and stops at the unimplemented liveness check |
| Files.LockThenDropRestores | src/userlib/files.rs:160-275 | locking and then dropping the guard restores the file system |
| Files.LockAndGet | src/userlib/files.rs:34-54 | a missing path gives `FilesRequired`; a present one is locked |
| Files.LockAllGet | src/userlib/files.rs:56-63 | all three files are locked in order passwd, shadow, group, and on success the three paths are different; on failure only files were removed |
| Files.LockAllOnlyAddsLocks | src/userlib/files.rs:56-63 | locking all three files changes nothing but the three lock files |
| Files.Release | src/userlib/files.rs:270-275 | releasing the three guards removes their lock files and keeps every other file |
| Files.ReplaceContents | src/userlib/files.rs:103-114 | replacing a file's contents writes the new text plus a newline and leaves every other file as it was |
| Files.ReplacedFileLines | src/userlib/files.rs:103-114 | the added newline does not change the lines of the new text |
| Files.AppendText | src/userlib/files.rs:116-135 | appending to an empty file fails; otherwise the text keeps its contents, ends with the appendee, and has a newline before it; exactly one newline is inserted when the contents lack a final one, and none otherwise |
| Files.Append | src/userlib/files.rs:116-135 | appending through a guard fails exactly for an empty file and otherwise replaces that file's text |
| Files.AppendAddsOneLine | src/userlib/files.rs:116-135 | appending a newline-free line adds exactly that line to the file's lines |
| Loading.KeptPositions | src/userlib/mod.rs:494-498 | the kept line numbers are exactly the lines longer than five bytes, in increasing order |
| Loading.ParseFrom | src/userlib/mod.rs:494-511 | the records are the kept lines parsed in order, each with its line number; loading fails exactly when a kept line does not parse |
| Loading.StringTo | src/userlib/mod.rs:489-512 | the records are the lines longer than five bytes parsed in order, each with its line number; loading fails exactly when one of them does not parse |
| Loading.ShortLinesAreSkipped | src/userlib/mod.rs:498-509 | a text made only of short lines gives no records |
| Loading.LastIndexOf | src/userlib/mod.rs:453-476 | the last position of a key, or none: the record a map keeps when records are inserted in order, for users keyed by name and for shadow entries alike |
| Loading.LastIndexOfDistinct | src/userlib/mod.rs:464-476 | among distinct keys the last position of a key is its own position |
| Loading.HashmapKeysAreNames | src/userlib/mod.rs:464-476 | the map's keys are exactly the users' names |
| Loading.UserVecToHashmap | src/userlib/mod.rs:464-476 | the map holds every username, each bound to the last user with that name |
| Loading.DistinctNamesAllKept | src/userlib/mod.rs:464-476 | with distinct names every user is kept under its own name |
| Loading.FirstUnknown | src/userlib/mod.rs:453-461 | the first shadow entry whose user is missing |
| Loading.ShadowToUsers | src/userlib/mod.rs:453-461 | merging fails exactly when some entry names a missing user, with `the user <name> does not exist`; otherwise every user receives its last shadow entry |
| Linking.CountGid | src/userlib/mod.rs:430-434 | the number of groups with a gid is zero exactly when no group has it |
| Linking.FindGid | src/userlib/mod.rs:356-363 | the first group with a gid, or none |
| Linking.CountOneIsUnique | src/userlib/mod.rs:430-435 | when exactly one group has the gid, it is the one found |
| Linking.ListingLinksCount | src/userlib/mod.rs:417-421 | a group adds one member link per occurrence of the name in its list |
| Linking.MemberLinksIff | src/userlib/mod.rs:414-425 | a user gets a member link to a gid exactly when a group with that gid lists the user |
| Linking.LinkGroup | src/userlib/mod.rs:415-422 | one group's member links are appended to the listed users and no user is added |
| Linking.LinkMembers | src/userlib/mod.rs:412-425 | the member phase gives every user the member links of all groups, in group order |
| Linking.PrimaryLinked | src/userlib/mod.rs:428-447 | a user gets a primary link exactly when one group has its gid |
| Linking.PrimaryNamesIff | src/userlib/mod.rs:428-440 | a name is appended to a group exactly when that group's gid is unique and the visited user with that gid has the name |
| Linking.PrimaryGroups | src/userlib/mod.rs:428-447 | the primary phase changes only member lists and keeps the number of groups |
| Linking.VisitPrimary | src/userlib/mod.rs:429-447 | one user's visit links it and appends its name to its unique primary group |
| Linking.LinkPrimaries | src/userlib/mod.rs:428-448 | the primary phase links every user in some visit order and appends the names accordingly |
| Linking.PhaseTwoDone | src/userlib/mod.rs:428-448 | the loop invariant of the primary phase yields its result once every user is visited |
| Linking.Linked | src/userlib/mod.rs:408-450 | linking only appends group links to a user |
| Linking.GroupsToUsers | src/userlib/mod.rs:408-450 | member links first, then primary links, for every user, and the groups gain the primary members |
| Linking.LinkedLinks | src/userlib/mod.rs:408-450 | a user's member links are exactly the groups that list it; its primary link exists exactly when its gid is unique among the groups |
| Linking.TwoGroupExample | src/userlib/mod.rs:514-531 | user `test` with groups `teste` (1002) and `another` (1003, lists test) gets the links Member 1003 then Primary 1002, and `teste` gains the member |
| Database.ParseImport | src/userlib/mod.rs:31-40 | importing fails exactly when some record fails; a shadow error is reported first |
| Database.ParseLoad | src/userlib/mod.rs:67-71 | loading fails exactly when some record fails; a passwd error is reported first |
| Database.LoadersAgree | src/userlib/mod.rs:31-78 | both loaders accept the same texts and build the same records |
| Database.LoadersReportDifferentErrors | src/userlib/mod.rs:36-39 | when passwd and shadow both fail, import reports the shadow error and load reports the passwd error |
| Database.Build | src/userlib/mod.rs:39-50 | the database holds the linked users, the groups with their primary members, and the hashes of the three texts |
| Database.ImportFromStrings | src/userlib/mod.rs:31-51 | an imported database is virtual, keeps the hashes of its texts and holds the linked users and groups; it fails exactly when a record fails |
| Database.LoadFiles | src/userlib/mod.rs:54-78 | loading locks all files and releases them again; it fails on a lock failure or a record failure, and otherwise keeps the files and the hashes of their texts |
| Database.InsertByPos | src/userlib/mod.rs:325 | inserting keeps the list sorted by position and adds exactly that user |
| Database.GetAllUsers | src/userlib/mod.rs:323-327 | all users, as a permutation of the map's values, sorted by position |
| Database.GetUserByName | src/userlib/mod.rs:329-331 | a user is found exactly when the name is a key |
| Database.GetUserById | src/userlib/mod.rs:333-341 | some user with the uid is returned exactly when one exists |
| Database.GetGroupByName | src/userlib/mod.rs:347-354 | the first group with the name, or none |
| Database.GetGroupById | src/userlib/mod.rs:356-363 | the first group with the gid, or none |
| Database.IsUsernameValidAndFree | src/userlib/mod.rs:374-378 | a name is valid and free exactly when it matches the pattern and no user has it, so `Debian-exim` never is |
| Database.IsGidValidAndFree | src/userlib/mod.rs:380-385 | a gid is free exactly when no group has it |
| Database.IsGroupnameValidAndFree | src/userlib/mod.rs:387-394 | a group name is valid and free exactly when it matches the pattern and no group has it |
| Database.UidFreeIffNotFound | src/userlib/mod.rs:333-372 | a uid is free exactly when looking it up finds no user |
| Database.WriteGroups | src/userlib/mod.rs:136-153 | the group file becomes the group lines joined by newlines, plus a final newline |
| Database.WrittenGroupsReadBack | src/userlib/mod.rs:136-153 | the lines of the written group file are the groups' lines |
| Database.WrittenNoGroups | src/userlib/mod.rs:136-153 | writing no groups leaves one empty line |
| Database.DeleteGroupById | src/userlib/mod.rs:168-171 | the groups with the gid are removed and every other group stays |
| Database.DeleteGroupByIdConcat | src/userlib/mod.rs:168-171 | removing by gid works on each part of a list separately, so the remaining groups keep their order |
| Database.DeleteGroupByIdSingle | src/userlib/mod.rs:168-171 | a single group is removed exactly when it has the gid |
| Deletion.Unlist | src/userlib/mod.rs:249-253 | the user leaves one group's member list and the other groups stay |
| Deletion.CascadeAsWritten | src/userlib/mod.rs:220-271 | the cascade as written touches only the group file and fails only on a missing group |
| Deletion.StepAsWritten | src/userlib/mod.rs:226-268 | undoing one link touches only the group file; it fails, changing nothing, exactly when the link is primary and no group has its gid |
| Deletion.StepAsWrittenFile | src/userlib/mod.rs:226-268 | a step that drops a group the user alone belonged to writes the group text read before the cascade without that group's line; every other successful step writes the remaining groups |
| Deletion.AsWrittenLastStep | src/userlib/mod.rs:220-271 | the cascade runs its links in order: its outcome is the last link's step after the cascade over the earlier links |
| Deletion.AsWrittenGroupFile | src/userlib/mod.rs:199-271 | for every input, the group file after a successful cascade is decided by the last link: the pre-cascade text without that group's line when it drops a sole-member primary group, the remaining groups otherwise |
| Deletion.AsWrittenFileUnlessLastCut | src/userlib/mod.rs:199-271 | unless the last link drops a sole-member primary group, the group file as written equals the corrected one |
| Deletion.RunCascade | src/userlib/mod.rs:220-271 | either cascade touches only the group file and fails only on a missing group, and it computes the same groups and result as the corrected one |
| Deletion.Cascade | src/userlib/mod.rs:220-271 | the corrected cascade touches only the group file, fails only on a missing group, and leaves the group file holding the remaining groups |
| Deletion.CascadesAgreeInMemory | src/userlib/mod.rs:220-271 | both cascades compute the same groups and the same result; only the file differs |
| Deletion.DeleteKeepsUnique | src/userlib/mod.rs:168-171 | deleting groups by gid keeps the gids unique |
| Deletion.CascadeUnlists | src/userlib/mod.rs:220-271 | after the cascade the gids are still unique and the user is listed in none of its groups |
| Deletion.WriteAccountFiles | src/userlib/mod.rs:79-116 | the passwd file loses the user's line; a shadow entry leaves the shadow file; no other file changes |
| Deletion.DeleteLocked | src/userlib/mod.rs:193-278 | with `AsWritten` the groups are handled by the crate's cascade over the group text read under the lock; the locks are always released; a changed passwd or shadow file aborts with `The userdatabase has been changed <name>`; a failed home removal aborts; success removes exactly that user |
| Deletion.DeleteUser | src/userlib/mod.rs:175-280 | an unknown name gives `NotFound`; with `AsWritten` the deletion is the crate's; a virtual database only drops the user from memory; success returns the removed user |
| Deletion.VirtualDeleteTwice | src/userlib/mod.rs:591-605 | deleting a user from an imported database succeeds once, removes one user, and fails the second time |
| Deletion.LockedDeleteRewritesFiles | src/userlib/mod.rs:197-218 | with the passwd line once in the file, the new passwd file is the trimmed text around the line, under either cascade |
| Deletion.LockedCorrectedDeleteWritesGroups | src/userlib/mod.rs:220-271 | with the corrected cascade and at least one link, the group file holds the remaining groups |
| Deletion.LockedDeletionsDifferOnlyInGroupFile | src/userlib/mod.rs:193-278 | the deletion as written and the corrected one give the same database and result, and the same files except the group file |
| Deletion.SeparateLocksDisjoint | src/userlib/files.rs:56-63 | separate files give three different guarded paths |
| Deletion.DeleteRewritesFiles | src/userlib/mod.rs:175-218 | the same passwd file for a database loaded from files whose passwd text is unchanged, under either cascade |
| Deletion.CorrectedDeleteWritesGroups | src/userlib/mod.rs:175-271 | the corrected deletion of a user with group links leaves the group file holding the remaining groups |
| Deletion.DeletionsDifferOnlyInGroupFile | src/userlib/mod.rs:175-280 | both deletions give the same database and result; their files are equal on a database without files and differ at most in the group file otherwise |
| Deletion.TesteLineCut | src/group/mod.rs:55-61 | cutting `teste:x:1002:` out of the two-group file leaves a newline and the `another` line |
| Deletion.AsWrittenCascadeKeepsRemovedMember | src/userlib/mod.rs:240-246 | on the two-group database the as-written cascade leaves `test` listed in `another` in the file, while the corrected one writes the updated groups |
| Creation.NewAccount | src/userlib/mod.rs:286-287 | a new account is the default user under the new name, with no shadow entry |
| Creation.NewUser | src/userlib/mod.rs:282-311 | an existing name is refused with `The username <name> already exists! Aborting!`; a database without files cannot create; success adds exactly the new account and releases the locks |
| Creation.NewUserAppends | src/userlib/mod.rs:291-295 | the passwd file becomes the old text with the new account's line appended |
| Creation.NewUserAddsLine | src/userlib/mod.rs:282-311 | the passwd file gains exactly the line `<name>:x:1001:1001::/:/bin/nologin` |
| Creation.NewUserStalesDeletion | src/userlib/mod.rs:201-206 | after a user is created the stored passwd hash is stale, so any later deletion on that database fails |

## Left out

- I/O failures of `file_to_string`, `File::create`, `write_all` and `read_exact` are not modelled: reads and writes of the file map always succeed. The I/O error types are kept only to model the error conversions.
- `remove_dir_all` in `delete_home` is not modelled: its outcome is the `homeRemoval` parameter of `DeleteLocked` and `DeleteUser`. Because the user always has a home directory, the branch for a missing one cannot happen and is left out.
- The liveness check at `src/userlib/files.rs:245` is an unimplemented `todo!` in the crate. `Files.TryToLockFile` models reaching it as an `Err` with the panic text. An unreadable pid in an existing lock file falls through to `was not able to lock!`.
- `Files.TryToLockFile`: the panics for a file path without a file name, and for an unexpected hard-link error kind, are not modelled, because the paths are given as directory and file name.
- `delete_group`, `new_group` and `GroupRead::get_encrypted_password` are `todo!()` in the crate and are not modelled.
- Logging through `log` is dropped.
- Text.DebugList: `{:?}` also escapes non-ASCII characters that Rust counts as non-printable or grapheme-extending; the model writes those characters as themselves, so it is exact only for the other characters.
- UserRecord.AddGroup: only the call sites (`src/userlib/mod.rs:419`, `:440`) are part of this model, not the method body, so "a link is appended and nothing else changes" is the assumed meaning.
- GroupRecord.AppendUser: only the call site (`src/userlib/mod.rs:436`) is part of this model, not the method body, so "a member is appended and nothing else changes" is the assumed meaning.
- GroupRecord.RemoveMember: only the trait signature (`src/api/mod.rs:85`) and the call sites (`src/userlib/mod.rs:252`, `:266`) are part of this model, not the method body, so "every listing of the name is dropped and nothing else changes" is the assumed meaning.
- Deletion.WriteAccountFiles: `Shadow::remove_in`, called at `src/userlib/mod.rs:102`, has no definition in the crate sources this model follows; `src/user/shadow_fields.rs` defines only `get_username` and `get_password` on `Shadow`. The model assumes it splits, trims and joins as `User::remove_in` does (`src/user/mod.rs:53-59`). The shadow-file contents stated by `Deletion.WriteAccountFiles` and the deletion lemmas built on it rest on that assumption.
- `UserLibError` derives `PartialEq`. The model compares errors with `Errors.ErrorEq`, which compares messages by their display text as the crate's `MyMessage` equality does.
- The panics of `string_to` (a failed line parse, a line number beyond `u32`) are `Err` results in the model. So are the panics of `shadow_to_users`, the `expect` in `load_files` and `delete_user`, and the `unwrap` of a malformed number. This applies to `Loading.StringTo`, `Loading.ShadowToUsers`, `Database.ImportFromStrings`, `Database.LoadFiles`, `PasswdFields.ParseId`, `GecosFields.GecosTryFrom`, `GroupRecord.ParseMembersList` and `GroupRecord.GroupFromString`; for the last two it is the `expect("failed to parse username")` on a member name (`src/group/mod.rs:152`), which becomes the member's `Invalid username <name>` error. `import_from_strings` itself returns no `Result`; a parse failure panics there.
- ShadowFields.DateSinceEpoch: an `i64` overflow of `days * 86400` gives the overflow panic's message as an `Err`. This is the behaviour of a debug build; a release build would wrap silently. The panic `chrono` raises for a timestamp outside its calendar range is not modelled.
- ShadowFields.DurationForDays: the panic of `chrono::Duration::days` for a day count outside its range is not modelled; every parsed `i64` gives a duration.
- `Deletion.DeleteLocked` does not model the failure to remove the user from the in-memory map after the files are written, because the user was found in the map at the start and nothing removes it in between.
- In `delete_user`, a stale passwd or shadow file gives a `Message` error, as the code does, not `FilesChanged`. The group file's hash is never checked, as in the code.
- The second `contains_key` test in `new_user` cannot fail after the first one has passed, and is left out of `Creation.NewUser`. So is the shadow append, because a new account never has a shadow entry.
- `Creation.NewUser` on a database without files models the `expect` panic on the lock result as `Err(FilesRequired)`.
- The crate's `HashMap` iteration order is unspecified. `Database.GetAllUsers`, `Database.GetUserById` and `Linking.GroupsToUsers` choose it nondeterministically, and their contracts hold for every order.
- The crate's group type is `Rc<Inner>` (`src/group/mod.rs:40`), shared between the group list and the users' links. The call sites at `src/userlib/mod.rs:251`, `:265` and `:436` call `borrow_mut()` on it, which assumes an interior mutability that this alias does not give. The model follows the evident meaning of those call sites: a group is changed in place, and users are linked to groups by gid, so a group changed after linking is looked up by gid again, as `delete_user` does.
- The concrete group test at `src/group/mod.rs:157-162` (`teste:x:1002:test,teste`) is covered by `GroupRecord.GroupRoundTrip` for all canonical lines rather than by a lemma about that one line.

## Findings

| source | as written | input that shows it | evidently intended | confidence | as-written member | corrected member |
|---|---|---|---|---|---|---|
| src/userlib/mod.rs:240-246 | When the deleted user is the only member of its primary group, `delete_from_group` cuts that group's line out of `group_file_content`. That is the group-file text read before the cascade began, so the file loses every membership removal that `write_groups` has already written for earlier links. | Group file `teste:x:1002:` then `another:x:1003:test`, and user `test` with gid 1002. After loading, `test`'s links are Member 1003 then Primary 1002 (the database of `src/userlib/mod.rs:514-531`). Deleting `test` first writes `another` without members. It then cuts `teste:x:1002:` from the original text, so the file ends with `another:x:1003:test`, which still lists the deleted user. `Deletion.DeleteUser` runs this cascade when given `AsWritten` and the corrected one when given `Corrected`. | The group file holds the remaining groups with the user removed from every member list. | not executed | Deletion.CascadeAsWritten, Deletion.AsWrittenGroupFile, Deletion.AsWrittenCascadeKeepsRemovedMember | Deletion.Cascade, Deletion.CascadeUnlists, Deletion.CorrectedDeleteWritesGroups |

=== FILE: create.dfy ===
/**
 * `new_user`: a user with default fields and the given name is appended to
 * the passwd file and added to the database. The default password is
 * disabled, so the user never has a shadow entry to append. The stored
 * texts of the files are not refreshed afterwards.
 */
module Creation {
  import opened Options
  import opened Errors
  import opened Text
  import opened Decimal
  import opened UserRecord
  import H = Hashes
  import F = Files
  import opened Database
  import opened Deletion

  /** The user `new_user` creates: the default user renamed. */
  function NewAccount(name: string): (u: User)
    ensures u.username == name && u.password == Disabled && u.uid == 1001 && u.gid == 1001
    ensures u.homeDir == "/" && u.shellPath == "/bin/nologin" && u.links == []
    ensures GetShadow(u).None?
  {
    DefaultUser().(username := name)
  }

  /** The error for a name already taken. */
  function ExistsError(name: string): UserLibError {
    FromText("The username " + name + " already exists! Aborting!")
  }

  /** `new_user`: a name already in use is refused; otherwise the three
      files are locked (a lock failure, which virtual mode always meets, is
      reported), the new user's line is appended to the passwd file, the
      locks are released and the user is added to the database. An append
      that fails is reported, with the locks released and nothing added. */
  function NewUser(db: UserDb, fs: F.FileSystem, pid: U32, name: string): (r: Outcome<User>)
    ensures name in db.users ==> r == Outcome(db, fs, Err(ExistsError(name)))
    ensures F.IsVirtual(db.files) ==> r.result.Err? && r.db == db
    ensures db.files.passwd.None? && name !in db.users ==> r == Outcome(db, fs, Err(FilesRequired))
    ensures r.result.Err? ==> r.db == db
    ensures r.result.Ok? ==> name !in db.users && r.result.value == NewAccount(name)
                             && r.db == db.(users := db.users[name := NewAccount(name)])
    ensures r.result.Ok? ==> !IsUsernameValidAndFree(r.db, name)
    ensures r.result.Ok? ==> F.LockPath(db.files.passwd.value) !in r.fs
                             && F.LockPath(db.files.shadow.value) !in r.fs
                             && F.LockPath(db.files.group.value) !in r.fs
  {
    if name in db.users then Outcome(db, fs, Err(ExistsError(name)))
    else
      var s := F.LockAllGet(db.files, fs, pid);
      if s.result.Err? then Outcome(db, s.fs, Err(s.result.error))
      else
        var l := s.result.value;
        var u := NewAccount(name);
        match F.Append(s.fs, l.passwd, UserToString(u))
        case Err(e) => Outcome(db, F.Release(s.fs, l), Err(e))
        case Ok(written) => Outcome(db.(users := db.users[name := u]), F.Release(written, l), Ok(u))
  }

  /** The passwd text read under the locks is the file as it was, or empty
      when locking removed it. */
  lemma PasswdReadUnderLock(f: F.Files, fs: F.FileSystem, pid: U32)
    requires !F.IsVirtual(f) && F.Separate(f) && F.LockAllGet(f, fs, pid).result.Ok?
    ensures var s := F.LockAllGet(f, fs, pid);
            var t := F.GuardedText(s.fs, s.result.value.passwd);
            var p := F.PathText(f.passwd.value);
            t == "" || (p in fs && t == fs[p])
  {
    F.LockAllOnlyAddsLocks(f, fs, pid);
    var p := F.PathText(f.passwd.value);
    var locks := [F.LockPath(f.passwd.value), F.LockPath(f.shadow.value), F.LockPath(f.group.value)];
    assert p != locks[0] && p != locks[1] && p != locks[2];
  }

  /** A successful `new_user` on separate files leaves the passwd file as
      its text before, with the new user's line appended. */
  lemma NewUserAppends(db: UserDb, fs: F.FileSystem, pid: U32, name: string)
    requires !F.IsVirtual(db.files) && F.Separate(db.files)
    requires NewUser(db, fs, pid, name).result.Ok?
    ensures var r := NewUser(db, fs, pid, name);
            var p := F.PathText(db.files.passwd.value);
            && p in fs && fs[p] != "" && p in r.fs
            && F.AppendText(fs[p], UserToString(NewAccount(name))).Ok?
            && r.fs[p] == F.AppendText(fs[p], UserToString(NewAccount(name))).value
  {
    var f := db.files;
    var p := F.PathText(f.passwd.value);
    var s := F.LockAllGet(f, fs, pid);
    var l := s.result.value;
    var line := UserToString(NewAccount(name));
    PasswdReadUnderLock(f, fs, pid);
    var written := F.Append(s.fs, l.passwd, line).value;
    assert NewUser(db, fs, pid, name).fs == F.Release(written, l);
    assert F.GuardedText(s.fs, l.passwd) == fs[p];
    var locks := [F.LockPath(f.passwd.value), F.LockPath(f.shadow.value), F.LockPath(f.group.value)];
    assert p != locks[0] && p != locks[1] && p != locks[2];
  }

  /** On separate files whose passwd text does not end in a carriage
      return, a successful `new_user` keeps every line of the passwd file
      and adds the new user's line at the end. */
  lemma NewUserAddsLine(db: UserDb, fs: F.FileSystem, pid: U32, name: string, p: string)
    requires !F.IsVirtual(db.files) && F.Separate(db.files) && '\n' !in name
    requires p == F.PathText(db.files.passwd.value)
    requires p in fs && F.EndsWithoutCR(fs[p])
    requires NewUser(db, fs, pid, name).result.Ok?
    ensures p in NewUser(db, fs, pid, name).fs
    ensures Lines(NewUser(db, fs, pid, name).fs[p]) == Lines(fs[p]) + [name + ":x:1001:1001::/:/bin/nologin"]
  {
    NewUserAppends(db, fs, pid, name);
    AppendedAccountLine(fs[p], name);
  }

  /** Appending the line of a new account named `name` adds that line. */
  lemma AppendedAccountLine(text: string, name: string)
    requires F.EndsWithoutCR(text) && '\n' !in name
    ensures F.AppendText(text, UserToString(NewAccount(name))).Ok?
    ensures Lines(F.AppendText(text, UserToString(NewAccount(name))).value)
         == Lines(text) + [name + ":x:1001:1001::/:/bin/nologin"]
  {
    DefaultUserDisplay(name);
    var line := name + ":x:1001:1001::/:/bin/nologin";
    assert '\n' !in line;
    F.AppendAddsOneLine(text, line);
  }

  /** The database keeps the passwd text it was loaded from after
      `new_user` grows the file, so on separate files every later deletion
      through the same database fails, at the lock or at the check for
      changed files. */
  lemma NewUserStalesDeletion(db: UserDb, fs: F.FileSystem, pid: U32, name: string, other: string,
                              deleteHome: DeleteHome, homeRemoval: Option<IoError>, cascading: Cascading)
    requires !F.IsVirtual(db.files) && F.Separate(db.files)
    requires var p := F.PathText(db.files.passwd.value); p in fs && db.hashes.passwd == H.NewSourceHash(fs[p])
    requires NewUser(db, fs, pid, name).result.Ok?
    ensures var r := NewUser(db, fs, pid, name);
            DeleteUser(r.db, r.fs, pid, other, deleteHome, homeRemoval, cascading).result.Err?
  {
    var f := db.files;
    var p := F.PathText(f.passwd.value);
    var r := NewUser(db, fs, pid, name);
    NewUserAppends(db, fs, pid, name);
    var grown := r.fs[p];
    assert |grown| > |fs[p]|;
    if other in r.db.users {
      var s' := F.LockAllGet(f, r.fs, pid);
      if s'.result.Ok? {
        PasswdReadUnderLock(f, r.fs, pid);
        var t := ReadLocked(s'.fs, s'.result.value);
        assert t.passwd == "" || t.passwd == grown;
        assert H.HasChanged(r.db.hashes.passwd, t.passwd);
        assert DeleteUser(r.db, r.fs, pid, other, deleteHome, homeRemoval, cascading)
            == DeleteLocked(r.db, s'.fs, s'.result.value, other, deleteHome, homeRemoval, cascading);
      }
    }
  }
}

=== FILE: database.dfy ===
/**
 * `UserDBLocal`: the in-memory user database. It remembers which files it
 * came from (none in virtual mode), the texts it was loaded from, the users
 * keyed by name and the groups in file order. This module holds loading,
 * the read and validation queries and the two group-file helpers.
 */
module Database {
  import opened Options
  import opened Errors
  import opened Text
  import opened Decimal
  import opened PasswdFields
  import opened UserRecord
  import opened GroupRecord
  import SF = ShadowFields
  import H = Hashes
  import F = Files
  import opened Loading
  import opened Linking

  datatype UserDb = UserDb(files: F.Files, hashes: H.Hashes, users: map<string, User>, groups: seq<Group>)

  /** The database and the file system after an operation, with its
      outcome. */
  datatype Outcome<T> = Outcome(db: UserDb, fs: F.FileSystem, result: Result<T>)

  // ---------------------------------------------------------------------
  // Loading
  // ---------------------------------------------------------------------

  /** The records of the three texts, with the shadow entries merged into
      the users but before any group linking. */
  datatype Parsed = Parsed(users: map<string, User>, groups: seq<Group>)

  /** The three texts parse and every shadow entry names a user. */
  predicate Loadable(passwd: string, shadow: string, group: string) {
    && StringTo(passwd, UserFromString).Ok?
    && StringTo(shadow, SF.ShadowFromString).Ok?
    && StringTo(group, GroupFromString).Ok?
    && ShadowToUsers(UserVecToHashmap(StringTo(passwd, UserFromString).value),
                     StringTo(shadow, SF.ShadowFromString).value).Ok?
  }

  /** The records of loadable texts. */
  function Records(passwd: string, shadow: string, group: string): (r: Parsed)
    requires Loadable(passwd, shadow, group)
    ensures r.groups == StringTo(group, GroupFromString).value
    ensures r.users.Keys == UserVecToHashmap(StringTo(passwd, UserFromString).value).Keys
  {
    var users := UserVecToHashmap(StringTo(passwd, UserFromString).value);
    Parsed(ShadowToUsers(users, StringTo(shadow, SF.ShadowFromString).value).value,
           StringTo(group, GroupFromString).value)
  }

  /** The parsing of `import_from_strings`: shadow first, then passwd, then
      group, then the merge; the first failure is the outcome. */
  function ParseImport(passwd: string, shadow: string, group: string): (r: Result<Parsed>)
    ensures r.Ok? <==> Loadable(passwd, shadow, group)
    ensures r.Ok? ==> r.value == Records(passwd, shadow, group)
    ensures StringTo(shadow, SF.ShadowFromString).Err? ==> r == Err(StringTo(shadow, SF.ShadowFromString).error)
  {
    var entries :- StringTo(shadow, SF.ShadowFromString);
    var users :- StringTo(passwd, UserFromString);
    var groups :- StringTo(group, GroupFromString);
    var merged :- ShadowToUsers(UserVecToHashmap(users), entries);
    Ok(Parsed(merged, groups))
  }

  /** The parsing of `load_files`: passwd first, then shadow, then group,
      then the merge; the first failure is the outcome. */
  function ParseLoad(passwd: string, shadow: string, group: string): (r: Result<Parsed>)
    ensures r.Ok? <==> Loadable(passwd, shadow, group)
    ensures r.Ok? ==> r.value == Records(passwd, shadow, group)
    ensures StringTo(passwd, UserFromString).Err? ==> r == Err(StringTo(passwd, UserFromString).error)
  {
    var users :- StringTo(passwd, UserFromString);
    var entries :- StringTo(shadow, SF.ShadowFromString);
    var groups :- StringTo(group, GroupFromString);
    var merged :- ShadowToUsers(UserVecToHashmap(users), entries);
    Ok(Parsed(merged, groups))
  }

  /** The two loaders accept the same texts and build the same records; they
      differ only in which error they report when several texts are bad. */
  lemma LoadersAgree(passwd: string, shadow: string, group: string)
    ensures ParseImport(passwd, shadow, group).Ok? <==> ParseLoad(passwd, shadow, group).Ok?
    ensures ParseImport(passwd, shadow, group).Ok? ==> ParseImport(passwd, shadow, group) == ParseLoad(passwd, shadow, group)
  {
  }

  /** The loaders may disagree on the error: with a bad passwd text and a bad
      shadow text, one reports the shadow error and the other the passwd
      error. */
  lemma LoadersReportDifferentErrors(passwd: string, shadow: string, group: string)
    requires StringTo(passwd, UserFromString).Err? && StringTo(shadow, SF.ShadowFromString).Err?
    ensures ParseImport(passwd, shadow, group) == Err(StringTo(shadow, SF.ShadowFromString).error)
    ensures ParseLoad(passwd, shadow, group) == Err(StringTo(passwd, UserFromString).error)
  {
  }

  /** The database built from parsed records: the groups are linked to the
      users, and the three texts are remembered. */
  method Build(files: F.Files, p: Parsed, passwd: string, shadow: string, group: string)
    returns (db: UserDb, ghost order: seq<string>)
    ensures db.files == files && db.hashes == H.NewHashes(passwd, shadow, group)
    ensures db.users.Keys == p.users.Keys
    ensures forall k :: k in p.users ==> db.users[k] == Linked(p.users[k], k, p.groups)
    ensures IsVisitOrder(order, p.users)
    ensures db.groups == PrimaryGroups(order, p.users, p.groups)
  {
    var users, groups;
    users, groups, order := GroupsToUsers(p.users, p.groups);
    db := UserDb(files, H.NewHashes(passwd, shadow, group), users, groups);
  }

  /** `import_from_strings`: a database in virtual mode (no files) from the
      three texts. A text that does not parse, or a shadow entry without its
      user, makes the source panic; here that is the error. */
  method ImportFromStrings(passwd: string, shadow: string, group: string)
    returns (r: Result<UserDb>, ghost order: seq<string>)
    ensures r.Ok? <==> Loadable(passwd, shadow, group)
    ensures r.Err? ==> r.error == ParseImport(passwd, shadow, group).error
    ensures r.Ok? ==> r.value.files == F.Files(None, None, None) && F.IsVirtual(r.value.files)
    ensures r.Ok? ==> r.value.hashes == H.NewHashes(passwd, shadow, group)
    ensures r.Ok? ==> var p := Records(passwd, shadow, group);
                      && r.value.users.Keys == p.users.Keys
                      && (forall k :: k in p.users ==> r.value.users[k] == Linked(p.users[k], k, p.groups))
                      && IsVisitOrder(order, p.users)
                      && r.value.groups == PrimaryGroups(order, p.users, p.groups)
  {
    var parsed := ParseImport(passwd, shadow, group);
    if parsed.Err? {
      order := [];
      return Err(parsed.error), order;
    }
    var db;
    db, order := Build(F.Files(None, None, None), parsed.value, passwd, shadow, group);
    r := Ok(db);
  }

  /** The texts of the three locked files. */
  datatype Texts = Texts(passwd: string, shadow: string, group: string)

  function ReadLocked(fs: F.FileSystem, l: F.Locked): Texts {
    Texts(F.GuardedText(fs, l.passwd), F.GuardedText(fs, l.shadow), F.GuardedText(fs, l.group))
  }

  /** `load_files`: the three files are locked, read and released, then
      parsed. A lock that cannot be taken makes the source panic; here its
      error is the outcome. */
  method LoadFiles(files: F.Files, fs: F.FileSystem, pid: U32)
    returns (fs': F.FileSystem, r: Result<UserDb>, ghost order: seq<string>)
    ensures var s := F.LockAllGet(files, fs, pid);
            s.result.Err? ==> fs' == s.fs && r == Err(s.result.error)
    ensures F.OnlyRemoved(fs, fs')
    ensures var s := F.LockAllGet(files, fs, pid);
            s.result.Ok? ==> var t := ReadLocked(s.fs, s.result.value);
                             && fs' == F.Release(s.fs, s.result.value)
                             && (r.Ok? <==> Loadable(t.passwd, t.shadow, t.group))
                             && (r.Err? ==> r.error == ParseLoad(t.passwd, t.shadow, t.group).error)
                             && (r.Ok? ==> r.value.files == files
                                           && r.value.hashes == H.NewHashes(t.passwd, t.shadow, t.group))
    ensures r.Ok? ==> !F.IsVirtual(files)
  {
    var s := F.LockAllGet(files, fs, pid);
    order := [];
    if s.result.Err? {
      return s.fs, Err(s.result.error), order;
    }
    var t := ReadLocked(s.fs, s.result.value);
    fs' := F.Release(s.fs, s.result.value);
    F.LockAllOnlyAddsLocks(files, fs, pid);
    var parsed := ParseLoad(t.passwd, t.shadow, t.group);
    if parsed.Err? {
      return fs', Err(parsed.error), order;
    }
    var db;
    db, order := Build(files, parsed.value, t.passwd, t.shadow, t.group);
    r := Ok(db);
  }

  // ---------------------------------------------------------------------
  // Reading
  // ---------------------------------------------------------------------

  /** The users stored under the names of `order`, in that order. */
  function UsersOf(order: seq<string>, users: map<string, User>): (r: seq<User>)
    requires forall i :: 0 <= i < |order| ==> order[i] in users
    ensures |r| == |order| && forall i :: 0 <= i < |order| ==> r[i] == users[order[i]]
  {
    seq(|order|, i requires 0 <= i < |order| => users[order[i]])
  }

  predicate SortedByPos(s: seq<User>) {
    forall i, j :: 0 <= i < j < |s| ==> s[i].pos <= s[j].pos
  }

  /** Inserts a user into a list sorted by position. */
  function InsertByPos(u: User, s: seq<User>): (r: seq<User>)
    requires SortedByPos(s)
    ensures SortedByPos(r)
    ensures multiset(r) == multiset(s) + multiset{u}
    decreases |s|
  {
    if |s| == 0 then [u]
    else if u.pos <= s[0].pos then [u] + s
    else
      var rest := InsertByPos(u, s[1..]);
      InsertBehindFirst(u, s, rest);
      [s[0]] + rest
  }

  /** A user placed behind the first of a sorted list keeps it sorted, and
      the list keeps its users. */
  lemma InsertBehindFirst(u: User, s: seq<User>, rest: seq<User>)
    requires |s| > 0 && SortedByPos(s) && s[0].pos < u.pos
    requires SortedByPos(rest) && multiset(rest) == multiset(s[1..]) + multiset{u}
    ensures SortedByPos([s[0]] + rest)
    ensures multiset([s[0]] + rest) == multiset(s) + multiset{u}
  {
    assert s == [s[0]] + s[1..];
    forall x | x in rest ensures s[0].pos <= x.pos {
      assert x in multiset(rest);
      if x != u {
        assert x in multiset(s[1..]);
      }
    }
    var t := [s[0]] + rest;
    forall i, j | 0 <= i < j < |t| ensures t[i].pos <= t[j].pos {
      if i > 0 {
        assert t[i] == rest[i - 1] && t[j] == rest[j - 1];
      } else {
        assert t[j] == rest[j - 1];
        assert rest[j - 1] in rest;
      }
    }
  }

  /** `get_all_users`: every user once, sorted by line position; the users
      are collected in the order the source's hash map yields them. */
  method GetAllUsers(db: UserDb) returns (r: seq<User>, ghost order: seq<string>)
    ensures IsVisitOrder(order, db.users)
    ensures multiset(r) == multiset(UsersOf(order, db.users))
    ensures SortedByPos(r)
  {
    r := [];
    order := [];
    var remaining := db.users.Keys;
    while remaining != {}
      invariant PartlyVisited(order, remaining, db.users)
      invariant SortedByPos(r)
      invariant multiset(r) == multiset(UsersOf(order, db.users))
      decreases |remaining|
    {
      var k :| k in remaining;
      r := InsertByPos(db.users[k], r);
      VisitOneMore(order, remaining, db.users, k);
      assert UsersOf(order + [k], db.users) == UsersOf(order, db.users) + [db.users[k]];
      order := order + [k];
      remaining := remaining - {k};
    }
  }

  /** `get_user_by_name`. */
  function GetUserByName(db: UserDb, name: string): (r: Option<User>)
    ensures r.Some? <==> name in db.users
    ensures r.Some? ==> r.value == db.users[name]
  {
    if name in db.users then Some(db.users[name]) else None
  }

  /** `get_user_by_id`: some user with the uid, whichever the hash map yields
      first. */
  method GetUserById(db: UserDb, uid: U32) returns (r: Option<User>)
    ensures r.None? <==> forall k :: k in db.users ==> db.users[k].uid != uid
    ensures r.Some? ==> r.value.uid == uid && r.value in db.users.Values
  {
    if k :| k in db.users && db.users[k].uid == uid {
      r := Some(db.users[k]);
    } else {
      r := None;
    }
  }

  /** `get_all_groups`: the groups in file order. */
  function GetAllGroups(db: UserDb): (r: seq<Group>)
    ensures |r| == |db.groups| && forall i :: 0 <= i < |r| ==> r[i] == db.groups[i]
  {
    db.groups
  }

  /** The index of the first group with a name, or -1 when none has it. */
  function FindGroupname(groups: seq<Group>, name: string): (r: int)
    ensures -1 <= r < |groups|
    ensures r == -1 <==> forall i :: 0 <= i < |groups| ==> groups[i].groupname != name
    ensures r >= 0 ==> groups[r].groupname == name
    ensures forall i :: 0 <= i < r ==> groups[i].groupname != name
    decreases |groups|
  {
    if |groups| == 0 then -1
    else if groups[0].groupname == name then 0
    else
      var r := FindGroupname(groups[1..], name);
      if r < 0 then -1 else r + 1
  }

  /** `get_group_by_name`: the first group with the name. */
  function GetGroupByName(db: UserDb, name: string): (r: Option<Group>)
    ensures r.None? <==> forall i :: 0 <= i < |db.groups| ==> db.groups[i].groupname != name
    ensures r.Some? ==> exists i :: 0 <= i < |db.groups| && db.groups[i] == r.value
                                    && r.value.groupname == name
                                    && forall j :: 0 <= j < i ==> db.groups[j].groupname != name
  {
    var i := FindGroupname(db.groups, name);
    if i < 0 then None else Some(db.groups[i])
  }

  /** `get_group_by_id`: the first group with the gid. */
  function GetGroupById(db: UserDb, gid: U32): (r: Option<Group>)
    ensures r.None? <==> forall i :: 0 <= i < |db.groups| ==> db.groups[i].gid != gid
    ensures r.Some? ==> exists i :: 0 <= i < |db.groups| && db.groups[i] == r.value && r.value.gid == gid
                                    && forall j :: 0 <= j < i ==> db.groups[j].gid != gid
  {
    var i := FindGid(db.groups, gid);
    if i < 0 then None else Some(db.groups[i])
  }

  // ---------------------------------------------------------------------
  // Validation
  // ---------------------------------------------------------------------

  /** `is_uid_valid_and_free`: only freeness is checked. */
  function IsUidValidAndFree(db: UserDb, uid: U32): (r: bool)
    ensures r <==> forall k :: k in db.users ==> db.users[k].uid != uid
  {
    forall k :: k in db.users ==> db.users[k].uid != uid
  }

  /** `is_username_valid_and_free`: a valid name no user has; `Debian-exim`,
      accepted when parsing, is not valid here. */
  function IsUsernameValidAndFree(db: UserDb, name: string): (r: bool)
    ensures r <==> IsUsernameValid(name) && GetUserByName(db, name).None?
    ensures name == DEBIAN_EXIM ==> !r
  {
    assert !IsNameHead(DEBIAN_EXIM[0]);
    IsUsernameValid(name) && GetUserByName(db, name).None?
  }

  /** `is_gid_valid_and_free`: only freeness is checked. */
  function IsGidValidAndFree(db: UserDb, gid: U32): (r: bool)
    ensures r <==> GetGroupById(db, gid).None?
  {
    forall i :: 0 <= i < |db.groups| ==> db.groups[i].gid != gid
  }

  /** `is_groupname_valid_and_free`: a valid name no group has. */
  function IsGroupnameValidAndFree(db: UserDb, name: string): (r: bool)
    ensures r <==> IsGroupnameValid(name) && GetGroupByName(db, name).None?
  {
    IsGroupnameValid(name) && forall i :: 0 <= i < |db.groups| ==> db.groups[i].groupname != name
  }

  /** A uid is free exactly when looking it up finds no user. */
  method UidFreeIffNotFound(db: UserDb, uid: U32) returns (found: Option<User>)
    ensures IsUidValidAndFree(db, uid) <==> found.None?
    ensures found.Some? ==> found.value.uid == uid
  {
    found := GetUserById(db, uid);
  }

  // ---------------------------------------------------------------------
  // Group-file helpers
  // ---------------------------------------------------------------------

  /** The displays of the groups, in order. */
  function GroupLines(groups: seq<Group>): (r: seq<string>)
    ensures |r| == |groups| && forall i :: 0 <= i < |groups| ==> r[i] == GroupToString(groups[i])
  {
    seq(|groups|, i requires 0 <= i < |groups| => GroupToString(groups[i]))
  }

  /** The text `write_groups` writes: the displays joined by newlines. */
  function FormatGroups(groups: seq<Group>): string {
    Join(GroupLines(groups), '\n')
  }

  /** `write_groups`: the group file is replaced by the displays of the
      groups, one per line. */
  function WriteGroups(fs: F.FileSystem, g: F.Guard, groups: seq<Group>): (r: F.FileSystem)
    ensures r == F.ReplaceContents(fs, g, FormatGroups(groups))
    ensures g.path in r && r[g.path] == FormatGroups(groups) + "\n"
  {
    F.ReplaceContents(fs, g, FormatGroups(groups))
  }

  /** A display that reads back as one line of its own. */
  predicate IsLineText(s: string) {
    s != "" && '\n' !in s && s[|s| - 1] != '\r'
  }

  /** Reading the group file back: after `write_groups` its lines are
      exactly the displays of the groups, when there is at least one group
      and no display spans or ends a line. With no group the file is a
      single empty line. */
  lemma WrittenGroupsReadBack(fs: F.FileSystem, g: F.Guard, groups: seq<Group>)
    requires |groups| > 0
    requires forall i :: 0 <= i < |groups| ==> IsLineText(GroupToString(groups[i]))
    ensures Lines(WriteGroups(fs, g, groups)[g.path]) == GroupLines(groups)
  {
    var lines := GroupLines(groups);
    LinesOfJoin(lines);
    JoinEndsWithLast(lines, '\n');
    LinesOfTerminated(FormatGroups(groups));
  }

  /** Writing no groups leaves one empty line. */
  lemma WrittenNoGroups(fs: F.FileSystem, g: F.Guard)
    ensures WriteGroups(fs, g, [])[g.path] == "\n"
    ensures Lines("\n") == [""]
  {
    assert Split("\n", '\n') == ["", ""] by {
      SplitConcat("", "", '\n');
    }
  }

  /** The lines of joined line texts are those texts. */
  lemma {:induction false} LinesOfJoin(lines: seq<string>)
    requires |lines| > 0
    requires forall i :: 0 <= i < |lines| ==> IsLineText(lines[i])
    ensures Lines(Join(lines, '\n')) == lines
    decreases |lines|
  {
    var n := |lines| - 1;
    if n == 0 {
      assert Join(lines, '\n') == lines[0];
      SplitWithoutSeparator(lines[0], '\n');
    } else {
      var front := lines[..n];
      LinesOfJoin(front);
      assert lines == front + [lines[n]];
      JoinConcat(front, [lines[n]], '\n');
      JoinEndsWithLast(front, '\n');
      LinesOfTerminated(Join(front, '\n'));
      assert Join(front, '\n') + "\n" + lines[n] == (Join(front, '\n') + "\n") + lines[n];
      LinesAfterNewline(Join(front, '\n') + "\n", lines[n]);
    }
  }

  /** `delete_group_by_id`: drops every group with the gid, keeping the
      others in order. */
  function DeleteGroupById(groups: seq<Group>, gid: U32): (r: seq<Group>)
    ensures forall i :: 0 <= i < |r| ==> r[i].gid != gid
    ensures forall x :: x in r ==> x in groups
    ensures forall x :: x in groups && x.gid != gid ==> x in r
    ensures |r| + CountGid(groups, gid) == |groups|
    decreases |groups|
  {
    if |groups| == 0 then []
    else
      var n := |groups| - 1;
      var front := DeleteGroupById(groups[..n], gid);
      assert groups == groups[..n] + [groups[n]];
      if groups[n].gid == gid then front else front + [groups[n]]
  }

  /** Dropping the groups of a gid is a filter: it works on each part of a
      list separately, so the kept groups stay in file order. */
  lemma {:induction false} DeleteGroupByIdConcat(a: seq<Group>, b: seq<Group>, gid: U32)
    ensures DeleteGroupById(a + b, gid) == DeleteGroupById(a, gid) + DeleteGroupById(b, gid)
    decreases |b|
  {
    if |b| == 0 {
      assert a + b == a;
    } else {
      var n := |b| - 1;
      var ab := a + b;
      assert ab[..|ab| - 1] == a + b[..n];
      assert ab[|ab| - 1] == b[n];
      DeleteGroupByIdConcat(a, b[..n], gid);
      DeleteGroupByIdLast(ab, gid);
      DeleteGroupByIdLast(b, gid);
    }
  }

  /** One unfolding of `DeleteGroupById` at the last group. */
  lemma DeleteGroupByIdLast(groups: seq<Group>, gid: U32)
    requires |groups| > 0
    ensures var n := |groups| - 1;
            DeleteGroupById(groups, gid)
            == DeleteGroupById(groups[..n], gid) + (if groups[n].gid == gid then [] else [groups[n]])
  {
  }

  /** A single group is dropped exactly when it carries the gid. */
  lemma DeleteGroupByIdSingle(x: Group, gid: U32)
    ensures DeleteGroupById([x], gid) == if x.gid == gid then [] else [x]
  {
    assert [x][..0] == [];
  }
}

=== FILE: decimal.dfy ===
/**
 * Decimal text of integers as Rust's `str::parse` and `Display` treat it:
 * `parse::<u32>` / `parse::<u64>` accept an optional `+` and one or more ASCII
 * digits whose value fits the type; `parse::<i64>` accepts `+` or `-`;
 * `Display` prints the shortest digit string, with `-` for negatives.
 */
module Decimal {
  import opened Options

  const U32_LIMIT: nat := 0x1_0000_0000
  const U64_LIMIT: nat := 0x1_0000_0000_0000_0000
  const I64_MIN: int := -0x8000_0000_0000_0000
  const I64_MAX: int := 0x7FFF_FFFF_FFFF_FFFF

  /** Rust's `u32`. */
  type U32 = x: int | 0 <= x < 0x1_0000_0000

  predicate IsDigit(c: char) {
    '0' <= c <= '9'
  }

  predicate AllDigits(s: string) {
    forall i :: 0 <= i < |s| ==> IsDigit(s[i])
  }

  function DigitValue(c: char): nat
    requires IsDigit(c)
  {
    (c as int) - ('0' as int)
  }

  function DigitChar(d: nat): (c: char)
    requires d < 10
    ensures IsDigit(c) && DigitValue(c) == d
  {
    (('0' as int) + d) as char
  }

  /** The value of a digit string, most significant digit first. */
  function DigitsValue(s: string): nat
    requires AllDigits(s)
    decreases |s|
  {
    if |s| == 0 then 0 else 10 * DigitsValue(s[..|s| - 1]) + DigitValue(s[|s| - 1])
  }

  /** The text `Display` prints for a non-negative integer: digits only, and
      no leading zero unless the number is zero. */
  predicate IsCanonicalNat(s: string) {
    |s| > 0 && AllDigits(s) && (s[0] == '0' ==> |s| == 1)
  }

  /** The text `Display` prints for an integer. */
  predicate IsCanonicalInt(s: string) {
    || IsCanonicalNat(s)
    || (|s| > 1 && s[0] == '-' && IsCanonicalNat(s[1..]) && s[1..] != "0")
  }

  /** `Display` of a non-negative integer. */
  function NatToString(n: nat): (r: string)
    ensures IsCanonicalNat(r) && DigitsValue(r) == n
    decreases n
  {
    if n < 10 then [DigitChar(n)]
    else
      var prefix := NatToString(n / 10);
      var r := prefix + [DigitChar(n % 10)];
      assert r[..|r| - 1] == prefix;
      r
  }

  /** `Display` of an integer. */
  function IntToString(i: int): (r: string)
    ensures IsCanonicalInt(r)
    ensures |r| > 0 && (r[0] == '-' <==> i < 0)
  {
    if i < 0 then
      var r := "-" + NatToString(-i);
      assert r[1..] == NatToString(-i);
      r
    else NatToString(i)
  }

  /** A digit string whose first digit is not zero has a positive value. */
  lemma {:induction false} LeadingDigitPositive(s: string)
    requires |s| > 0 && AllDigits(s) && s[0] != '0'
    ensures DigitsValue(s) > 0
    decreases |s|
  {
    if |s| > 1 {
      LeadingDigitPositive(s[..|s| - 1]);
    }
  }

  /** Printing the value of a canonical digit string gives the string back. */
  lemma {:induction false} NatToStringOfCanonical(s: string)
    requires IsCanonicalNat(s)
    ensures NatToString(DigitsValue(s)) == s
    decreases |s|
  {
    if |s| > 1 {
      var prefix := s[..|s| - 1];
      assert prefix[0] == s[0];
      LeadingDigitPositive(prefix);
      NatToStringOfCanonical(prefix);
      var n := DigitsValue(s);
      assert n / 10 == DigitsValue(prefix) && n % 10 == DigitValue(s[|s| - 1]);
      assert s == prefix + [s[|s| - 1]];
    }
  }

  /** Two canonical digit strings are equal exactly when their values are. */
  lemma CanonicalNatInjective(s: string, t: string)
    requires IsCanonicalNat(s) && IsCanonicalNat(t)
    ensures s == t <==> DigitsValue(s) == DigitsValue(t)
  {
    NatToStringOfCanonical(s);
    NatToStringOfCanonical(t);
  }

  /** The digits of an unsigned literal: the text after an optional `+`. */
  function UnsignedDigits(s: string): string {
    if |s| > 0 && s[0] == '+' then s[1..] else s
  }

  /** `s.parse::<uN>()` for the type whose values lie below `limit`: an
      optional `+`, then at least one ASCII digit; anything else, or a value
      that does not fit, is an error. */
  function ParseUnsigned(s: string, limit: nat): (r: Option<nat>)
    ensures r.Some? ==> r.value < limit
    ensures s == "" || s == "+" ==> r.None?
    ensures |s| > 0 && s[0] != '+' && !IsDigit(s[0]) ==> r.None?
    ensures (exists i :: 0 < i < |s| && !IsDigit(s[i])) ==> r.None?
  {
    var digits := UnsignedDigits(s);
    if |digits| == 0 || !AllDigits(digits) then None
    else if DigitsValue(digits) < limit then Some(DigitsValue(digits))
    else None
  }

  /** `s.parse::<i64>()`: an optional sign, then at least one ASCII digit, with
      a value in the `i64` range. */
  function ParseI64(s: string): (r: Option<int>)
    ensures r.Some? ==> I64_MIN <= r.value <= I64_MAX
    ensures s == "" || s == "+" || s == "-" ==> r.None?
    ensures (exists i :: 0 < i < |s| && !IsDigit(s[i])) ==> r.None?
  {
    if |s| > 0 && s[0] == '-' then
      var digits := s[1..];
      if |digits| == 0 || !AllDigits(digits) then None
      else if I64_MIN <= -(DigitsValue(digits) as int) then Some(-(DigitsValue(digits) as int))
      else None
    else
      match ParseUnsigned(s, I64_MAX + 1)
      case None => None
      case Some(v) => Some(v)
  }

  /** Parsing what `Display` printed gives the number back. */
  lemma ParseUnsignedOfDisplay(n: nat, limit: nat)
    requires n < limit
    ensures ParseUnsigned(NatToString(n), limit) == Some(n)
  {
  }

  /** On canonical text, printing the parsed value reproduces the text. */
  lemma DisplayOfParseUnsigned(s: string, limit: nat)
    requires IsCanonicalNat(s) && ParseUnsigned(s, limit).Some?
    ensures NatToString(ParseUnsigned(s, limit).value) == s
  {
    NatToStringOfCanonical(s);
  }

  /** A `+` sign or a leading zero is accepted by the parser but not printed
      back, so the round trip needs canonical text. */
  lemma ParseUnsignedNonCanonical()
    ensures ParseUnsigned("+7", U32_LIMIT) == Some(7) && NatToString(7) == "7"
    ensures ParseUnsigned("007", U32_LIMIT) == Some(7)
  {
    assert "+7"[1..] == "7";
    assert DigitsValue("7") == 7 by {
      assert "7"[..0] == "";
    }
    assert DigitsValue("007") == 7 by {
      assert "007"[..2] == "00";
      assert "00"[..1] == "0";
      assert "0"[..0] == "";
    }
  }

  /** Parsing what `Display` printed gives the `i64` back. */
  lemma ParseI64OfDisplay(i: int)
    requires I64_MIN <= i <= I64_MAX
    ensures ParseI64(IntToString(i)) == Some(i)
  {
    if i < 0 {
      assert IntToString(i)[1..] == NatToString(-i);
    } else {
      ParseUnsignedOfDisplay(i, I64_MAX + 1);
    }
  }

  /** On canonical text, printing the parsed `i64` reproduces the text. */
  lemma DisplayOfParseI64(s: string)
    requires IsCanonicalInt(s) && ParseI64(s).Some?
    ensures IntToString(ParseI64(s).value) == s
  {
    if s[0] == '-' {
      NatToStringOfCanonical(s[1..]);
      LeadingDigitPositive(s[1..]);
      assert s == "-" + s[1..];
    } else {
      DisplayOfParseUnsigned(s, I64_MAX + 1);
    }
  }
}

=== FILE: delete.dfy ===
/**
 * `delete_user`: the user's line leaves the passwd file, its shadow entry
 * leaves the shadow file, its home directory may be removed, and each of the
 * user's group links is undone in the groups and in the group file.
 *
 * The group cascade is modelled twice. `CascadeAsWritten` follows the
 * source: when the user is the only member of its primary group, that group
 * is cut out of the group file as it was read before any change, which loses
 * the member removals the cascade already wrote. `Cascade` writes the
 * remaining groups instead. `DeleteUser` runs either, as its `Cascading`
 * argument says: `AsWritten` is `delete_user`, `Corrected` is the fix.
 */
module Deletion {
  import opened Options
  import opened Errors
  import opened Text
  import opened Decimal
  import opened UserRecord
  import opened GroupRecord
  import H = Hashes
  import F = Files
  import opened Linking
  import opened Database

  /** `DeleteHome`: whether the home directory goes too. */
  datatype DeleteHome = Delete | Keep

  /** The groups and the file system after (part of) a cascade, with its
      outcome. */
  datatype CascadeState = CascadeState(groups: seq<Group>, fs: F.FileSystem, result: Result<()>)

  /** The panic when a primary link names a gid no group carries. */
  const NO_SUCH_GROUP := "The group does not exist"

  /** The file system outside one file is as it was. */
  predicate SameOutside(fs: F.FileSystem, fs': F.FileSystem, path: string) {
    && fs'.Keys - {path} == fs.Keys - {path}
    && (forall k :: k in fs && k in fs' && k != path ==> fs'[k] == fs[k])
  }

  /** The member list of a group without the user. */
  function Unlist(groups: seq<Group>, i: int, name: string): (r: seq<Group>)
    requires 0 <= i < |groups|
    ensures |r| == |groups| && r[i] == RemoveMember(groups[i], name)
    ensures forall j :: 0 <= j < |groups| && j != i ==> r[j] == groups[j]
  {
    groups[i := RemoveMember(groups[i], name)]
  }

  /** One link of the cascade as the source handles it: a primary group of
      which the user is the only member is cut out of the original group
      text and dropped; any other primary group loses the user and all
      groups are written; a member link's group, if it exists, loses the
      user and all groups are written. A primary link to a missing group is
      a panic, here an error. */
  function StepAsWritten(groups: seq<Group>, fs: F.FileSystem, g: F.Guard, original: string,
                         name: string, l: Link): (r: CascadeState)
    ensures SameOutside(fs, r.fs, g.path)
    ensures r.result.Err? <==> l.kind == Primary && FindGid(groups, l.gid) < 0
    ensures r.result.Err? ==> r == CascadeState(groups, fs, Err(FromText(NO_SUCH_GROUP)))
  {
    var i := FindGid(groups, l.gid);
    match l.kind
    case Primary =>
      if i < 0 then CascadeState(groups, fs, Err(FromText(NO_SUCH_GROUP)))
      else if |groups[i].members| == 1 then
        CascadeState(DeleteGroupById(groups, l.gid), F.ReplaceContents(fs, g, RemoveIn(original, groups[i].source)), Ok(()))
      else
        var gs := Unlist(groups, i, name);
        CascadeState(gs, WriteGroups(fs, g, gs), Ok(()))
    case Member =>
      var gs := if i < 0 then groups else Unlist(groups, i, name);
      CascadeState(gs, WriteGroups(fs, g, gs), Ok(()))
  }

  /** The cascade as the source writes it: each link in order, stopping at
      the first error. */
  function CascadeAsWritten(groups: seq<Group>, fs: F.FileSystem, g: F.Guard, original: string,
                            name: string, links: seq<Link>): (r: CascadeState)
    ensures SameOutside(fs, r.fs, g.path)
    ensures r.result.Err? ==> r.result.error == FromText(NO_SUCH_GROUP)
    decreases |links|
  {
    if |links| == 0 then CascadeState(groups, fs, Ok(()))
    else
      var s := StepAsWritten(groups, fs, g, original, name, links[0]);
      if s.result.Err? then s
      else
        var next := CascadeAsWritten(s.groups, s.fs, g, original, name, links[1..]);
        SameOutsideTrans(fs, s.fs, next.fs, g.path);
        next
  }

  /** Changing nothing outside a file twice changes nothing outside it. */
  lemma SameOutsideTrans(fs: F.FileSystem, fs': F.FileSystem, fs'': F.FileSystem, path: string)
    requires SameOutside(fs, fs', path) && SameOutside(fs', fs'', path)
    ensures SameOutside(fs, fs'', path)
  {
    forall k | k in fs && k in fs'' && k != path ensures fs''[k] == fs[k] {
      assert k in fs.Keys - {path};
    }
  }

  /** Two file systems that each agree with a third outside a file agree
      with each other there. */
  lemma SameOutsideShared(fs: F.FileSystem, a: F.FileSystem, b: F.FileSystem, path: string)
    requires SameOutside(fs, a, path) && SameOutside(fs, b, path)
    ensures SameOutside(a, b, path)
  {
    forall k | k in a && k in b && k != path ensures b[k] == a[k] {
      assert k in a.Keys - {path};
    }
  }

  /** The link is a primary link to a group of which the user is the only
      member: the case in which the source cuts the group's line out of the
      original group text. */
  predicate CutsGroup(groups: seq<Group>, l: Link) {
    var i := FindGid(groups, l.gid);
    l.kind == Primary && i >= 0 && |groups[i].members| == 1
  }

  /** The group file one step of the source's cascade writes: the original
      text without the group's line when the step cuts a group, and the
      remaining groups otherwise. */
  lemma StepAsWrittenFile(groups: seq<Group>, fs: F.FileSystem, g: F.Guard, original: string,
                          name: string, l: Link)
    ensures var r := StepAsWritten(groups, fs, g, original, name, l);
            r.result.Ok? ==> && g.path in r.fs
                             && r.fs[g.path] == (if CutsGroup(groups, l)
                                                 then RemoveIn(original, groups[FindGid(groups, l.gid)].source)
                                                 else FormatGroups(r.groups)) + "\n"
  {
  }

  /** A cascade state followed by one more step of the source's cascade,
      unless it already failed. */
  function ThenStep(p: CascadeState, g: F.Guard, original: string, name: string, l: Link): CascadeState {
    if p.result.Err? then p else StepAsWritten(p.groups, p.fs, g, original, name, l)
  }

  /** One unfolding of the source's cascade. */
  lemma AsWrittenUnfold(groups: seq<Group>, fs: F.FileSystem, g: F.Guard, original: string,
                        name: string, links: seq<Link>)
    requires |links| > 0
    ensures var s := StepAsWritten(groups, fs, g, original, name, links[0]);
            s.result.Ok? ==> CascadeAsWritten(groups, fs, g, original, name, links)
                             == CascadeAsWritten(s.groups, s.fs, g, original, name, links[1..])
    ensures var s := StepAsWritten(groups, fs, g, original, name, links[0]);
            s.result.Err? ==> CascadeAsWritten(groups, fs, g, original, name, links) == s
  {
  }

  /** A one-link cascade is that link's step. */
  lemma AsWrittenSingleStep(groups: seq<Group>, fs: F.FileSystem, g: F.Guard, original: string,
                            name: string, links: seq<Link>)
    requires |links| == 1
    ensures CascadeAsWritten(groups, fs, g, original, name, links)
            == ThenStep(CascadeAsWritten(groups, fs, g, original, name, links[..0]), g, original, name, links[0])
  {
    var s := StepAsWritten(groups, fs, g, original, name, links[0]);
    AsWrittenUnfold(groups, fs, g, original, name, links);
    assert links[..0] == [];
    if s.result.Ok? {
      assert links[1..] == [];
      assert CascadeAsWritten(s.groups, s.fs, g, original, name, links[1..]) == CascadeState(s.groups, s.fs, Ok(()));
    }
  }

  /** The source's cascade is a left fold of its steps: the whole cascade is
      the last link's step after the cascade of the links before it, unless
      those already failed. */
  lemma {:induction false} AsWrittenLastStep(groups: seq<Group>, fs: F.FileSystem, g: F.Guard, original: string,
                                             name: string, links: seq<Link>)
    requires |links| > 0
    ensures CascadeAsWritten(groups, fs, g, original, name, links)
            == ThenStep(CascadeAsWritten(groups, fs, g, original, name, links[..|links| - 1]), g, original, name,
                        links[|links| - 1])
    decreases |links|
  {
    var n := |links| - 1;
    if n == 0 {
      AsWrittenSingleStep(groups, fs, g, original, name, links);
    } else {
      var s := StepAsWritten(groups, fs, g, original, name, links[0]);
      var front := links[..n];
      var rest := links[1..];
      assert front[0] == links[0];
      assert front[1..] == rest[..n - 1];
      AsWrittenUnfold(groups, fs, g, original, name, links);
      AsWrittenUnfold(groups, fs, g, original, name, front);
      if s.result.Ok? {
        AsWrittenLastStep(s.groups, s.fs, g, original, name, rest);
        assert |rest| - 1 == n - 1 && rest[n - 1] == links[n];
        assert CascadeAsWritten(groups, fs, g, original, name, front)
            == CascadeAsWritten(s.groups, s.fs, g, original, name, rest[..n - 1]);
      } else {
        assert CascadeAsWritten(groups, fs, g, original, name, front) == s;
      }
    }
  }

  /** What the source's cascade leaves in the group file, for every input:
      the file is written by the last link, so it is the original text
      without the cut group's line when that link cuts a group, and the
      remaining groups otherwise. Earlier writes do not survive. */
  lemma AsWrittenGroupFile(groups: seq<Group>, fs: F.FileSystem, g: F.Guard, original: string,
                           name: string, links: seq<Link>)
    requires |links| > 0
    ensures var n := |links| - 1;
            var p := CascadeAsWritten(groups, fs, g, original, name, links[..n]);
            var r := CascadeAsWritten(groups, fs, g, original, name, links);
            r.result.Ok? ==> && p.result.Ok? && g.path in r.fs
                             && r.fs[g.path] == (if CutsGroup(p.groups, links[n])
                                                 then RemoveIn(original, p.groups[FindGid(p.groups, links[n].gid)].source)
                                                 else FormatGroups(r.groups)) + "\n"
  {
    var n := |links| - 1;
    var p := CascadeAsWritten(groups, fs, g, original, name, links[..n]);
    AsWrittenLastStep(groups, fs, g, original, name, links);
    StepAsWrittenFile(p.groups, p.fs, g, original, name, links[n]);
  }

  /** Replacing a file and then changing nothing outside it changes nothing
      outside it. */
  lemma ReplacedThenSameOutside(fs: F.FileSystem, g: F.Guard, content: string, fs': F.FileSystem)
    requires SameOutside(F.ReplaceContents(fs, g, content), fs', g.path)
    ensures SameOutside(fs, fs', g.path)
  {
  }

  /** The cascade with the sole-member primary group written like every other
      change: the group is dropped and the remaining groups are written. */
  function Cascade(groups: seq<Group>, fs: F.FileSystem, g: F.Guard, name: string, links: seq<Link>): (r: CascadeState)
    ensures SameOutside(fs, r.fs, g.path)
    ensures r.result.Err? ==> r.result.error == FromText(NO_SUCH_GROUP)
    ensures |links| == 0 ==> r == CascadeState(groups, fs, Ok(()))
    ensures r.result.Ok? && |links| > 0 ==> g.path in r.fs && r.fs[g.path] == FormatGroups(r.groups) + "\n"
    decreases |links|
  {
    if |links| == 0 then CascadeState(groups, fs, Ok(()))
    else
      var l := links[0];
      var i := FindGid(groups, l.gid);
      match l.kind
      case Primary =>
        if i < 0 then CascadeState(groups, fs, Err(FromText(NO_SUCH_GROUP)))
        else if |groups[i].members| == 1 then
          var gs := DeleteGroupById(groups, l.gid);
          var next := Cascade(gs, WriteGroups(fs, g, gs), g, name, links[1..]);
          ReplacedThenSameOutside(fs, g, FormatGroups(gs), next.fs);
          next
        else
          var gs := Unlist(groups, i, name);
          var next := Cascade(gs, WriteGroups(fs, g, gs), g, name, links[1..]);
          ReplacedThenSameOutside(fs, g, FormatGroups(gs), next.fs);
          next
      case Member =>
        var gs := if i < 0 then groups else Unlist(groups, i, name);
        var next := Cascade(gs, WriteGroups(fs, g, gs), g, name, links[1..]);
        ReplacedThenSameOutside(fs, g, FormatGroups(gs), next.fs);
        next
  }

  /** The two cascades change the groups in memory alike and fail alike; they
      differ only in what they write. */
  lemma {:induction false} CascadesAgreeInMemory(groups: seq<Group>, fs: F.FileSystem, fs': F.FileSystem, g: F.Guard,
                                                 original: string, name: string, links: seq<Link>)
    ensures CascadeAsWritten(groups, fs, g, original, name, links).groups == Cascade(groups, fs', g, name, links).groups
    ensures CascadeAsWritten(groups, fs, g, original, name, links).result == Cascade(groups, fs', g, name, links).result
    decreases |links|
  {
    if |links| > 0 {
      var l := links[0];
      var i := FindGid(groups, l.gid);
      var s := StepAsWritten(groups, fs, g, original, name, l);
      if s.result.Ok? {
        assert s.groups == if CutsGroup(groups, l) then DeleteGroupById(groups, l.gid)
                           else if i < 0 then groups else Unlist(groups, i, name);
        CascadesAgreeInMemory(s.groups, s.fs, WriteGroups(fs', g, s.groups), g, original, name, links[1..]);
      }
    }
  }

  /** Unless the last link cuts a group, the source's cascade leaves the
      same group file as the corrected one. */
  lemma AsWrittenFileUnlessLastCut(groups: seq<Group>, fs: F.FileSystem, g: F.Guard, original: string,
                                   name: string, links: seq<Link>)
    requires |links| > 0
    ensures var n := |links| - 1;
            var p := CascadeAsWritten(groups, fs, g, original, name, links[..n]);
            var w := CascadeAsWritten(groups, fs, g, original, name, links);
            var c := Cascade(groups, fs, g, name, links);
            w.result.Ok? && !CutsGroup(p.groups, links[n])
            ==> g.path in w.fs && g.path in c.fs && w.fs[g.path] == c.fs[g.path]
  {
    AsWrittenGroupFile(groups, fs, g, original, name, links);
    CascadesAgreeInMemory(groups, fs, fs, g, original, name, links);
  }

  /** Which cascade a deletion runs: the source's, or the corrected one. */
  datatype Cascading = AsWritten | Corrected

  /** The cascade `cascading` names; `original` is the group text read
      before it starts. Both change the groups alike and fail alike. */
  function RunCascade(cascading: Cascading, groups: seq<Group>, fs: F.FileSystem, g: F.Guard, original: string,
                      name: string, links: seq<Link>): (r: CascadeState)
    ensures SameOutside(fs, r.fs, g.path)
    ensures r.result.Err? ==> r.result.error == FromText(NO_SUCH_GROUP)
    ensures r.groups == Cascade(groups, fs, g, name, links).groups
    ensures r.result == Cascade(groups, fs, g, name, links).result
  {
    match cascading
    case AsWritten =>
      CascadesAgreeInMemory(groups, fs, fs, g, original, name, links);
      CascadeAsWritten(groups, fs, g, original, name, links)
    case Corrected => Cascade(groups, fs, g, name, links)
  }

  // ---------------------------------------------------------------------
  // What the cascade achieves
  // ---------------------------------------------------------------------

  /** No two groups carry the same gid. */
  predicate UniqueGids(groups: seq<Group>) {
    forall i, j :: 0 <= i < j < |groups| ==> groups[i].gid != groups[j].gid
  }

  /** No group with one of the gids lists the name. */
  predicate Unlisted(groups: seq<Group>, name: string, gids: set<U32>) {
    forall x :: x in groups && x.gid in gids ==> name !in x.members
  }

  /** The gids the links name. */
  function LinkGids(links: seq<Link>): (r: set<U32>)
    ensures forall i :: 0 <= i < |links| ==> links[i].gid in r
    ensures forall x :: x in r ==> exists i :: 0 <= i < |links| && links[i].gid == x
  {
    set i | 0 <= i < |links| :: links[i].gid
  }

  /** The gids of links are the first link's gid and the rest's. */
  lemma LinkGidsCons(links: seq<Link>)
    requires |links| > 0
    ensures LinkGids(links) == {links[0].gid} + LinkGids(links[1..])
  {
    forall x | x in LinkGids(links) ensures x in {links[0].gid} + LinkGids(links[1..]) {
      var j :| 0 <= j < |links| && links[j].gid == x;
      if j > 0 {
        assert links[1..][j - 1] == links[j];
      }
    }
    forall x | x in LinkGids(links[1..]) ensures x in LinkGids(links) {
      var j :| 0 <= j < |links[1..]| && links[1..][j].gid == x;
      assert links[j + 1] == links[1..][j];
    }
  }

  /** Dropping the groups of a gid keeps the other gids unique. */
  lemma {:induction false} DeleteKeepsUnique(groups: seq<Group>, gid: U32)
    requires UniqueGids(groups)
    ensures UniqueGids(DeleteGroupById(groups, gid))
    decreases |groups|
  {
    if |groups| > 0 {
      var n := |groups| - 1;
      UniqueFront(groups);
      DeleteKeepsUnique(groups[..n], gid);
      var front := DeleteGroupById(groups[..n], gid);
      if groups[n].gid != gid {
        LastGidNotInFront(groups, front);
        UniqueAppend(front, groups[n]);
        assert DeleteGroupById(groups, gid) == front + [groups[n]];
      } else {
        assert DeleteGroupById(groups, gid) == front;
      }
    }
  }

  /** Gids unique in a list are unique in all but its last group. */
  lemma UniqueFront(groups: seq<Group>)
    requires |groups| > 0 && UniqueGids(groups)
    ensures UniqueGids(groups[..|groups| - 1])
  {
    var n := |groups| - 1;
    forall i, j | 0 <= i < j < n ensures groups[..n][i].gid != groups[..n][j].gid {
      assert groups[..n][i] == groups[i] && groups[..n][j] == groups[j];
    }
  }

  /** With unique gids, no group drawn from all but the last one shares the
      last one's gid. */
  lemma LastGidNotInFront(groups: seq<Group>, front: seq<Group>)
    requires |groups| > 0 && UniqueGids(groups)
    requires forall x :: x in front ==> x in groups[..|groups| - 1]
    ensures forall x :: x in front ==> x.gid != groups[|groups| - 1].gid
  {
    var n := |groups| - 1;
    forall x | x in front ensures x.gid != groups[n].gid {
      var j :| 0 <= j < n && groups[..n][j] == x;
      assert groups[j] == x;
    }
  }

  /** A group whose gid no listed group has keeps the gids unique. */
  lemma UniqueAppend(front: seq<Group>, last: Group)
    requires UniqueGids(front)
    requires forall x :: x in front ==> x.gid != last.gid
    ensures UniqueGids(front + [last])
  {
    var r := front + [last];
    forall i, j | 0 <= i < j < |r| ensures r[i].gid != r[j].gid {
      assert r[i] == front[i] && front[i] in front;
      if j < |front| {
        assert r[j] == front[j];
      }
    }
  }

  /** Taking the user off one group unlists it from that group's gid too,
      when gids are unique. */
  lemma UnlistStep(groups: seq<Group>, i: int, name: string, done: set<U32>)
    requires UniqueGids(groups) && 0 <= i < |groups| && Unlisted(groups, name, done)
    ensures UniqueGids(Unlist(groups, i, name))
    ensures Unlisted(Unlist(groups, i, name), name, done + {groups[i].gid})
  {
    var r := Unlist(groups, i, name);
    forall x | x in r && x.gid in done + {groups[i].gid} ensures name !in x.members {
      var j :| 0 <= j < |r| && r[j] == x;
      if j != i {
        assert x == groups[j] && x.gid != groups[i].gid;
      }
    }
  }

  /** When gids are unique, after a successful cascade no group the user was
      linked to lists the user any more. */
  lemma {:induction false} CascadeUnlists(groups: seq<Group>, fs: F.FileSystem, g: F.Guard, name: string,
                                          links: seq<Link>, done: set<U32>)
    requires UniqueGids(groups) && Unlisted(groups, name, done)
    ensures var r := Cascade(groups, fs, g, name, links);
            r.result.Ok? ==> UniqueGids(r.groups) && Unlisted(r.groups, name, done + LinkGids(links))
    decreases |links|
  {
    if |links| > 0 {
      var l := links[0];
      var i := FindGid(groups, l.gid);
      LinkGidsCons(links);
      var gs;
      if i < 0 {
        gs := groups;
        assert Unlisted(gs, name, done + {l.gid});
      } else if l.kind == Primary && |groups[i].members| == 1 {
        gs := DeleteGroupById(groups, l.gid);
        DeleteKeepsUnique(groups, l.gid);
        assert Unlisted(gs, name, done + {l.gid});
      } else {
        gs := Unlist(groups, i, name);
        UnlistStep(groups, i, name, done);
      }
      CascadeUnlists(gs, WriteGroups(fs, g, gs), g, name, links[1..], done + {l.gid});
      assert done + {l.gid} + LinkGids(links[1..]) == done + LinkGids(links);
    }
  }

  // ---------------------------------------------------------------------
  // delete_user
  // ---------------------------------------------------------------------

  /** The error when a file changed since the database was loaded. */
  const CHANGED := "The userdatabase has been changed "

  /** The passwd file without the user's line, then the shadow file without
      its shadow entry, when the user has one. */
  function WriteAccountFiles(fs: F.FileSystem, l: F.Locked, t: Texts, user: User): (r: F.FileSystem)
    ensures l.shadow.path != l.passwd.path
            ==> l.passwd.path in r && r[l.passwd.path] == RemoveIn(t.passwd, user.source) + "\n"
    ensures GetShadow(user).Some?
            ==> l.shadow.path in r && r[l.shadow.path] == RemoveIn(t.shadow, GetShadow(user).value.source) + "\n"
    ensures GetShadow(user).None? ==> r == F.ReplaceContents(fs, l.passwd, RemoveIn(t.passwd, user.source))
    ensures forall k :: k != l.passwd.path && k != l.shadow.path ==> (k in r <==> k in fs)
    ensures forall k :: k in fs && k != l.passwd.path && k != l.shadow.path ==> r[k] == fs[k]
  {
    var withoutUser := F.ReplaceContents(fs, l.passwd, RemoveIn(t.passwd, user.source));
    match GetShadow(user)
    case Some(sh) => F.ReplaceContents(withoutUser, l.shadow, RemoveIn(t.shadow, sh.source))
    case None => withoutUser
  }

  /** The deletion once the three files are locked: the files must read as
      they did when the database was loaded (the group file is not checked),
      then the account files are rewritten, the home directory removed on
      request (`homeRemoval` is the error removing it raises, if any), and
      the group links undone by the cascade `cascading` names, given the
      group text read under the lock. The locks are released on every
      path. */
  function DeleteLocked(db: UserDb, fs: F.FileSystem, l: F.Locked, name: string,
                        deleteHome: DeleteHome, homeRemoval: Option<IoError>, cascading: Cascading): (r: Outcome<User>)
    requires name in db.users
    ensures l.passwd.lockfile !in r.fs && l.shadow.lockfile !in r.fs && l.group.lockfile !in r.fs
    ensures r.db.files == db.files && r.db.hashes == db.hashes
    ensures r.result.Ok? ==> r.result.value == db.users[name] && r.db.users == db.users - {name}
    ensures r.result.Err? ==> r.db.users == db.users
    ensures var t := ReadLocked(fs, l);
            H.HasChanged(db.hashes.passwd, t.passwd) || H.HasChanged(db.hashes.shadow, t.shadow)
            ==> r == Outcome(db, F.Release(fs, l), Err(FromText(CHANGED + name)))
    ensures deleteHome == Delete && homeRemoval.Some? ==> r.result.Err? && r.db == db
  {
    var user := db.users[name];
    var t := ReadLocked(fs, l);
    if H.HasChanged(db.hashes.passwd, t.passwd) || H.HasChanged(db.hashes.shadow, t.shadow) then
      Outcome(db, F.Release(fs, l), Err(FromText(CHANGED + name)))
    else
      var written := WriteAccountFiles(fs, l, t, user);
      if deleteHome == Delete && homeRemoval.Some? then
        Outcome(db, F.Release(written, l), Err(FromIo(homeRemoval.value)))
      else
        var c := RunCascade(cascading, db.groups, written, l.group, t.group, name, user.links);
        if c.result.Err? then
          Outcome(db.(groups := c.groups), F.Release(c.fs, l), Err(c.result.error))
        else
          Outcome(db.(users := db.users - {name}, groups := c.groups), F.Release(c.fs, l), Ok(user))
  }

  /** `delete_user`: an unknown name is `NotFound`; without files only the
      in-memory user goes; otherwise the files are locked (a lock failure
      is reported) and the deletion proceeds as in `DeleteLocked`. */
  function DeleteUser(db: UserDb, fs: F.FileSystem, pid: U32, name: string,
                      deleteHome: DeleteHome, homeRemoval: Option<IoError>, cascading: Cascading): (r: Outcome<User>)
    ensures name !in db.users ==> r == Outcome(db, fs, Err(NotFound))
    ensures name in db.users && F.IsVirtual(db.files)
            ==> r == Outcome(db.(users := db.users - {name}), fs, Ok(db.users[name]))
    ensures r.db.files == db.files && r.db.hashes == db.hashes
    ensures r.result.Ok? ==> name in db.users && r.result.value == db.users[name]
                             && r.db.users == db.users - {name}
    ensures r.result.Err? ==> r.db.users == db.users
    ensures F.IsVirtual(db.files) ==> r.fs == fs
  {
    if name !in db.users then Outcome(db, fs, Err(NotFound))
    else if F.IsVirtual(db.files) then Outcome(db.(users := db.users - {name}), fs, Ok(db.users[name]))
    else
      var s := F.LockAllGet(db.files, fs, pid);
      if s.result.Err? then Outcome(db, s.fs, Err(s.result.error))
      else DeleteLocked(db, s.fs, s.result.value, name, deleteHome, homeRemoval, cascading)
  }

  /** Without files, a user can be deleted once: the map shrinks by one and
      a second deletion finds nothing. */
  lemma VirtualDeleteTwice(db: UserDb, fs: F.FileSystem, pid: U32, name: string,
                           deleteHome: DeleteHome, homeRemoval: Option<IoError>, cascading: Cascading)
    requires F.IsVirtual(db.files) && name in db.users
    ensures var first := DeleteUser(db, fs, pid, name, deleteHome, homeRemoval, cascading);
            && first.result == Ok(db.users[name])
            && |first.db.users| == |db.users| - 1
            && DeleteUser(first.db, first.fs, pid, name, deleteHome, homeRemoval, cascading).result == Err(NotFound)
  {
    var rest := db.users - {name};
    assert rest.Keys == db.users.Keys - {name};
    assert |rest.Keys| == |db.users.Keys| - 1;
  }

  /** The lock files and the three files a `Locked` names are all different. */
  predicate Disjoint(l: F.Locked) {
    var paths := [l.passwd.path, l.shadow.path, l.group.path];
    var locks := [l.passwd.lockfile, l.shadow.lockfile, l.group.lockfile];
    && (forall i, j :: 0 <= i < j < 3 ==> paths[i] != paths[j])
    && (forall i, j :: 0 <= i < 3 && 0 <= j < 3 ==> paths[i] != locks[j])
  }

  /** A locked deletion that succeeds is the cascade run on the rewritten
      account files, with the locks released. */
  lemma LockedDeleteReleasesCascade(db: UserDb, fs: F.FileSystem, l: F.Locked, name: string,
                                    deleteHome: DeleteHome, homeRemoval: Option<IoError>, cascading: Cascading)
    requires name in db.users
    requires DeleteLocked(db, fs, l, name, deleteHome, homeRemoval, cascading).result.Ok?
    ensures var user := db.users[name];
            var t := ReadLocked(fs, l);
            var written := WriteAccountFiles(fs, l, t, user);
            var c := RunCascade(cascading, db.groups, written, l.group, t.group, name, user.links);
            c.result.Ok? && DeleteLocked(db, fs, l, name, deleteHome, homeRemoval, cascading).fs == F.Release(c.fs, l)
  {
  }

  /** A locked deletion that succeeds, from a passwd text in which the
      user's line occurs once, cuts that line out of the passwd file, with
      either cascade. */
  lemma LockedDeleteRewritesFiles(db: UserDb, fs: F.FileSystem, l: F.Locked, name: string,
                                  deleteHome: DeleteHome, homeRemoval: Option<IoError>, cascading: Cascading,
                                  a: string, b: string)
    requires name in db.users && Disjoint(l)
    requires |db.users[name].source| > 0
    requires ReadLocked(fs, l).passwd == a + db.users[name].source + b
    requires OccursOnlyAt(a + db.users[name].source + b, db.users[name].source, |a|)
    requires DeleteLocked(db, fs, l, name, deleteHome, homeRemoval, cascading).result.Ok?
    ensures var r := DeleteLocked(db, fs, l, name, deleteHome, homeRemoval, cascading);
            l.passwd.path in r.fs && r.fs[l.passwd.path] == Trim(a) + "\n" + Trim(b) + "\n"
  {
    var user := db.users[name];
    var t := ReadLocked(fs, l);
    var written := WriteAccountFiles(fs, l, t, user);
    var c := RunCascade(cascading, db.groups, written, l.group, t.group, name, user.links);
    LockedDeleteReleasesCascade(db, fs, l, name, deleteHome, homeRemoval, cascading);
    RemoveInOnce(a, user.source, b);
    var paths := [l.passwd.path, l.shadow.path, l.group.path];
    var locks := [l.passwd.lockfile, l.shadow.lockfile, l.group.lockfile];
    assert paths[0] != paths[1] && paths[0] != paths[2];
    assert paths[0] != locks[0] && paths[0] != locks[1] && paths[0] != locks[2];
    var p := l.passwd.path;
    assert written[p] == Trim(a) + "\n" + Trim(b) + "\n";
    assert p in c.fs && c.fs[p] == written[p] by {
      assert p in written.Keys - {l.group.path};
    }
    var r := F.Release(c.fs, l);
    assert p in r && r[p] == c.fs[p];
  }

  /** A locked deletion with the corrected cascade that succeeds, for a user
      with group links, leaves the remaining groups in the group file. */
  lemma LockedCorrectedDeleteWritesGroups(db: UserDb, fs: F.FileSystem, l: F.Locked, name: string,
                                          deleteHome: DeleteHome, homeRemoval: Option<IoError>)
    requires name in db.users && Disjoint(l) && |db.users[name].links| > 0
    requires DeleteLocked(db, fs, l, name, deleteHome, homeRemoval, Corrected).result.Ok?
    ensures var r := DeleteLocked(db, fs, l, name, deleteHome, homeRemoval, Corrected);
            l.group.path in r.fs && r.fs[l.group.path] == FormatGroups(r.db.groups) + "\n"
  {
    var user := db.users[name];
    var t := ReadLocked(fs, l);
    var written := WriteAccountFiles(fs, l, t, user);
    LockedDeleteReleasesCascade(db, fs, l, name, deleteHome, homeRemoval, Corrected);
    var paths := [l.passwd.path, l.shadow.path, l.group.path];
    var locks := [l.passwd.lockfile, l.shadow.lockfile, l.group.lockfile];
    assert paths[2] != locks[0] && paths[2] != locks[1] && paths[2] != locks[2];
  }

  /** Both cascades give the same database and result, and the same files
      outside the group file: the two deletions differ at most there. */
  lemma LockedDeletionsDifferOnlyInGroupFile(db: UserDb, fs: F.FileSystem, l: F.Locked, name: string,
                                             deleteHome: DeleteHome, homeRemoval: Option<IoError>)
    requires name in db.users
    ensures var w := DeleteLocked(db, fs, l, name, deleteHome, homeRemoval, AsWritten);
            var c := DeleteLocked(db, fs, l, name, deleteHome, homeRemoval, Corrected);
            && w.db == c.db && w.result == c.result
            && SameOutside(w.fs, c.fs, l.group.path)
  {
    var user := db.users[name];
    var t := ReadLocked(fs, l);
    var written := WriteAccountFiles(fs, l, t, user);
    var cw := RunCascade(AsWritten, db.groups, written, l.group, t.group, name, user.links);
    var cc := RunCascade(Corrected, db.groups, written, l.group, t.group, name, user.links);
    SameOutsideShared(written, cw.fs, cc.fs, l.group.path);
    ReleaseKeepsSameOutside(cw.fs, cc.fs, l, l.group.path);
  }

  /** Releasing the locks keeps two file systems agreeing outside a file. */
  lemma ReleaseKeepsSameOutside(a: F.FileSystem, b: F.FileSystem, l: F.Locked, path: string)
    requires SameOutside(a, b, path)
    ensures SameOutside(F.Release(a, l), F.Release(b, l), path)
  {
    var ra := F.Release(a, l);
    var rb := F.Release(b, l);
    forall k | k in ra.Keys - {path} ensures k in rb.Keys - {path} {
      assert k in a.Keys - {path};
    }
    forall k | k in rb.Keys - {path} ensures k in ra.Keys - {path} {
      assert k in b.Keys - {path};
    }
  }

  /** The files under `/etc/`-like separate paths are locked as `Disjoint`
      guards. */
  lemma SeparateLocksDisjoint(f: F.Files, fs: F.FileSystem, pid: U32)
    requires !F.IsVirtual(f) && F.Separate(f) && F.LockAllGet(f, fs, pid).result.Ok?
    ensures Disjoint(F.LockAllGet(f, fs, pid).result.value)
  {
    var l := F.LockAllGet(f, fs, pid).result.value;
    var paths := [F.PathText(f.passwd.value), F.PathText(f.shadow.value), F.PathText(f.group.value)];
    var locks := [F.LockPath(f.passwd.value), F.LockPath(f.shadow.value), F.LockPath(f.group.value)];
    assert [l.passwd.path, l.shadow.path, l.group.path] == paths;
    assert [l.passwd.lockfile, l.shadow.lockfile, l.group.lockfile] == locks;
  }

  /** A deletion that succeeds on separate files, loaded from a passwd text
      in which the user's line occurs once, leaves the passwd file as the
      trimmed text before the line and the trimmed text after it, with
      either cascade. */
  lemma DeleteRewritesFiles(db: UserDb, fs: F.FileSystem, pid: U32, name: string,
                            deleteHome: DeleteHome, homeRemoval: Option<IoError>, cascading: Cascading,
                            a: string, b: string)
    requires name in db.users && !F.IsVirtual(db.files) && F.Separate(db.files)
    requires |db.users[name].source| > 0
    requires db.hashes.passwd == H.NewSourceHash(a + db.users[name].source + b)
    requires OccursOnlyAt(a + db.users[name].source + b, db.users[name].source, |a|)
    requires DeleteUser(db, fs, pid, name, deleteHome, homeRemoval, cascading).result.Ok?
    ensures var r := DeleteUser(db, fs, pid, name, deleteHome, homeRemoval, cascading);
            var p := F.PathText(db.files.passwd.value);
            p in r.fs && r.fs[p] == Trim(a) + "\n" + Trim(b) + "\n"
  {
    var s := F.LockAllGet(db.files, fs, pid);
    var l := s.result.value;
    SeparateLocksDisjoint(db.files, fs, pid);
    assert DeleteUser(db, fs, pid, name, deleteHome, homeRemoval, cascading)
        == DeleteLocked(db, s.fs, l, name, deleteHome, homeRemoval, cascading);
    LockedDeleteRewritesFiles(db, s.fs, l, name, deleteHome, homeRemoval, cascading, a, b);
  }

  /** A deletion with the corrected cascade that succeeds on separate files,
      for a user with group links, leaves the remaining groups in the group
      file. */
  lemma CorrectedDeleteWritesGroups(db: UserDb, fs: F.FileSystem, pid: U32, name: string,
                                    deleteHome: DeleteHome, homeRemoval: Option<IoError>)
    requires name in db.users && !F.IsVirtual(db.files) && F.Separate(db.files)
    requires |db.users[name].links| > 0
    requires DeleteUser(db, fs, pid, name, deleteHome, homeRemoval, Corrected).result.Ok?
    ensures var r := DeleteUser(db, fs, pid, name, deleteHome, homeRemoval, Corrected);
            var g := F.PathText(db.files.group.value);
            g in r.fs && r.fs[g] == FormatGroups(r.db.groups) + "\n"
  {
    var s := F.LockAllGet(db.files, fs, pid);
    var l := s.result.value;
    SeparateLocksDisjoint(db.files, fs, pid);
    assert DeleteUser(db, fs, pid, name, deleteHome, homeRemoval, Corrected)
        == DeleteLocked(db, s.fs, l, name, deleteHome, homeRemoval, Corrected);
    LockedCorrectedDeleteWritesGroups(db, s.fs, l, name, deleteHome, homeRemoval);
  }

  /** `delete_user` as written and the corrected deletion give the same
      database, the same result and the same files, except the group file. */
  lemma DeletionsDifferOnlyInGroupFile(db: UserDb, fs: F.FileSystem, pid: U32, name: string,
                                       deleteHome: DeleteHome, homeRemoval: Option<IoError>)
    ensures var w := DeleteUser(db, fs, pid, name, deleteHome, homeRemoval, AsWritten);
            var c := DeleteUser(db, fs, pid, name, deleteHome, homeRemoval, Corrected);
            && w.db == c.db && w.result == c.result
            && (F.IsVirtual(db.files) ==> w.fs == c.fs)
            && (!F.IsVirtual(db.files) ==> SameOutside(w.fs, c.fs, F.PathText(db.files.group.value)))
  {
    if name in db.users && !F.IsVirtual(db.files) {
      var s := F.LockAllGet(db.files, fs, pid);
      if s.result.Ok? {
        LockedDeletionsDifferOnlyInGroupFile(db, s.fs, s.result.value, name, deleteHome, homeRemoval);
      }
    }
  }

  // ---------------------------------------------------------------------
  // The cascade as written loses member removals
  // ---------------------------------------------------------------------

  /** The group line of `teste`, the primary group (gid 1002) of a user
      `test` that lists no members, and the line of `another` (gid 1003),
      which lists `test`. */
  const TESTE_LINE := "teste:x:1002:"
  const ANOTHER_LINE := "another:x:1003:test"
  const TWO_GROUPS := TESTE_LINE + "\n" + ANOTHER_LINE

  /** The only place the line of `teste` occurs in `TWO_GROUPS` is its start. */
  lemma TesteLineOnce()
    ensures OccursOnlyAt(TWO_GROUPS, TESTE_LINE, 0)
  {
    var t := TWO_GROUPS;
    assert |t| == 33;
    assert 's' !in t[3..23];
    forall i: nat | 0 < i <= 20 ensures !MatchAt(t, TESTE_LINE, i) {
      assert t[3..23][i - 1] == t[i + 2];
      assert t[i + 2] != TESTE_LINE[2];
    }
  }

  /** Trimming drops a line break before a line without outer whitespace. */
  lemma TrimLeadingBreak(line: string)
    requires |line| > 0 && !IsWhitespace(line[0]) && !IsWhitespace(line[|line| - 1])
    ensures Trim("\n" + line) == line
  {
    var b := "\n" + line;
    assert b[1..] == line;
    assert TrimStart(b) == TrimStart(line);
    TrimUntrimmed(line);
  }

  /** Cutting the line of `teste` out of `TWO_GROUPS` leaves a line break and
      the line of `another`. */
  lemma TesteLineCut()
    ensures RemoveIn(TWO_GROUPS, TESTE_LINE) == "\n" + ANOTHER_LINE
  {
    TesteLineOnce();
    assert ANOTHER_LINE[0] == 'a' && ANOTHER_LINE[|ANOTHER_LINE| - 1] == 't';
    assert TWO_GROUPS == TESTE_LINE + ("\n" + ANOTHER_LINE);
    RemoveLeadingLine(TESTE_LINE, ANOTHER_LINE);
  }

  /** Cutting the first line out of a two-line text, when it occurs nowhere
      else, leaves the line break and the second line. */
  lemma RemoveLeadingLine(first: string, line: string)
    requires |first| > 0 && |line| > 0 && !IsWhitespace(line[0]) && !IsWhitespace(line[|line| - 1])
    requires OccursOnlyAt(first + ("\n" + line), first, 0)
    ensures RemoveIn(first + ("\n" + line), first) == "\n" + line
  {
    var rest := "\n" + line;
    assert first + rest == "" + first + rest;
    RemoveInOnce("", first, rest);
    assert Trim("") == "";
    TrimLeadingBreak(line);
  }

  /** A group's display starts with its name. */
  lemma DisplayStartsWithName(x: Group)
    requires |x.groupname| > 0
    ensures |FormatGroups([x])| > 0 && FormatGroups([x])[0] == x.groupname[0]
  {
    assert FormatGroups([x]) == GroupToString(x);
    assert GroupToString(x) == Join(GroupRecord.Fields(x), ':');
    JoinCons(x.groupname, GroupRecord.Fields(x)[1..], ':');
    assert GroupRecord.Fields(x) == [x.groupname] + GroupRecord.Fields(x)[1..];
  }

  /** The links of `test` in the order linking gives them: `another` as a
      member, then `teste` as primary. */
  const TEST_LINKS := [Link(Member, 1003), Link(Primary, 1002)]

  /** The member link takes `test` off `another` and writes both groups. */
  lemma AsWrittenMemberStep(fs: F.FileSystem, g: F.Guard, original: string, teste: Group, another: Group)
    requires teste.gid == 1002 && another.gid == 1003 && another.members == ["test"]
    ensures var gs := [teste, another.(members := [])];
            CascadeAsWritten([teste, another], fs, g, original, "test", TEST_LINKS)
            == CascadeAsWritten(gs, WriteGroups(fs, g, gs), g, original, "test", [Link(Primary, 1002)])
  {
    var groups := [teste, another];
    assert FindGid(groups, 1003) == 1;
    assert Without(["test"], "test") == [];
    assert Unlist(groups, 1, "test") == [teste, another.(members := [])];
    assert TEST_LINKS[1..] == [Link(Primary, 1002)];
  }

  /** The primary link finds `test` the only member of `teste`, cuts its
      line out of the original text and drops the group. */
  lemma AsWrittenPrimaryStep(fs: F.FileSystem, g: F.Guard, original: string, teste: Group, other: Group)
    requires teste.gid == 1002 && teste.members == ["test"] && other.gid == 1003
    ensures CascadeAsWritten([teste, other], fs, g, original, "test", [Link(Primary, 1002)])
            == CascadeState([other], F.ReplaceContents(fs, g, RemoveIn(original, teste.source)), Ok(()))
  {
    var gs := [teste, other];
    assert FindGid(gs, 1002) == 0;
    assert gs[..1] == [teste] && [teste][..0] == [];
    assert DeleteGroupById(gs, 1002) == [other];
    assert [Link(Primary, 1002)][1..] == [];
  }

  /** Deleting `test` from these groups, the source's cascade leaves the
      group file as the original text without the line of `teste`:
      `another` still lists `test`, although the groups in memory no longer
      do. The corrected cascade writes the groups it keeps. */
  lemma AsWrittenCascadeKeepsRemovedMember(fs: F.FileSystem, g: F.Guard, teste: Group, another: Group)
    requires teste.gid == 1002 && teste.members == ["test"] && teste.source == TESTE_LINE
    requires another.gid == 1003 && another.members == ["test"] && another.groupname == "another"
    ensures var w := CascadeAsWritten([teste, another], fs, g, TWO_GROUPS, "test", TEST_LINKS);
            var c := Cascade([teste, another], fs, g, "test", TEST_LINKS);
            && w.result.Ok? && c.result.Ok?
            && w.groups == c.groups == [another.(members := [])]
            && w.fs[g.path] == "\n" + ANOTHER_LINE + "\n"
            && c.fs[g.path] == FormatGroups(c.groups) + "\n"
            && c.fs[g.path][0] == 'a'
            && w.fs[g.path] != c.fs[g.path]
  {
    var gs := [teste, another.(members := [])];
    AsWrittenMemberStep(fs, g, TWO_GROUPS, teste, another);
    AsWrittenPrimaryStep(WriteGroups(fs, g, gs), g, TWO_GROUPS, teste, another.(members := []));
    TesteLineCut();
    CascadesAgreeInMemory([teste, another], fs, fs, g, TWO_GROUPS, "test", TEST_LINKS);
    var kept := another.(members := []);
    DisplayStartsWithName(kept);
    var c := Cascade([teste, another], fs, g, "test", TEST_LINKS);
    assert c.groups == [kept];
    assert c.fs[g.path] == FormatGroups([kept]) + "\n";
    assert c.fs[g.path][0] == FormatGroups([kept])[0] == "another"[0];
  }
}

=== FILE: errors.dfy ===
/**
 * The library's error taxonomy: `ParseError`, `UserLibError` and `MyMessage`,
 * their display texts, the `source` accessor, equality and the conversions
 * from strings and I/O errors; plus the `Result` type every fallible
 * operation of the model returns.
 */
module Errors {
  import opened Options

  /** Which field failed to parse. */
  datatype ParseErrorKind = Username | Password | Uid | Gid | Gecos | HomeDir | ShellDir

  /** An operating-system I/O error, represented by the text it displays. */
  datatype IoError = IoError(description: string)

  /** A free-form message, possibly carrying the I/O error that caused it. */
  datatype MyMessage = Simple(text: string) | IOError(context: string, cause: IoError) {

    /** `Display`: the text, or the context and the cause separated by a comma. */
    function Show(): string {
      match this
      case Simple(m) => m
      case IOError(m, e) => m + "," + e.description
    }
  }

  /** `PartialEq` for messages compares what they display. */
  predicate MessageEq(a: MyMessage, b: MyMessage) {
    a.Show() == b.Show()
  }

  datatype UserLibError =
    | NotFound
    | ParseError
    | FilesChanged
    | FilesRequired
    | Message(message: MyMessage)
  {
    /** `Display`. */
    function Show(): string {
      match this
      case NotFound => "not found"
      case ParseError => "failed to parse"
      case FilesRequired => "File locking is only possible if some files are specified"
      case FilesChanged => "The files changed. Updating could lead to conflict aborting."
      case Message(m) => m.Show()
    }

    /** `Error::source`: only a message built from an I/O error has one. */
    function Source(): (r: Option<IoError>)
      ensures r.Some? <==> Message? && message.IOError?
      ensures r.Some? ==> r.value == message.cause
    {
      match this
      case Message(IOError(_, e)) => Some(e)
      case _ => None
    }
  }

  /** The derived `PartialEq` of `UserLibError`: same variant, and messages
      compared by their display. */
  predicate ErrorEq(a: UserLibError, b: UserLibError) {
    if a.Message? && b.Message? then MessageEq(a.message, b.message)
    else a == b
  }

  /** `From<&str>` and `From<String>`. */
  function FromText(text: string): (r: UserLibError)
    ensures r.Message? && r.Show() == text && r.Source().None?
  {
    Message(Simple(text))
  }

  /** `From<io::Error>`: keeps only the error's text. */
  function FromIo(e: IoError): (r: UserLibError)
    ensures r.Message? && r.Show() == e.description && r.Source().None?
  {
    Message(Simple(e.description))
  }

  /** `From<(String, io::Error)>`: keeps the error as the source. */
  function FromContext(context: string, e: IoError): (r: UserLibError)
    ensures r.Show() == context + "," + e.description
    ensures r.Source() == Some(e)
  {
    Message(IOError(context, e))
  }

  /** Message equality is an equivalence relation. */
  lemma MessageEqIsEquivalence(a: MyMessage, b: MyMessage, c: MyMessage)
    ensures MessageEq(a, a)
    ensures MessageEq(a, b) ==> MessageEq(b, a)
    ensures MessageEq(a, b) && MessageEq(b, c) ==> MessageEq(a, c)
  {
  }

  /** A message with a cause equals the plain message that displays the same
      text, although only the first has a source. */
  lemma ContextEqualsPlainText(context: string, e: IoError)
    ensures ErrorEq(FromContext(context, e), FromText(context + "," + e.description))
    ensures FromContext(context, e).Source().Some?
    ensures FromText(context + "," + e.description).Source().None?
  {
  }

  /** A message is never equal to a fixed error, even one displaying the same
      text. */
  lemma MessageNeverEqualsFixedError(m: MyMessage, e: UserLibError)
    requires !e.Message?
    ensures !ErrorEq(Message(m), e)
  {
  }

  /** The four fixed errors display four different texts. */
  lemma FixedDisplaysDistinct(a: UserLibError, b: UserLibError)
    requires !a.Message? && !b.Message? && a != b
    ensures a.Show() != b.Show()
  {
    assert |NotFound.Show()| == 9 && |ParseError.Show()| == 15;
    assert |FilesRequired.Show()| == 57 && |FilesChanged.Show()| == 60;
  }

  /** The outcome of a fallible operation; supports `:-`. */
  datatype Result<+T> = Ok(value: T) | Err(error: UserLibError) {
    predicate IsFailure() {
      Err?
    }

    function PropagateFailure<U>(): Result<U>
      requires Err?
    {
      Err(error)
    }

    function Extract(): T
      requires Ok?
    {
      value
    }
  }
}

=== FILE: files.dfy ===
/**
 * The account files behind a database and what the library does to them:
 * the advisory lock taken next to each file (`<name>.lock`, made by linking a
 * temporary `<name>.<pid>` file), the guard that releases it, and the two
 * ways the library writes a locked file (replacing its contents, appending
 * one line).
 *
 * The file system is a map from path text to file text. Operating-system
 * failures other than "the file does not exist" and "the lock is taken" are
 * not modelled.
 */
module Files {
  import opened Options
  import opened Errors
  import opened Text
  import opened Decimal

  /** A path, split into the text before its file name (empty, or ending in
      a separator) and the file name. */
  datatype Path = Path(dir: string, name: string)

  /** The path as text. */
  function PathText(p: Path): string {
    p.dir + p.name
  }

  type FileSystem = map<string, string>

  /** `Files`: the three account files; a missing one puts the database in
      virtual mode. */
  datatype Files = Files(passwd: Option<Path>, shadow: Option<Path>, group: Option<Path>)

  /** `Files::default`: the files under `/etc/`. */
  function DefaultFiles(): (f: Files)
    ensures f.passwd == Some(Path("/etc/", "passwd"))
    ensures f.shadow == Some(Path("/etc/", "shadow"))
    ensures f.group == Some(Path("/etc/", "group"))
    ensures !IsVirtual(f)
  {
    Files(Some(Path("/etc/", "passwd")), Some(Path("/etc/", "shadow")), Some(Path("/etc/", "group")))
  }

  /** `is_virtual`: some of the three files is not given. */
  predicate IsVirtual(f: Files) {
    !(f.group.Some? && f.passwd.Some? && f.shadow.Some?)
  }

  /** The three files are different and none is another one's lock file. */
  predicate Separate(f: Files)
    requires !IsVirtual(f)
  {
    var paths := [PathText(f.passwd.value), PathText(f.shadow.value), PathText(f.group.value)];
    var locks := [LockPath(f.passwd.value), LockPath(f.shadow.value), LockPath(f.group.value)];
    && (forall i, j :: 0 <= i < j < 3 ==> paths[i] != paths[j])
    && (forall i, j :: 0 <= i < 3 && 0 <= j < 3 ==> paths[i] != locks[j])
  }

  /** The files under `/etc/` are separate. */
  lemma DefaultFilesSeparate()
    ensures Separate(DefaultFiles())
  {
    var f := DefaultFiles();
    assert PathText(f.passwd.value) == "/etc/passwd";
    assert PathText(f.shadow.value) == "/etc/shadow";
    assert PathText(f.group.value) == "/etc/group";
    assert LockPath(f.passwd.value) == "/etc/passwd.lock";
    assert LockPath(f.shadow.value) == "/etc/shadow.lock";
    assert LockPath(f.group.value) == "/etc/group.lock";
  }

  // ---------------------------------------------------------------------
  // Lock and temporary file names
  // ---------------------------------------------------------------------

  /** The lock file: `<name>.lock` in the file's directory. */
  function LockPath(p: Path): (r: string)
    ensures |r| == |PathText(p)| + 5 && r[|r| - 1] == 'k'
  {
    PathText(Path(p.dir, p.name + ".lock"))
  }

  /** The temporary file holding the process id: `<name>.<pid>` in the
      file's directory. */
  function TempPath(p: Path, pid: U32): (r: string)
    ensures |r| > |PathText(p)| + 1 && IsDigit(r[|r| - 1])
  {
    PathText(Path(p.dir, p.name + "." + NatToString(pid)))
  }

  /** The lock file, the temporary file and the file itself are three
      different paths; and a temporary file is never any file's lock file. */
  lemma LockNamesDistinct(p: Path, q: Path, pid: U32)
    ensures LockPath(p) != PathText(p) && TempPath(p, pid) != PathText(p)
    ensures LockPath(p) != TempPath(q, pid)
  {
  }

  /** Two files share a lock file only if they are the same file. */
  lemma LockPathInjective(p: Path, q: Path)
    ensures LockPath(p) == LockPath(q) <==> PathText(p) == PathText(q)
  {
    assert LockPath(p) == PathText(p) + ".lock";
    assert LockPath(q) == PathText(q) + ".lock";
    if LockPath(p) == LockPath(q) {
      assert PathText(p) == LockPath(p)[..|PathText(p)|];
    }
  }

  /** The lock of `/etc/passwd`. */
  lemma EtcPasswdLockName()
    ensures LockPath(Path("/etc/", "passwd")) == "/etc/passwd.lock"
    ensures TempPath(Path("/etc/", "passwd"), 12397) == "/etc/passwd.12397"
  {
    PidText();
  }

  lemma PidText()
    ensures NatToString(12397) == "12397"
  {
    assert NatToString(12) == "12";
    assert NatToString(123) == "123";
    assert NatToString(1239) == "1239";
  }

  // ---------------------------------------------------------------------
  // Locking
  // ---------------------------------------------------------------------

  /** `LockedFileGuard`: a held lock file and the file it protects. */
  datatype Guard = Guard(lockfile: string, path: string)

  /** The file system after an operation, with its outcome. */
  datatype Step<T> = Step(fs: FileSystem, result: Result<T>)

  /** The panic of the unfinished stale-lock check. */
  const STALE_LOCK_PANIC := "not yet implemented: Validate the lock and delete the file if the process does not exist anymore"

  /** What the operating system reports for a missing file. */
  const NO_SUCH_FILE := "No such file or directory (os error 2)"

  /** What the operating system reports for a seek before the start. */
  const INVALID_ARGUMENT := "Invalid argument (os error 22)"

  /** `try_to_lock_file` and `LockedFileGuard::new`: write the pid into the
      temporary file and link the lock file to it. When the link succeeds the
      file is opened, or the lock is undone if the file does not exist. When
      the lock file already exists, a parseable pid in it reaches the
      unfinished liveness check and anything else gives up. The temporary
      file is removed in every case. */
  function TryToLockFile(fs: FileSystem, p: Path, pid: U32): (r: Step<Guard>)
    ensures r.result.Ok? <==> LockPath(p) !in fs && PathText(p) in fs
    ensures r.result.Ok? ==> r.result.value == Guard(LockPath(p), PathText(p))
    ensures r.result.Ok? ==> r.fs == (fs - {TempPath(p, pid)})[LockPath(p) := NatToString(pid)]
    ensures r.result.Err? ==> r.fs == fs - {TempPath(p, pid)} && r.result.error.Message?
  {
    var temp := TempPath(p, pid);
    var lock := LockPath(p);
    LockNamesDistinct(p, p, pid);
    var withTemp := fs[temp := NatToString(pid)];
    TempFileRemoved(fs, temp, NatToString(pid));
    if lock !in withTemp then
      var linked := withTemp[lock := NatToString(pid)];
      LinkedFilesRemoved(fs, temp, lock, NatToString(pid));
      if PathText(p) in linked then
        Step(linked - {temp}, Ok(Guard(lock, PathText(p))))
      else
        Step(linked - {lock} - {temp},
             Err(FromText("Failed to open the file: " + PathText(p) + ", error: " + NO_SUCH_FILE)))
    else
      var content := TrimMatches(Trim(withTemp[lock]), '\0');
      if ParseUnsigned(content, U32_LIMIT).Some? then
        Step(withTemp - {temp}, Err(FromText(STALE_LOCK_PANIC)))
      else
        Step(withTemp - {temp}, Err(FromText("was not able to lock!")))
  }

  /** Writing the temporary file and removing it again leaves the system
      without it. */
  lemma TempFileRemoved(fs: FileSystem, temp: string, v: string)
    ensures fs[temp := v] - {temp} == fs - {temp}
  {
  }

  /** Writing the temporary file, linking the lock to it and removing the
      temporary file leaves the lock; removing the lock too leaves neither. */
  lemma LinkedFilesRemoved(fs: FileSystem, temp: string, lock: string, v: string)
    requires lock != temp && lock !in fs
    ensures fs[temp := v][lock := v] - {temp} == (fs - {temp})[lock := v]
    ensures fs[temp := v][lock := v] - {lock} - {temp} == fs - {temp}
  {
  }

  /** `Drop for LockedFileGuard`: the lock file is removed. */
  function DropGuard(fs: FileSystem, g: Guard): (r: FileSystem)
    ensures g.lockfile !in r
    ensures forall k :: k in r <==> k in fs && k != g.lockfile
    ensures forall k :: k in r ==> r[k] == fs[k]
  {
    fs - {g.lockfile}
  }

  /** Mutual exclusion: while a file's lock exists no one gets a guard for
      it, and the attempt leaves every other file as it was. */
  lemma LockedFileCannotBeLocked(fs: FileSystem, p: Path, pid: U32)
    requires LockPath(p) in fs
    ensures TryToLockFile(fs, p, pid).result.Err?
    ensures TryToLockFile(fs, p, pid).fs == fs - {TempPath(p, pid)}
  {
  }

  /** Locking the same file twice, which a lock held by this very process
      does: the second attempt finds this process's id in the lock file and
      stops at the unfinished liveness check. */
  lemma SecondLockHitsStaleCheck(fs: FileSystem, p: Path, pid: U32)
    requires TryToLockFile(fs, p, pid).result.Ok?
    ensures var first := TryToLockFile(fs, p, pid);
            TryToLockFile(first.fs, p, pid).result == Err(FromText(STALE_LOCK_PANIC))
  {
    var first := TryToLockFile(fs, p, pid);
    var text := NatToString(pid);
    LockNamesDistinct(p, p, pid);
    assert first.fs[LockPath(p)] == text;
    TrimUntrimmed(text);
    assert TrimMatches(text, '\0') == text;
    ParseUnsignedOfDisplay(pid, U32_LIMIT);
  }

  /** Taking a free lock and dropping its guard restores the file system. */
  lemma LockThenDropRestores(fs: FileSystem, p: Path, pid: U32)
    requires LockPath(p) !in fs && PathText(p) in fs && TempPath(p, pid) !in fs
    ensures var s := TryToLockFile(fs, p, pid);
            s.result.Ok? && DropGuard(s.fs, s.result.value) == fs
  {
    LockNamesDistinct(p, p, pid);
    var s := TryToLockFile(fs, p, pid);
    assert DropGuard(s.fs, s.result.value) == fs - {TempPath(p, pid)};
    assert fs - {TempPath(p, pid)} == fs;
  }

  /** `lock_and_get_passwd`, `lock_and_get_shadow` and `lock_and_get_group`:
      a missing path is `FilesRequired`, otherwise the file is locked. */
  function LockAndGet(path: Option<Path>, fs: FileSystem, pid: U32): (r: Step<Guard>)
    ensures path.None? ==> r == Step(fs, Err(FilesRequired))
    ensures path.Some? ==> r == TryToLockFile(fs, path.value, pid)
  {
    match path
    case None => Step(fs, Err(FilesRequired))
    case Some(p) => TryToLockFile(fs, p, pid)
  }

  /** The three guards `lock_all_get` hands out. */
  datatype Locked = Locked(passwd: Guard, shadow: Guard, group: Guard)

  /** No file of `fs'` is new or different: `fs'` only lacks files of `fs`. */
  predicate OnlyRemoved(fs: FileSystem, fs': FileSystem) {
    forall k :: k in fs' ==> k in fs && fs'[k] == fs[k]
  }

  /** `lock_all_get`: locks passwd, then shadow, then group; the first
      failure is the outcome, and the guards already taken are dropped. */
  function LockAllGet(f: Files, fs: FileSystem, pid: U32): (r: Step<Locked>)
    ensures f.passwd.None? ==> r == Step(fs, Err(FilesRequired))
    ensures r.result == Err(FilesRequired) ==> IsVirtual(f)
    ensures r.result.Err? ==> OnlyRemoved(fs, r.fs)
    ensures r.result.Ok? ==> !IsVirtual(f)
    ensures r.result.Ok? ==> r.result.value == Locked(Guard(LockPath(f.passwd.value), PathText(f.passwd.value)),
                                                      Guard(LockPath(f.shadow.value), PathText(f.shadow.value)),
                                                      Guard(LockPath(f.group.value), PathText(f.group.value)))
    ensures r.result.Ok? ==> LockPath(f.passwd.value) !in fs && LockPath(f.shadow.value) !in fs
                             && LockPath(f.group.value) !in fs
    ensures r.result.Ok? ==> PathText(f.passwd.value) in fs
    ensures r.result.Ok? ==> PathText(f.passwd.value) != PathText(f.shadow.value)
                             && PathText(f.shadow.value) != PathText(f.group.value)
                             && PathText(f.passwd.value) != PathText(f.group.value)
  {
    var sp := LockAndGet(f.passwd, fs, pid);
    if sp.result.Err? then Step(sp.fs, Err(sp.result.error))
    else
      var gp := sp.result.value;
      var ss := LockAndGet(f.shadow, sp.fs, pid);
      if ss.result.Err? then
        LockAllFailsAtShadow(f, fs, pid);
        Step(DropGuard(ss.fs, gp), Err(ss.result.error))
      else
        var gs := ss.result.value;
        var sg := LockAndGet(f.group, ss.fs, pid);
        if sg.result.Err? then
          LockAllFailsAtGroup(f, fs, pid);
          Step(DropGuard(DropGuard(sg.fs, gs), gp), Err(sg.result.error))
        else
          LockAllSucceeds(f, fs, pid);
          Step(sg.fs, Ok(Locked(gp, gs, sg.result.value)))
  }

  /** When shadow cannot be locked, dropping the passwd guard leaves only
      files of the original system. */
  lemma LockAllFailsAtShadow(f: Files, fs: FileSystem, pid: U32)
    requires LockAndGet(f.passwd, fs, pid).result.Ok?
    requires LockAndGet(f.shadow, LockAndGet(f.passwd, fs, pid).fs, pid).result.Err?
    ensures var sp := LockAndGet(f.passwd, fs, pid);
            var ss := LockAndGet(f.shadow, sp.fs, pid);
            OnlyRemoved(fs, DropGuard(ss.fs, sp.result.value))
  {
    var p := f.passwd.value;
    var sp := LockAndGet(f.passwd, fs, pid);
    var ss := LockAndGet(f.shadow, sp.fs, pid);
    if f.shadow.Some? {
      LockNamesDistinct(p, f.shadow.value, pid);
    }
  }

  /** When group cannot be locked, dropping the shadow and passwd guards
      leaves only files of the original system. */
  lemma LockAllFailsAtGroup(f: Files, fs: FileSystem, pid: U32)
    requires LockAndGet(f.passwd, fs, pid).result.Ok?
    requires LockAndGet(f.shadow, LockAndGet(f.passwd, fs, pid).fs, pid).result.Ok?
    requires LockAndGet(f.group, LockAndGet(f.shadow, LockAndGet(f.passwd, fs, pid).fs, pid).fs, pid).result.Err?
    ensures var sp := LockAndGet(f.passwd, fs, pid);
            var ss := LockAndGet(f.shadow, sp.fs, pid);
            var sg := LockAndGet(f.group, ss.fs, pid);
            OnlyRemoved(fs, DropGuard(DropGuard(sg.fs, ss.result.value), sp.result.value))
  {
    var p := f.passwd.value;
    var s := f.shadow.value;
    LockNamesDistinct(p, s, pid);
    LockNamesDistinct(s, p, pid);
    if f.group.Some? {
      LockNamesDistinct(p, f.group.value, pid);
      LockNamesDistinct(s, f.group.value, pid);
    }
  }

  /** When all three locks are taken, the three lock files were free and
      belong to three different files. */
  lemma LockAllSucceeds(f: Files, fs: FileSystem, pid: U32)
    requires LockAndGet(f.passwd, fs, pid).result.Ok?
    requires LockAndGet(f.shadow, LockAndGet(f.passwd, fs, pid).fs, pid).result.Ok?
    requires LockAndGet(f.group, LockAndGet(f.shadow, LockAndGet(f.passwd, fs, pid).fs, pid).fs, pid).result.Ok?
    ensures LockPath(f.passwd.value) !in fs && LockPath(f.shadow.value) !in fs && LockPath(f.group.value) !in fs
    ensures PathText(f.passwd.value) != PathText(f.shadow.value)
    ensures PathText(f.shadow.value) != PathText(f.group.value)
    ensures PathText(f.passwd.value) != PathText(f.group.value)
  {
    var p, s, g := f.passwd.value, f.shadow.value, f.group.value;
    LockNamesDistinct(p, s, pid);
    LockNamesDistinct(s, g, pid);
    LockNamesDistinct(p, g, pid);
    LockNamesDistinct(g, p, pid);
    LockNamesDistinct(s, p, pid);
    LockNamesDistinct(g, s, pid);
    LockPathInjective(p, s);
    LockPathInjective(s, g);
    LockPathInjective(p, g);
  }

  /** Locking all three files and dropping the guards again leaves only
      files that were there before, unchanged: the temporary files are gone
      and so are the lock files. */
  lemma LockAllOnlyAddsLocks(f: Files, fs: FileSystem, pid: U32)
    requires LockAllGet(f, fs, pid).result.Ok?
    ensures var s := LockAllGet(f, fs, pid);
            OnlyRemoved(fs, Release(s.fs, s.result.value))
    ensures var s := LockAllGet(f, fs, pid);
            var locks := {LockPath(f.passwd.value), LockPath(f.shadow.value), LockPath(f.group.value)};
            forall k :: k in s.fs && k !in locks ==> k in fs && s.fs[k] == fs[k]
  {
    var s := LockAllGet(f, fs, pid);
    var p, sh, g := f.passwd.value, f.shadow.value, f.group.value;
    var s1 := TryToLockFile(fs, p, pid);
    var s2 := TryToLockFile(s1.fs, sh, pid);
    var s3 := TryToLockFile(s2.fs, g, pid);
    assert s.fs == s3.fs;
    var locks := {LockPath(p), LockPath(sh), LockPath(g)};
    assert forall k :: k in s1.fs && k != LockPath(p) ==> k in fs && s1.fs[k] == fs[k];
    assert forall k :: k in s2.fs && k !in {LockPath(p), LockPath(sh)} ==> k in fs && s2.fs[k] == fs[k];
    assert forall k :: k in s3.fs && k !in locks ==> k in fs && s3.fs[k] == fs[k];
  }

  /** Dropping the three guards of `lock_all_get`. */
  function Release(fs: FileSystem, l: Locked): (r: FileSystem)
    ensures l.passwd.lockfile !in r && l.shadow.lockfile !in r && l.group.lockfile !in r
    ensures OnlyRemoved(fs, r)
    ensures forall k :: k in fs && k != l.passwd.lockfile && k != l.shadow.lockfile && k != l.group.lockfile
                        ==> k in r
  {
    DropGuard(DropGuard(DropGuard(fs, l.group), l.shadow), l.passwd)
  }

  // ---------------------------------------------------------------------
  // Writing a locked file
  // ---------------------------------------------------------------------

  /** `replace_contents`: the file is truncated and holds the new content
      followed by one line break. */
  function ReplaceContents(fs: FileSystem, g: Guard, content: string): (r: FileSystem)
    ensures g.path in r && r[g.path] == content + "\n"
    ensures forall k :: k != g.path ==> (k in r <==> k in fs)
    ensures forall k :: k in fs && k != g.path ==> r[k] == fs[k]
  {
    fs[g.path := content + "\n"]
  }

  /** The file written by `replace_contents` has exactly the lines of the
      content, when the content does not itself end a line. */
  lemma ReplacedFileLines(fs: FileSystem, g: Guard, content: string)
    requires content != "" && content[|content| - 1] != '\n' && content[|content| - 1] != '\r'
    ensures Lines(ReplaceContents(fs, g, content)[g.path]) == Lines(content)
  {
    LinesOfTerminated(content);
  }

  /** The text of the locked file; a file that no longer exists reads as
      empty. */
  function GuardedText(fs: FileSystem, g: Guard): string {
    if g.path in fs then fs[g.path] else ""
  }

  /** `append` on a file's text: seeking to the last byte fails on an empty
      file; otherwise a line break is added unless the text already ends with
      one, then the appended text, with no line break after it. */
  function AppendText(text: string, appendee: string): (r: Result<string>)
    ensures r.Err? <==> text == ""
    ensures r.Err? ==> r.error == FromText("Failed to append to file " + INVALID_ARGUMENT)
    ensures r.Ok? ==> |r.value| >= |text| + |appendee| && r.value[..|text|] == text
    ensures r.Ok? ==> r.value[|r.value| - |appendee|..] == appendee
    ensures r.Ok? ==> r.value[|r.value| - |appendee| - 1] == '\n'
    ensures r.Ok? && text[|text| - 1] == '\n' ==> r.value == text + appendee
    ensures r.Ok? && text[|text| - 1] != '\n' ==> |r.value| == |text| + 1 + |appendee|
  {
    if text == "" then Err(FromText("Failed to append to file " + INVALID_ARGUMENT))
    else if text[|text| - 1] == '\n' then Ok(text + appendee)
    else Ok(text + "\n" + appendee)
  }

  /** `append` on the locked file. */
  function Append(fs: FileSystem, g: Guard, appendee: string): (r: Result<FileSystem>)
    ensures r.Err? <==> GuardedText(fs, g) == ""
    ensures r.Ok? ==> r.value == fs[g.path := AppendText(GuardedText(fs, g), appendee).value]
  {
    var text :- AppendText(GuardedText(fs, g), appendee);
    Ok(fs[g.path := text])
  }

  /** A non-empty text whose last character is not a carriage return. */
  predicate EndsWithoutCR(text: string) {
    text != "" && text[|text| - 1] != '\r'
  }

  /** Appending one line keeps every line of the file and adds exactly that
      line at the end, provided the old last line does not end in `\r`. */
  lemma AppendAddsOneLine(text: string, appendee: string)
    requires EndsWithoutCR(text)
    requires appendee != "" && '\n' !in appendee
    ensures Lines(AppendText(text, appendee).value) == Lines(text) + [appendee]
  {
    if text[|text| - 1] == '\n' {
      LinesAfterNewline(text, appendee);
    } else {
      LinesOfTerminated(text);
      assert text + "\n" + appendee == (text + "\n") + appendee;
      LinesAfterNewline(text + "\n", appendee);
    }
  }
}

=== FILE: gecos_fields.dfy ===
/**
 * The gecos (comment) field of a passwd record: either one free-form comment,
 * or a comma-separated list whose first four items are the full name, room,
 * work phone and home phone.
 */
module GecosFields {
  import opened Options
  import opened Errors
  import opened Text

  datatype Gecos =
    | Detail(fullName: string, room: string, phoneWork: string, phoneHome: string,
             other: Option<seq<string>>)
    | Simple(comment: string)

  /** `Display`: the comment, or the four named items and any others joined
      with commas. */
  function GecosToString(g: Gecos): string {
    match g
    case Simple(c) => c
    case Detail(f, r, w, h, other) =>
      f + "," + r + "," + w + "," + h
      + (match other
         case None => ""
         case Some(rest) => "," + Join(rest, ','))
  }

  /** The items a gecos value displays, in order. */
  function Items(g: Gecos): seq<string> {
    match g
    case Simple(c) => [c]
    case Detail(f, r, w, h, other) => [f, r, w, h] + other.GetOr([])
  }

  /** `Gecos::try_from`: four or more comma-separated items are a `Detail`
      (the items past the fourth, if any, are kept in order as `other`); a
      single item is a `Simple` comment; two or three items make the source
      panic, which is an error here. */
  function GecosTryFrom(s: string): (r: Result<Gecos>)
    ensures r.Err? <==> 2 <= |Split(s, ',')| <= 3
    ensures r.Ok? ==> Items(r.value) == Split(s, ',')
    ensures r.Ok? ==> GecosToString(r.value) == s
    ensures r.Ok? && r.value.Detail? ==> (r.value.other.None? <==> |Split(s, ',')| == 4)
  {
    var vals := Split(s, ',');
    JoinSplit(s, ',');
    if |vals| > 3 then
      var g := Detail(vals[0], vals[1], vals[2], vals[3],
                      if |vals| == 4 then None else Some(vals[4..]));
      DetailToStringIsJoin(g);
      assert Items(g) == vals;
      Ok(g)
    else if |vals| == 1 then
      Ok(Gecos.Simple(vals[0]))
    else
      Err(FromText("Could not parse this string: " + s))
  }

  /** The display of a `Detail` is the comma-join of its items, provided the
      other items, when present, are not an empty list. */
  lemma DetailToStringIsJoin(g: Gecos)
    requires g.Detail?
    requires g.other.Some? ==> |g.other.value| > 0
    ensures GecosToString(g) == Join(Items(g), ',')
  {
    var head := [g.fullName, g.room, g.phoneWork, g.phoneHome];
    assert Join(head, ',') == g.fullName + "," + g.room + "," + g.phoneWork + "," + g.phoneHome by {
      var t1 := [g.room, g.phoneWork, g.phoneHome];
      var t2 := [g.phoneWork, g.phoneHome];
      assert head[1..] == t1 && t1[1..] == t2 && t2[1..] == [g.phoneHome];
      assert Join(t2, ',') == g.phoneWork + "," + g.phoneHome;
      assert Join(t1, ',') == g.room + "," + g.phoneWork + "," + g.phoneHome;
    }
    if g.other.Some? {
      JoinConcat(head, g.other.value, ',');
    } else {
      assert Items(g) == head;
    }
  }

  /** A gecos value that its display reproduces: no item holds a comma, and a
      `Detail` never carries an empty list of other items. */
  predicate IsCanonical(g: Gecos) {
    && (forall i :: 0 <= i < |Items(g)| ==> ',' !in Items(g)[i])
    && (g.Detail? && g.other.Some? ==> |g.other.value| > 0)
  }

  /** Parsing the display of a canonical gecos value gives it back. */
  lemma ParseOfToString(g: Gecos)
    requires IsCanonical(g)
    ensures GecosTryFrom(GecosToString(g)) == Ok(g)
  {
    var items := Items(g);
    if g.Detail? {
      DetailToStringIsJoin(g);
      SplitJoin(items, ',');
      if g.other.Some? {
        assert items[4..] == g.other.value;
      }
    } else {
      SplitWithoutSeparator(g.comment, ',');
    }
  }

  /** An empty list of other items is displayed as a trailing comma, which
      parses back as one empty item: the only non-canonical `Detail`. */
  lemma EmptyOtherDoesNotRoundTrip()
    ensures GecosToString(Detail("a", "b", "c", "d", Some([]))) == "a,b,c,d,"
    ensures GecosTryFrom("a,b,c,d,") == Ok(Detail("a", "b", "c", "d", Some([""])))
  {
    var g := Detail("a", "b", "c", "d", Some([""]));
    ParseOfToString(g);
    assert Items(g) == ["a", "b", "c", "d", ""];
    assert Join([""], ',') == "";
  }

  // ---------------------------------------------------------------------
  // Getters
  // ---------------------------------------------------------------------

  /** `Some(text)` unless the text is empty. */
  function NonEmpty(s: string): (r: Option<string>)
    ensures r.Some? <==> s != ""
    ensures r.Some? ==> r.value == s
  {
    if s == "" then None else Some(s)
  }

  /** `get_comment`. */
  function GetComment(g: Gecos): (r: Option<string>)
    ensures r.Some? <==> g.Simple?
    ensures r.Some? ==> r.value == g.comment
  {
    match g
    case Simple(c) => Some(c)
    case Detail(_, _, _, _, _) => None
  }

  /** `get_full_name`. */
  function GetFullName(g: Gecos): (r: Option<string>)
    ensures r.Some? <==> g.Detail? && g.fullName != ""
    ensures r.Some? ==> r.value == g.fullName
  {
    if g.Detail? then NonEmpty(g.fullName) else None
  }

  /** `get_room`. */
  function GetRoom(g: Gecos): (r: Option<string>)
    ensures r.Some? <==> g.Detail? && g.room != ""
    ensures r.Some? ==> r.value == g.room
  {
    if g.Detail? then NonEmpty(g.room) else None
  }

  /** `get_phone_work`. */
  function GetPhoneWork(g: Gecos): (r: Option<string>)
    ensures r.Some? <==> g.Detail? && g.phoneWork != ""
    ensures r.Some? ==> r.value == g.phoneWork
  {
    if g.Detail? then NonEmpty(g.phoneWork) else None
  }

  /** `get_phone_home`. */
  function GetPhoneHome(g: Gecos): (r: Option<string>)
    ensures r.Some? <==> g.Detail? && g.phoneHome != ""
    ensures r.Some? ==> r.value == g.phoneHome
  {
    if g.Detail? then NonEmpty(g.phoneHome) else None
  }

  /** `get_other`. */
  function GetOther(g: Gecos): (r: Option<seq<string>>)
    ensures r.Some? <==> g.Detail? && g.other.Some?
    ensures r.Some? ==> r.value == g.other.value
  {
    if g.Detail? then g.other else None
  }

  /** A comma-free full name followed by three empty items is a `Detail`
      with nothing but that name. */
  lemma NameOnlyDetail(name: string)
    requires ',' !in name
    ensures GecosTryFrom(name + ",,,") == Ok(Detail(name, "", "", "", None))
  {
    var g := Detail(name, "", "", "", None);
    assert Items(g) == [name, "", "", ""];
    assert IsCanonical(g);
    assert GecosToString(g) == name + ",,,";
    ParseOfToString(g);
  }

  /** The detail example of the library's tests: empty room and phones, no
      other items. */
  lemma GecosDetailExample()
    ensures GecosTryFrom("systemd Network Management,,,")
         == Ok(Detail("systemd Network Management", "", "", "", None))
  {
    var name := "systemd Network Management";
    assert ',' !in name;
    assert name + ",,," == "systemd Network Management,,,";
    NameOnlyDetail(name);
  }

  /** The comment example of the library's tests. */
  lemma GecosSimpleExample()
    ensures GecosTryFrom("A böring comment →") == Ok(Gecos.Simple("A böring comment →"))
  {
    SplitWithoutSeparator("A böring comment →", ',');
  }

  /** The getters on the parsed examples of the library's tests. */
  lemma GecosGetterExamples()
    ensures var g := Detail("systemd Network Management", "", "", "", None);
            && GetFullName(g) == Some("systemd Network Management")
            && GetRoom(g).None? && GetPhoneWork(g).None? && GetPhoneHome(g).None?
            && GetOther(g).None? && GetComment(g).None?
    ensures GetComment(Gecos.Simple("A böring comment →")) == Some("A böring comment →")
  {
  }

  /** Two or three items are rejected. */
  lemma GecosTwoOrThreeItemsRejected()
    ensures GecosTryFrom("a,b").Err? && GecosTryFrom("a,b,c").Err?
  {
    SplitJoin(["a", "b"], ',');
    SplitJoin(["a", "b", "c"], ',');
    assert Join(["b", "c"], ',') == "b,c";
    assert ["a", "b", "c"][1..] == ["b", "c"];
  }
}

=== FILE: group.dfy ===
/**
 * A record (line) of the group file: four colon-separated fields holding the
 * group name, the (unused) password, the gid and the comma-separated members.
 */
module GroupRecord {
  import opened Options
  import opened Errors
  import opened Text
  import opened Decimal
  import opened PasswdFields
  import opened UserRecord

  datatype Group = Group(
    pos: U32,
    source: string,
    groupname: string,
    password: Password,
    gid: U32,
    members: seq<string>)

  /** `is_groupname_valid`: the username rule. */
  predicate IsGroupnameValid(name: string) {
    IsUsernameValid(name)
  }

  /** `Groupname::try_from`: a valid name or exactly `Debian-exim`. */
  function GroupnameTryFrom(s: string): (r: Result<string>)
    ensures r.Ok? <==> IsAcceptedUsername(s)
    ensures r.Ok? ==> r.value == s
    ensures r.Err? ==> r.error == FromText("Invalid groupname -" + s + "-")
  {
    if IsGroupnameValid(s) then Ok(s)
    else if s == DEBIAN_EXIM then Ok(s)
    else Err(FromText("Invalid groupname -" + s + "-"))
  }

  /** The non-empty pieces of a list, in order. */
  function NonEmptyPieces(pieces: seq<string>): (r: seq<string>)
    ensures forall i :: 0 <= i < |r| ==> r[i] != ""
    ensures |r| <= |pieces|
    decreases |pieces|
  {
    if |pieces| == 0 then []
    else if pieces[0] == "" then NonEmptyPieces(pieces[1..])
    else [pieces[0]] + NonEmptyPieces(pieces[1..])
  }

  /** Checks every name with `Username::try_from`, failing at the first
      rejected one. */
  function ParseNames(names: seq<string>): (r: Result<seq<string>>)
    ensures r.Ok? <==> forall i :: 0 <= i < |names| ==> IsAcceptedUsername(names[i])
    ensures r.Ok? ==> r.value == names
    decreases |names|
  {
    if |names| == 0 then Ok([])
    else
      var first :- UsernameTryFrom(names[0]);
      var rest :- ParseNames(names[1..]);
      Ok([first] + rest)
  }

  /** `parse_members_list`: the comma-separated pieces, empty ones dropped;
      a rejected name makes the source panic, which is an error here. */
  function ParseMembersList(source: string): (r: Result<seq<string>>)
    ensures r.Ok? ==> r.value == NonEmptyPieces(Split(source, ','))
    ensures r.Ok? ==> forall i :: 0 <= i < |r.value| ==> IsAcceptedUsername(r.value[i])
  {
    ParseNames(NonEmptyPieces(Split(source, ',')))
  }

  /** `Group::new_from_string`: exactly four colon-separated fields; the name,
      the gid and the members are checked in that order. The password field
      is ignored: the stored password is always disabled. */
  function GroupFromString(line: string, pos: U32): (r: Result<Group>)
    ensures |Split(line, ':')| != 4 ==> r.Err? && r.error.Message?
    ensures r.Ok? ==> |Split(line, ':')| == 4
    ensures r.Ok? ==> r.value.source == line && r.value.pos == pos
    ensures r.Ok? ==> r.value.groupname == Split(line, ':')[0] && r.value.password == Disabled
    ensures r.Ok? ==> r.value.members == NonEmptyPieces(Split(Split(line, ':')[3], ','))
  {
    var els := Split(line, ':');
    if |els| == 4 then
      var groupname :- GroupnameTryFrom(els[0]);
      var gid :- ParseId(els[2]);
      var members :- ParseMembersList(els[3]);
      Ok(Group(pos, line, groupname, Disabled, gid, members))
    else
      Err(FromText("Failed to parse: not enough elements (" + NatToString(|els|) + "): "
                   + DebugList(els)))
  }

  /** A line without four fields fails with its field count and the `{:?}`
      of its fields. On a four-field line the checks run in field order:
      the line is accepted exactly when the name, the gid and every member
      are, the name is then an accepted one and the gid the value its
      parser gives, and the first rejected field's error is the outcome. */
  lemma GroupFromStringChecks(line: string, pos: U32)
    ensures var els := Split(line, ':');
            var r := GroupFromString(line, pos);
            |els| != 4 ==> r == Err(FromText("Failed to parse: not enough elements (" + NatToString(|els|) + "): "
                                             + DebugList(els)))
    ensures var els := Split(line, ':');
            var r := GroupFromString(line, pos);
            |els| == 4 ==>
              && (r.Ok? <==> IsAcceptedUsername(els[0]) && ParseId(els[2]).Ok? && ParseMembersList(els[3]).Ok?)
              && (r.Ok? ==> IsAcceptedUsername(r.value.groupname) && Ok(r.value.gid) == ParseId(els[2]))
              && (!IsAcceptedUsername(els[0]) ==> r == Err(FromText("Invalid groupname -" + els[0] + "-")))
              && (IsAcceptedUsername(els[0]) && ParseId(els[2]).Err? ==> r == Err(ParseError))
              && (IsAcceptedUsername(els[0]) && ParseId(els[2]).Ok? && ParseMembersList(els[3]).Err?
                  ==> r == Err(ParseMembersList(els[3]).error))
  {
  }

  /** The four fields `Display` writes, in order. */
  function Fields(g: Group): seq<string> {
    [g.groupname, PasswordToString(g.password), IdToString(g.gid), Join(g.members, ',')]
  }

  /** `Display`: name, password, gid and the comma-joined members, separated
      by colons. */
  function GroupToString(g: Group): string {
    Join(Fields(g), ':')
  }

  /** Splitting the display at colons gives the fields back, provided no
      field holds a colon. */
  lemma SplitGroupDisplay(g: Group)
    requires forall i :: 0 <= i < 4 ==> ':' !in Fields(g)[i]
    ensures Split(GroupToString(g), ':') == Fields(g)
  {
    SplitJoin(Fields(g), ':');
  }

  /** `get_member_names`: always present, the members in stored order. */
  function GetMemberNames(g: Group): (r: Option<seq<string>>)
    ensures r == Some(g.members)
  {
    Some(g.members)
  }

  /** `append_user`: lists one more member at the end. */
  function AppendUser(g: Group, name: string): (r: Group)
    ensures r.members == g.members + [name] && r.(members := g.members) == g
  {
    g.(members := g.members + [name])
  }

  /** `remove_member`: drops every listing of the name, keeping the rest in
      order. */
  function RemoveMember(g: Group, name: string): (r: Group)
    ensures forall i :: 0 <= i < |r.members| ==> r.members[i] != name
    ensures forall m :: m in g.members && m != name ==> m in r.members
    ensures forall m :: m in r.members ==> m in g.members
    ensures r.(members := g.members) == g
  {
    g.(members := Without(g.members, name))
  }

  /** The list without any copy of `x`. */
  function Without(s: seq<string>, x: string): (r: seq<string>)
    ensures forall i :: 0 <= i < |r| ==> r[i] != x
    ensures forall m :: m in s && m != x ==> m in r
    ensures forall m :: m in r ==> m in s
    decreases |s|
  {
    if |s| == 0 then []
    else if s[0] == x then Without(s[1..], x)
    else [s[0]] + Without(s[1..], x)
  }

  // ---------------------------------------------------------------------
  // Round trip
  // ---------------------------------------------------------------------

  /** Dropping empty pieces from a list without any changes nothing. */
  lemma {:induction false} NonEmptyPiecesUnchanged(pieces: seq<string>)
    requires forall i :: 0 <= i < |pieces| ==> pieces[i] != ""
    ensures NonEmptyPieces(pieces) == pieces
    decreases |pieces|
  {
    if |pieces| > 0 {
      NonEmptyPiecesUnchanged(pieces[1..]);
    }
  }

  /** A member field as `Display` writes it: empty, or names separated by
      single commas. */
  predicate IsCanonicalMemberField(field: string) {
    field == "" || forall i :: 0 <= i < |Split(field, ',')| ==> Split(field, ',')[i] != ""
  }

  /** A group line that `Display` reproduces: `x` as password, a canonical gid
      and no empty member. */
  predicate IsCanonicalLine(line: string) {
    var els := Split(line, ':');
    |els| == 4 && els[1] == "x" && IsCanonicalNat(els[2]) && IsCanonicalMemberField(els[3])
  }

  /** The members of a canonical member field join back into the field. */
  lemma MemberFieldRoundTrip(field: string)
    requires IsCanonicalMemberField(field)
    ensures Join(NonEmptyPieces(Split(field, ',')), ',') == field
  {
    if field == "" {
      assert Split(field, ',') == [""];
      assert NonEmptyPieces([""]) == [];
    } else {
      NonEmptyPiecesUnchanged(Split(field, ','));
      JoinSplit(field, ',');
    }
  }

  /** Round trip: displaying a group parsed from a canonical line gives the
      line back. */
  lemma GroupRoundTrip(line: string, pos: U32)
    requires IsCanonicalLine(line) && GroupFromString(line, pos).Ok?
    ensures GroupToString(GroupFromString(line, pos).value) == line
  {
    var els := Split(line, ':');
    var g := GroupFromString(line, pos).value;
    assert g.gid == ParseId(els[2]).value;
    IdDisplayOfParse(els[2]);
    MemberFieldRoundTrip(els[3]);
    assert Fields(g) == els;
    JoinSplit(line, ':');
  }

  /** A password field other than `x` is not reproduced: it is always shown
      as `x`. */
  lemma GroupPasswordAlwaysShownAsX(line: string, pos: U32)
    requires GroupFromString(line, pos).Ok?
    ensures Fields(GroupFromString(line, pos).value)[1] == "x"
  {
  }

  /** An empty piece of the member field is dropped, so it is not
      reproduced: `a,,b` parses to the two members `a` and `b`. */
  lemma EmptyMemberDropped()
    ensures ParseMembersList("a,,b") == Ok(["a", "b"])
  {
    JoinCons("", ["b"], ',');
    JoinCons("a", ["", "b"], ',');
    assert Join(["a", "", "b"], ',') == "a,,b";
    SplitJoin(["a", "", "b"], ',');
    assert Split("a,,b", ',') == ["a", "", "b"];
    assert ["a", "", "b"][1..] == ["", "b"];
    assert ["", "b"][1..] == ["b"];
    assert NonEmptyPieces(["a", "", "b"]) == ["a", "b"];
    assert IsUsernameValid("a") && IsUsernameValid("b");
  }

  /** The member list of `root:x:0:` is empty. */
  lemma EmptyMemberField()
    ensures ParseMembersList("") == Ok([])
  {
    assert Split("", ',') == [""];
    assert NonEmptyPieces([""]) == [];
  }
}

=== FILE: hashes.dfy ===
/**
 * The staleness snapshot of the database: the full text of each account file
 * as it was when the database was loaded. Despite its name it keeps the text
 * itself, not a digest of it.
 */
module Hashes {

  /** `SourceHash`: one captured text. */
  datatype SourceHash = SourceHash(hashvalue: string)

  /** `SourceHash::new`: captures the text unchanged. */
  function NewSourceHash(src: string): (h: SourceHash)
    ensures h.hashvalue == src
  {
    SourceHash(src)
  }

  /** `has_changed`: the text differs from the captured one. */
  predicate HasChanged(h: SourceHash, text: string) {
    h.hashvalue != text
  }

  /** A snapshot reports a change exactly for the texts other than the one it
      captured; in particular never for that text itself. */
  lemma HasChangedIffDifferent(src: string, text: string)
    ensures !HasChanged(NewSourceHash(src), src)
    ensures HasChanged(NewSourceHash(src), text) <==> text != src
  {
  }

  /** The snapshots of the three account files. */
  datatype Hashes = Hashes(passwd: SourceHash, shadow: SourceHash, group: SourceHash)

  /** `Hashes::new`: captures the passwd, shadow and group texts, each
      independently of the others. */
  function NewHashes(passwd: string, shadow: string, group: string): (h: Hashes)
    ensures !HasChanged(h.passwd, passwd) && !HasChanged(h.shadow, shadow)
    ensures !HasChanged(h.group, group)
    ensures forall t :: HasChanged(h.passwd, t) <==> t != passwd
    ensures forall t :: HasChanged(h.shadow, t) <==> t != shadow
    ensures forall t :: HasChanged(h.group, t) <==> t != group
  {
    Hashes(NewSourceHash(passwd), NewSourceHash(shadow), NewSourceHash(group))
  }
}

=== FILE: linking.dfy ===
/**
 * `groups_to_users`: after loading, every user learns the groups that list
 * it as a member, and then the group its own gid names becomes its primary
 * group, which in turn lists the user as one more member.
 *
 * The users are a map from name to user; the groups are the list in file
 * order. A user's link names its group by gid.
 */
module Linking {
  import opened Decimal
  import opened UserRecord
  import opened GroupRecord

  // ---------------------------------------------------------------------
  // Groups by gid
  // ---------------------------------------------------------------------

  /** How many groups carry a gid. */
  function CountGid(groups: seq<Group>, gid: U32): (r: nat)
    ensures r <= |groups|
    ensures r == 0 <==> forall i :: 0 <= i < |groups| ==> groups[i].gid != gid
    decreases |groups|
  {
    if |groups| == 0 then 0
    else CountGid(groups[..|groups| - 1], gid) + (if groups[|groups| - 1].gid == gid then 1 else 0)
  }

  /** The index of the first group carrying a gid, or -1 when none does. */
  function FindGid(groups: seq<Group>, gid: U32): (r: int)
    ensures -1 <= r < |groups|
    ensures r == -1 <==> forall i :: 0 <= i < |groups| ==> groups[i].gid != gid
    ensures r >= 0 ==> groups[r].gid == gid
    ensures forall i :: 0 <= i < r ==> groups[i].gid != gid
    decreases |groups|
  {
    if |groups| == 0 then -1
    else if groups[0].gid == gid then 0
    else
      var r := FindGid(groups[1..], gid);
      if r < 0 then -1 else r + 1
  }

  /** A gid carried once is carried by no group but the one found. */
  lemma {:induction false} CountOneIsUnique(groups: seq<Group>, gid: U32, i: int)
    requires CountGid(groups, gid) == 1
    requires 0 <= i < |groups| && groups[i].gid == gid
    ensures FindGid(groups, gid) == i
    decreases |groups|
  {
    var n := |groups| - 1;
    if groups[n].gid == gid {
      assert CountGid(groups[..n], gid) == 0;
      assert forall j :: 0 <= j < n ==> groups[j].gid != gid by {
        forall j | 0 <= j < n ensures groups[j].gid != gid {
          assert groups[..n][j] == groups[j];
        }
      }
    } else {
      assert i < n;
      assert groups[..n][i].gid == gid;
      CountOneIsUnique(groups[..n], gid, i);
      var f := FindGid(groups[..n], gid);
      assert forall j :: 0 <= j < f ==> groups[j].gid != gid by {
        forall j | 0 <= j < f ensures groups[j].gid != gid {
          assert groups[..n][j] == groups[j];
        }
      }
    }
  }

  /** Only the gids of the groups matter to how often a gid occurs. */
  lemma {:induction false} CountGidOfSameGids(a: seq<Group>, b: seq<Group>, gid: U32)
    requires |a| == |b| && forall i :: 0 <= i < |a| ==> a[i].gid == b[i].gid
    ensures CountGid(a, gid) == CountGid(b, gid)
    decreases |a|
  {
    if |a| > 0 {
      var n := |a| - 1;
      assert forall i :: 0 <= i < n ==> a[..n][i].gid == b[..n][i].gid by {
        forall i | 0 <= i < n ensures a[..n][i].gid == b[..n][i].gid {
          assert a[..n][i] == a[i] && b[..n][i] == b[i];
        }
      }
      CountGidOfSameGids(a[..n], b[..n], gid);
    }
  }

  // ---------------------------------------------------------------------
  // Member links
  // ---------------------------------------------------------------------

  /** The `Member` links a name gets from one member list: one per listing. */
  function ListingLinks(members: seq<string>, name: string, gid: U32): (r: seq<Link>)
    ensures forall i :: 0 <= i < |r| ==> r[i] == Link(Member, gid)
    decreases |members|
  {
    if |members| == 0 then []
    else
      var n := |members| - 1;
      ListingLinks(members[..n], name, gid) + (if members[n] == name then [Link(Member, gid)] else [])
  }

  /** The `Member` links a name gets from the groups, in group order and, in
      each group, in member order. */
  function MemberLinks(groups: seq<Group>, name: string): (r: seq<Link>)
    ensures forall i :: 0 <= i < |r| ==> r[i].kind == Member
    decreases |groups|
  {
    if |groups| == 0 then []
    else
      var n := |groups| - 1;
      MemberLinks(groups[..n], name) + ListingLinks(groups[n].members, name, groups[n].gid)
  }

  /** A group gives a name as many links as it lists the name. */
  lemma {:induction false} ListingLinksCount(members: seq<string>, name: string, gid: U32)
    ensures |ListingLinks(members, name, gid)| == multiset(members)[name]
    decreases |members|
  {
    if |members| > 0 {
      var n := |members| - 1;
      ListingLinksCount(members[..n], name, gid);
      assert members == members[..n] + [members[n]];
      assert multiset(members) == multiset(members[..n]) + multiset{members[n]};
    }
  }

  /** A name has a `Member` link to a gid exactly when some group with that
      gid lists the name, and it has no other links from the groups. */
  lemma {:induction false} MemberLinksIff(groups: seq<Group>, name: string, l: Link)
    ensures l in MemberLinks(groups, name) <==>
            l.kind == Member && exists i :: 0 <= i < |groups| && groups[i].gid == l.gid && name in groups[i].members
    decreases |groups|
  {
    if |groups| > 0 {
      var n := |groups| - 1;
      MemberLinksIff(groups[..n], name, l);
      ListingLinksCount(groups[n].members, name, groups[n].gid);
      var own := ListingLinks(groups[n].members, name, groups[n].gid);
      assert |own| > 0 <==> name in groups[n].members;
      if l.kind == Member && l.gid == groups[n].gid && name in groups[n].members {
        assert own[0] == l;
      }
      if l in own {
        assert l == Link(Member, groups[n].gid);
      }
      if exists i :: 0 <= i < |groups| && groups[i].gid == l.gid && name in groups[i].members {
        var i :| 0 <= i < |groups| && groups[i].gid == l.gid && name in groups[i].members;
        if i < n {
          assert groups[..n][i] == groups[i];
        }
      }
      if exists i :: 0 <= i < n && groups[..n][i].gid == l.gid && name in groups[..n][i].members {
        var i :| 0 <= i < n && groups[..n][i].gid == l.gid && name in groups[..n][i].members;
        assert groups[i] == groups[..n][i];
      }
    }
  }

  /** One group of the first phase: every name the group lists, in order,
      that belongs to a user gives that user a `Member` link to the group. */
  method LinkGroup(users: map<string, User>, g: Group) returns (r: map<string, User>)
    ensures r.Keys == users.Keys
    ensures forall k :: k in users ==> r[k] == users[k].(links := users[k].links + ListingLinks(g.members, k, g.gid))
  {
    r := users;
    var mi := 0;
    while mi < |g.members|
      invariant 0 <= mi <= |g.members|
      invariant r.Keys == users.Keys
      invariant forall k :: k in users ==> r[k] == users[k].(links := users[k].links + ListingLinks(g.members[..mi], k, g.gid))
    {
      var name := g.members[mi];
      if name in r {
        r := r[name := AddGroup(r[name], Member, g.gid)];
      }
      assert g.members[..mi + 1][..mi] == g.members[..mi];
      mi := mi + 1;
    }
    assert g.members[..mi] == g.members;
  }

  /** The first phase: for every group in order and every name it lists in
      order, a user of that name gets a `Member` link to the group; names
      with no user are passed over. */
  method LinkMembers(users: map<string, User>, groups: seq<Group>) returns (r: map<string, User>)
    ensures r.Keys == users.Keys
    ensures forall k :: k in users ==> r[k] == users[k].(links := users[k].links + MemberLinks(groups, k))
  {
    r := users;
    var gi := 0;
    while gi < |groups|
      invariant 0 <= gi <= |groups|
      invariant r.Keys == users.Keys
      invariant forall k :: k in users ==> r[k] == users[k].(links := users[k].links + MemberLinks(groups[..gi], k))
    {
      var before := r;
      r := LinkGroup(before, groups[gi]);
      assert groups[..gi + 1][..gi] == groups[..gi];
      forall k | k in users
        ensures r[k] == users[k].(links := users[k].links + MemberLinks(groups[..gi + 1], k))
      {
        var a, b, c := users[k].links, MemberLinks(groups[..gi], k), ListingLinks(groups[gi].members, k, groups[gi].gid);
        assert a + b + c == a + (b + c);
      }
      gi := gi + 1;
    }
    assert groups[..gi] == groups;
  }

  // ---------------------------------------------------------------------
  // Primary links
  // ---------------------------------------------------------------------

  /** A user after the second phase: a gid carried by exactly one group
      becomes a `Primary` link; a gid carried by none or by several groups
      is only logged, so the user is unchanged. */
  function PrimaryLinked(u: User, groups: seq<Group>): (r: User)
    ensures r.(links := u.links) == u
    ensures CountGid(groups, u.gid) == 1 ==> r.links == u.links + [Link(Primary, u.gid)]
    ensures CountGid(groups, u.gid) != 1 ==> r == u
  {
    if CountGid(groups, u.gid) == 1 then AddGroup(u, Primary, u.gid) else u
  }

  /** The names the second phase appends to the group carrying `gid`, when
      it visits the users under the names of `order` in that order: the name
      of every user whose gid it is, provided no other group carries it. */
  function PrimaryNames(order: seq<string>, users: map<string, User>, groups: seq<Group>, gid: U32): (r: seq<string>)
    requires forall i :: 0 <= i < |order| ==> order[i] in users
    ensures CountGid(groups, gid) != 1 ==> r == []
    decreases |order|
  {
    if |order| == 0 then []
    else
      var n := |order| - 1;
      var u := users[order[n]];
      PrimaryNames(order[..n], users, groups, gid)
        + (if u.gid == gid && CountGid(groups, gid) == 1 then [u.username] else [])
  }

  /** A name is appended to the group carrying `gid` exactly when a visited
      user of that name has that gid and no other group carries it. */
  lemma {:induction false} PrimaryNamesIff(order: seq<string>, users: map<string, User>, groups: seq<Group>,
                                            gid: U32, name: string)
    requires forall i :: 0 <= i < |order| ==> order[i] in users
    ensures name in PrimaryNames(order, users, groups, gid) <==>
            CountGid(groups, gid) == 1 && VisitsUserWith(order, users, gid, name)
    decreases |order|
  {
    if |order| > 0 {
      var n := |order| - 1;
      var u := users[order[n]];
      var tail := if u.gid == gid && CountGid(groups, gid) == 1 then [u.username] else [];
      assert PrimaryNames(order, users, groups, gid) == PrimaryNames(order[..n], users, groups, gid) + tail;
      PrimaryNamesIff(order[..n], users, groups, gid, name);
      VisitsUserWithSnoc(order, users, gid, name);
    }
  }

  /** Some name of `order` is that of a user with the gid and the name. */
  ghost predicate VisitsUserWith(order: seq<string>, users: map<string, User>, gid: U32, name: string)
    requires forall i :: 0 <= i < |order| ==> order[i] in users
  {
    exists i :: 0 <= i < |order| && users[order[i]].gid == gid && users[order[i]].username == name
  }

  /** Such a name is among all but the last names, or it is the last one. */
  lemma VisitsUserWithSnoc(order: seq<string>, users: map<string, User>, gid: U32, name: string)
    requires |order| > 0 && forall i :: 0 <= i < |order| ==> order[i] in users
    ensures var n := |order| - 1; var u := users[order[n]];
            VisitsUserWith(order, users, gid, name)
            <==> VisitsUserWith(order[..n], users, gid, name) || (u.gid == gid && u.username == name)
  {
    var n := |order| - 1;
    if VisitsUserWith(order, users, gid, name) {
      var i :| 0 <= i < |order| && users[order[i]].gid == gid && users[order[i]].username == name;
      if i < n {
        assert order[..n][i] == order[i];
      }
    }
    if VisitsUserWith(order[..n], users, gid, name) {
      var i :| 0 <= i < n && users[order[..n][i]].gid == gid && users[order[..n][i]].username == name;
      assert order[i] == order[..n][i];
    }
  }

  /** Visiting one more user appends its name to the group of its gid, if
      that gid is carried once, and to no other group. */
  lemma PrimaryNamesSnoc(order: seq<string>, k: string, users: map<string, User>, groups: seq<Group>, gid: U32)
    requires forall i :: 0 <= i < |order| ==> order[i] in users
    requires k in users
    ensures PrimaryNames(order + [k], users, groups, gid)
            == PrimaryNames(order, users, groups, gid)
               + (if users[k].gid == gid && CountGid(groups, gid) == 1 then [users[k].username] else [])
  {
    assert (order + [k])[..|order|] == order;
  }

  /** Only the gids and names of the visited users matter to the appended
      names. */
  lemma {:induction false} PrimaryNamesOfSameUsers(order: seq<string>, a: map<string, User>, b: map<string, User>,
                                                    groups: seq<Group>, gid: U32)
    requires forall i :: 0 <= i < |order| ==> order[i] in a && order[i] in b
    requires forall k :: k in a && k in b ==> a[k].gid == b[k].gid && a[k].username == b[k].username
    ensures PrimaryNames(order, a, groups, gid) == PrimaryNames(order, b, groups, gid)
    decreases |order|
  {
    if |order| > 0 {
      PrimaryNamesOfSameUsers(order[..|order| - 1], a, b, groups, gid);
    }
  }

  /** `order` visits every name of the map exactly once. */
  predicate IsVisitOrder(order: seq<string>, users: map<string, User>) {
    && (forall i :: 0 <= i < |order| ==> order[i] in users)
    && (forall k :: k in users ==> k in order)
    && (forall i, j :: 0 <= i < j < |order| ==> order[i] != order[j])
  }

  /** The groups after the second phase, for a visiting order. */
  function PrimaryGroups(order: seq<string>, users: map<string, User>, groups: seq<Group>): (r: seq<Group>)
    requires forall i :: 0 <= i < |order| ==> order[i] in users
    ensures |r| == |groups|
    ensures forall i :: 0 <= i < |groups| ==> r[i].(members := groups[i].members) == groups[i]
  {
    seq(|groups|, i requires 0 <= i < |groups| =>
      groups[i].(members := groups[i].members + PrimaryNames(order, users, groups, groups[i].gid)))
  }

  /** One visit of the second phase: the user of name `k` gets its primary
      link and is appended to its group when exactly one group carries its
      gid. */
  method VisitPrimary(users: map<string, User>, groups: seq<Group>, k: string) returns (linked: map<string, User>, extended: seq<Group>)
    requires k in users
    ensures linked.Keys == users.Keys
    ensures linked[k] == PrimaryLinked(users[k], groups)
    ensures forall other :: other in users && other != k ==> linked[other] == users[other]
    ensures |extended| == |groups|
    ensures forall i :: 0 <= i < |groups| ==>
              extended[i] == groups[i].(members := groups[i].members
                + (if users[k].gid == groups[i].gid && CountGid(groups, groups[i].gid) == 1 then [users[k].username] else []))
  {
    var u := users[k];
    if CountGid(groups, u.gid) == 1 {
      var j := FindGid(groups, u.gid);
      extended := groups[j := AppendUser(groups[j], u.username)];
      linked := users[k := AddGroup(u, Primary, u.gid)];
      forall i | 0 <= i < |groups| && i != j
        ensures u.gid != groups[i].gid
      {
        if u.gid == groups[i].gid {
          CountOneIsUnique(groups, u.gid, i);
        }
      }
    } else {
      extended := groups;
      linked := users;
      forall i | 0 <= i < |groups| ensures groups[i].(members := groups[i].members) == groups[i] {
      }
    }
  }

  /** Visiting the user of name `k` after those of `order` gives the groups
      of the order extended by `k`. */
  lemma PrimaryGroupsStep(order: seq<string>, k: string, users: map<string, User>, groups: seq<Group>,
                          before: seq<Group>, after: seq<Group>)
    requires forall i :: 0 <= i < |order| ==> order[i] in users
    requires k in users
    requires before == PrimaryGroups(order, users, groups)
    requires |after| == |before|
    requires forall i :: 0 <= i < |before| ==>
               after[i] == before[i].(members := before[i].members
                 + (if users[k].gid == before[i].gid && CountGid(before, before[i].gid) == 1 then [users[k].username] else []))
    ensures after == PrimaryGroups(order + [k], users, groups)
  {
    assert forall i :: 0 <= i < |groups| ==> before[i].gid == groups[i].gid;
    var next := PrimaryGroups(order + [k], users, groups);
    forall i | 0 <= i < |groups|
      ensures after[i] == next[i]
    {
      var g := groups[i];
      CountGidOfSameGids(before, groups, g.gid);
      PrimaryNamesSnoc(order, k, users, groups, g.gid);
      var p := PrimaryNames(order, users, groups, g.gid);
      var x := if users[k].gid == g.gid && CountGid(groups, g.gid) == 1 then [users[k].username] else [];
      assert before[i] == g.(members := g.members + p);
      AppendedTwice(g, p, x);
    }
  }

  /** Appending two lists of names one after the other appends them joined. */
  lemma AppendedTwice(g: Group, p: seq<string>, x: seq<string>)
    ensures var h := g.(members := g.members + p);
            h.(members := h.members + x) == g.(members := g.members + (p + x))
  {
    assert (g.members + p) + x == g.members + (p + x);
  }

  /** The second phase: every user is visited once, in an order the source
      leaves to its hash map, and linked to its primary group. */
  method LinkPrimaries(users: map<string, User>, groups: seq<Group>)
    returns (users': map<string, User>, groups': seq<Group>, ghost order: seq<string>)
    ensures users'.Keys == users.Keys
    ensures forall k :: k in users ==> users'[k] == PrimaryLinked(users[k], groups)
    ensures IsVisitOrder(order, users)
    ensures groups' == PrimaryGroups(order, users, groups)
  {
    users' := users;
    groups' := groups;
    order := [];
    var remaining := users.Keys;
    PhaseTwoStart(users, groups);
    while remaining != {}
      invariant PhaseTwo(users, groups, order, remaining, users', groups')
      decreases |remaining|
    {
      var k :| k in remaining;
      var before, visited := groups', users';
      users', groups' := VisitPrimary(visited, before, k);
      assert Visited(visited, before, k, users', groups');
      VisitStep(users, groups, order, remaining, k, visited, before, users', groups');
      order := order + [k];
      remaining := remaining - {k};
    }
    PhaseTwoDone(users, groups, order, users', groups');
  }

  /** The state of the second phase: the users under the names of `order`
      are visited and linked, those under `remaining` are untouched, and the
      groups hold the names the visits appended. */
  predicate PhaseTwo(users: map<string, User>, groups: seq<Group>, order: seq<string>, remaining: set<string>,
                     users': map<string, User>, groups': seq<Group>) {
    && PartlyVisited(order, remaining, users)
    && users'.Keys == users.Keys
    && (forall k :: k in remaining ==> users'[k] == users[k])
    && (forall k :: k in users && k !in remaining ==> users'[k] == PrimaryLinked(users[k], groups))
    && groups' == PrimaryGroups(order, users, groups)
  }

  /** What one visit of the user of name `k` does, as `VisitPrimary` states it. */
  predicate Visited(users: map<string, User>, groups: seq<Group>, k: string,
                    users': map<string, User>, groups': seq<Group>) {
    && k in users
    && users'.Keys == users.Keys
    && users'[k] == PrimaryLinked(users[k], groups)
    && (forall k' :: k' in users && k' != k ==> users'[k'] == users[k'])
    && |groups'| == |groups|
    && (forall i :: 0 <= i < |groups| ==>
          groups'[i] == groups[i].(members := groups[i].members
            + (if users[k].gid == groups[i].gid && CountGid(groups, groups[i].gid) == 1 then [users[k].username] else [])))
  }

  /** Before the first visit nothing is visited and the groups are as loaded. */
  lemma PhaseTwoStart(users: map<string, User>, groups: seq<Group>)
    ensures PhaseTwo(users, groups, [], users.Keys, users, groups)
  {
    forall i | 0 <= i < |groups| ensures groups[i].members + [] == groups[i].members {
    }
    assert groups == PrimaryGroups([], users, groups);
  }

  /** With nothing remaining, every user has been visited once. */
  lemma PhaseTwoDone(users: map<string, User>, groups: seq<Group>, order: seq<string>,
                     users': map<string, User>, groups': seq<Group>)
    requires PhaseTwo(users, groups, order, {}, users', groups')
    ensures users'.Keys == users.Keys
    ensures forall k :: k in users ==> users'[k] == PrimaryLinked(users[k], groups)
    ensures IsVisitOrder(order, users)
    ensures groups' == PrimaryGroups(order, users, groups)
  {
  }

  /** The invariant of the second phase survives one visit. */
  lemma VisitStep(users: map<string, User>, groups: seq<Group>, order: seq<string>, remaining: set<string>, k: string,
                  visited: map<string, User>, before: seq<Group>, users': map<string, User>, groups': seq<Group>)
    requires PhaseTwo(users, groups, order, remaining, visited, before) && k in remaining
    requires Visited(visited, before, k, users', groups')
    ensures PhaseTwo(users, groups, order + [k], remaining - {k}, users', groups')
  {
    VisitOneMore(order, remaining, users, k);
    assert visited[k] == users[k];
    CountGidOfSameGids(before, groups, users[k].gid);
    assert users'[k] == PrimaryLinked(users[k], groups);
    PrimaryGroupsStep(order, k, users, groups, before, groups');
  }

  /** `order` lists, once each, the names of the map not in `remaining`. */
  predicate PartlyVisited(order: seq<string>, remaining: set<string>, users: map<string, User>) {
    && remaining <= users.Keys
    && (forall i :: 0 <= i < |order| ==> order[i] in users && order[i] !in remaining)
    && (forall k :: k in users ==> k in order || k in remaining)
    && (forall i, j :: 0 <= i < j < |order| ==> order[i] != order[j])
  }

  /** Visiting a remaining name keeps the visit bookkeeping; with nothing
      remaining, every name has been visited once. */
  lemma VisitOneMore(order: seq<string>, remaining: set<string>, users: map<string, User>, k: string)
    requires PartlyVisited(order, remaining, users) && k in remaining
    ensures PartlyVisited(order + [k], remaining - {k}, users)
    ensures remaining - {k} == {} ==> IsVisitOrder(order + [k], users)
  {
  }

  // ---------------------------------------------------------------------
  // Both phases
  // ---------------------------------------------------------------------

  /** A user after both phases. */
  function Linked(u: User, name: string, groups: seq<Group>): (r: User)
    ensures r.(links := u.links) == u
    ensures |r.links| >= |u.links| && r.links[..|u.links|] == u.links
  {
    PrimaryLinked(u.(links := u.links + MemberLinks(groups, name)), groups)
  }

  /** `groups_to_users`: the users get their member links and then their
      primary links; each group carrying a user's gid alone lists that user
      once more at the end, in the order the users were visited. */
  method GroupsToUsers(users: map<string, User>, groups: seq<Group>)
    returns (users': map<string, User>, groups': seq<Group>, ghost order: seq<string>)
    ensures users'.Keys == users.Keys
    ensures forall k :: k in users ==> users'[k] == Linked(users[k], k, groups)
    ensures IsVisitOrder(order, users)
    ensures groups' == PrimaryGroups(order, users, groups)
  {
    var members := LinkMembers(users, groups);
    users', groups', order := LinkPrimaries(members, groups);
    forall i | 0 <= i < |groups|
      ensures PrimaryNames(order, members, groups, groups[i].gid) == PrimaryNames(order, users, groups, groups[i].gid)
    {
      PrimaryNamesOfSameUsers(order, members, users, groups, groups[i].gid);
    }
  }

  /** The links of a user after both phases: the `Member` links are exactly
      the groups listing its name, and a `Primary` link is added exactly for
      a gid that one group alone carries. */
  lemma LinkedLinks(u: User, name: string, groups: seq<Group>, l: Link)
    requires forall i :: 0 <= i < |u.links| ==> u.links[i].kind != Primary
    ensures l.kind == Member ==>
              (l in Linked(u, name, groups).links <==>
               l in u.links || exists i :: 0 <= i < |groups| && groups[i].gid == l.gid && name in groups[i].members)
    ensures l.kind == Primary ==>
              (l in Linked(u, name, groups).links <==> l.gid == u.gid && CountGid(groups, u.gid) == 1)
  {
    MemberLinksIff(groups, name, l);
    var v := u.(links := u.links + MemberLinks(groups, name));
    assert forall i :: 0 <= i < |v.links| ==> v.links[i].kind != Primary;
  }

  /** The linking of the source's two-group example: the user `test` with gid
      1002, the group `teste` with gid 1002 and no members and the group
      `another` with gid 1003 listing `test`. The user gets the `Member` link
      to 1003 first and then the `Primary` link to 1002, and both groups end
      up listing `test`. */
  lemma TwoGroupExample(u: User, order: seq<string>, teste: Group, another: Group)
    requires u.username == "test" && u.gid == 1002 && u.links == []
    requires teste.gid == 1002 && teste.members == [] && another.gid == 1003 && another.members == ["test"]
    requires order == ["test"]
    ensures Linked(u, "test", [teste, another]).links == [Link(Member, 1003), Link(Primary, 1002)]
    ensures PrimaryGroups(order, map["test" := u], [teste, another])
            == [teste.(members := ["test"]), another.(members := ["test"])]
  {
    var groups := [teste, another];
    assert groups[..1] == [teste];
    assert [teste][..0] == [];
    assert ["test"][..0] == [];
    assert ListingLinks([], "test", 1002) == [];
    assert MemberLinks([teste], "test") == [];
    assert ListingLinks(["test"], "test", 1003) == [Link(Member, 1003)];
    assert MemberLinks(groups, "test") == [Link(Member, 1003)];
    assert CountGid(groups, 1002) == 1;
    assert CountGid(groups, 1003) == 1;
    assert order[..0] == [];
    var m := map["test" := u];
    assert PrimaryNames(order, m, groups, 1002) == ["test"];
    assert PrimaryNames(order, m, groups, 1003) == [];
    var r := PrimaryGroups(order, m, groups);
    assert r[0] == teste.(members := ["test"]);
    assert r[1] == another.(members := ["test"]);
  }
}

=== FILE: loading.dfy ===
/**
 * Building the in-memory database from the texts of the three account files:
 * parsing them line by line, keying the users by name, moving the shadow
 * entries into the users' passwords and linking users and groups.
 */
module Loading {
  import opened Options
  import opened Errors
  import opened Text
  import opened Decimal
  import opened UserRecord
  import opened GroupRecord
  import SF = ShadowFields

  // ---------------------------------------------------------------------
  // Line-by-line parsing
  // ---------------------------------------------------------------------

  /** A line `string_to` parses: longer than five bytes. */
  predicate IsKept(line: string) {
    Utf8Len(line) > 5
  }

  /** The positions, from `from` on, of the lines that are parsed, in order. */
  function KeptPositions(lines: seq<string>, from: nat): (r: seq<nat>)
    requires from <= |lines|
    ensures forall j :: 0 <= j < |r| ==> from <= r[j] < |lines| && IsKept(lines[r[j]])
    ensures forall i :: from <= i < |lines| && IsKept(lines[i]) ==> i in r
    ensures forall j, k :: 0 <= j < k < |r| ==> r[j] < r[k]
    decreases |lines| - from
  {
    if from == |lines| then []
    else if IsKept(lines[from]) then [from] + KeptPositions(lines, from + 1)
    else KeptPositions(lines, from + 1)
  }

  /** What the conversion of a line index to `u32` panics with. */
  const POSITION_OVERFLOW := "Failed to convert usize to u32 out of range integral type conversion attempted"

  /** Every kept line from `from` on has a `u32` index and parses. */
  predicate AllKeptParse<T>(lines: seq<string>, from: nat, parse: (string, U32) -> Result<T>) {
    forall i :: from <= i < |lines| && IsKept(lines[i]) ==> i < U32_LIMIT && parse(lines[i], i).Ok?
  }

  /** Parses the kept lines from `from` on, each with its index among all
      lines as its position; the first failure ends the load. */
  function ParseFrom<T>(lines: seq<string>, from: nat, parse: (string, U32) -> Result<T>): (r: Result<seq<T>>)
    requires from <= |lines|
    ensures r.Ok? ==> |r.value| == |KeptPositions(lines, from)|
    ensures r.Ok? ==> forall j :: 0 <= j < |r.value| ==>
                         var i := KeptPositions(lines, from)[j];
                         i < U32_LIMIT && parse(lines[i], i) == Ok(r.value[j])
    ensures r.Ok? <==> AllKeptParse(lines, from, parse)
    decreases |lines| - from
  {
    if from == |lines| then Ok([])
    else
      AllKeptParseStep(lines, from, parse);
      if IsKept(lines[from]) then
        if from >= U32_LIMIT then Err(FromText(POSITION_OVERFLOW))
        else
          match parse(lines[from], from)
          case Err(e) => Err(e)
          case Ok(x) =>
            match ParseFrom(lines, from + 1, parse)
            case Err(e) => Err(e)
            case Ok(rest) =>
              ParsedCons(lines, from, parse, x, rest);
              Ok([x] + rest)
      else ParseFrom(lines, from + 1, parse)
  }

  /** Every kept line from `from` on parses when the line at `from` does (or
      is skipped) and every kept line after it parses. */
  lemma AllKeptParseStep<T>(lines: seq<string>, from: nat, parse: (string, U32) -> Result<T>)
    requires from < |lines|
    ensures AllKeptParse(lines, from, parse)
        <==> (IsKept(lines[from]) ==> from < U32_LIMIT && parse(lines[from], from).Ok?)
             && AllKeptParse(lines, from + 1, parse)
  {
  }

  /** The records of the lines after a kept line, preceded by that line's
      record, are the records of the kept lines from that line on. */
  lemma ParsedCons<T>(lines: seq<string>, from: nat, parse: (string, U32) -> Result<T>, x: T, rest: seq<T>)
    requires from < |lines| && from < U32_LIMIT && IsKept(lines[from])
    requires parse(lines[from], from) == Ok(x)
    requires |rest| == |KeptPositions(lines, from + 1)|
    requires forall j :: 0 <= j < |rest| ==>
               var i := KeptPositions(lines, from + 1)[j];
               i < U32_LIMIT && parse(lines[i], i) == Ok(rest[j])
    ensures |[x] + rest| == |KeptPositions(lines, from)|
    ensures forall j :: 0 <= j < |[x] + rest| ==>
              var i := KeptPositions(lines, from)[j];
              i < U32_LIMIT && parse(lines[i], i) == Ok(([x] + rest)[j])
  {
    var k := KeptPositions(lines, from);
    assert k == [from] + KeptPositions(lines, from + 1);
    forall j | 0 <= j < |[x] + rest|
      ensures k[j] < U32_LIMIT && parse(lines[k[j]], k[j]) == Ok(([x] + rest)[j])
    {
      if j > 0 {
        assert k[j] == KeptPositions(lines, from + 1)[j - 1];
        assert ([x] + rest)[j] == rest[j - 1];
      }
    }
  }

  /** `string_to`: the records of the lines of a text longer than five
      bytes, in order, positioned by their line index; a line that does not
      parse makes the whole load fail. */
  function StringTo<T>(source: string, parse: (string, U32) -> Result<T>): (r: Result<seq<T>>)
    ensures r.Ok? ==> |r.value| == |KeptPositions(Lines(source), 0)|
    ensures r.Ok? ==> forall j :: 0 <= j < |r.value| ==>
                         var i := KeptPositions(Lines(source), 0)[j];
                         i < U32_LIMIT && parse(Lines(source)[i], i) == Ok(r.value[j])
    ensures r.Ok? <==> AllKeptParse(Lines(source), 0, parse)
  {
    ParseFrom(Lines(source), 0, parse)
  }

  /** A text whose lines are all at most five bytes long loads no record. */
  lemma ShortLinesAreSkipped<T>(source: string, parse: (string, U32) -> Result<T>)
    requires forall i :: 0 <= i < |Lines(source)| ==> !IsKept(Lines(source)[i])
    ensures StringTo(source, parse) == Ok([])
  {
    NoKeptPositions(Lines(source), 0);
  }

  /** Without a kept line there is no kept position. */
  lemma {:induction false} NoKeptPositions(lines: seq<string>, from: nat)
    requires from <= |lines|
    requires forall i :: from <= i < |lines| ==> !IsKept(lines[i])
    ensures KeptPositions(lines, from) == []
    decreases |lines| - from
  {
    if from < |lines| {
      NoKeptPositions(lines, from + 1);
    }
  }

  // ---------------------------------------------------------------------
  // Keying users by name
  // ---------------------------------------------------------------------

  /** The index of the last occurrence of a key, or -1 when there is none:
      the record a `HashMap` keeps when the keys are inserted in order. */
  function LastIndexOf(keys: seq<string>, name: string): (r: int)
    ensures -1 <= r < |keys|
    ensures r == -1 <==> forall i :: 0 <= i < |keys| ==> keys[i] != name
    ensures r >= 0 ==> keys[r] == name
    ensures forall j :: r < j < |keys| ==> keys[j] != name
    decreases |keys|
  {
    if |keys| == 0 then -1
    else if keys[|keys| - 1] == name then |keys| - 1
    else LastIndexOf(keys[..|keys| - 1], name)
  }

  /** The usernames of a list of users, in order. */
  function UserNames(users: seq<User>): seq<string> {
    seq(|users|, i requires 0 <= i < |users| => users[i].username)
  }

  /** The index of the last user with a given name, or -1. */
  function LastUserIndex(users: seq<User>, name: string): int {
    LastIndexOf(UserNames(users), name)
  }

  /** The last user with a name is the final user, or else the last one
      with that name among the users before it. */
  lemma LastUserIndexFront(users: seq<User>)
    requires |users| > 0
    ensures forall k :: LastUserIndex(users, k) ==
              if users[|users| - 1].username == k then |users| - 1 else LastUserIndex(users[..|users| - 1], k)
  {
    assert UserNames(users)[..|users| - 1] == UserNames(users[..|users| - 1]);
  }

  /** `user_vec_to_hashmap`: each user under its name; of several users with
      the same name the last one is kept. */
  function UserVecToHashmap(users: seq<User>): (r: map<string, User>)
    ensures forall k :: k in r <==> LastUserIndex(users, k) >= 0
    ensures forall k :: k in r ==> r[k] == users[LastUserIndex(users, k)]
    decreases |users|
  {
    if |users| == 0 then map[]
    else
      var last := users[|users| - 1];
      LastUserIndexFront(users);
      UserVecToHashmap(users[..|users| - 1])[last.username := last]
  }

  /** In a list of distinct keys, the last occurrence of a key is its only one. */
  lemma LastIndexOfDistinct(keys: seq<string>, i: int)
    requires forall a, b :: 0 <= a < b < |keys| ==> keys[a] != keys[b]
    requires 0 <= i < |keys|
    ensures LastIndexOf(keys, keys[i]) == i
  {
    var r := LastIndexOf(keys, keys[i]);
    assert r >= i;
  }

  /** The map's keys are exactly the names of the users. */
  lemma HashmapKeysAreNames(users: seq<User>)
    ensures UserVecToHashmap(users).Keys == set i | 0 <= i < |users| :: users[i].username
  {
    var keys := UserNames(users);
    var m := UserVecToHashmap(users);
    forall k | k in m
      ensures k in set i | 0 <= i < |users| :: users[i].username
    {
      var r := LastUserIndex(users, k);
      assert keys[r] == users[r].username;
    }
    forall i | 0 <= i < |users|
      ensures users[i].username in m
    {
      assert keys[i] == users[i].username;
    }
  }

  /** Every user is kept under its name, exactly when no later user has the
      same name. */
  lemma DistinctNamesAllKept(users: seq<User>)
    requires forall i, j :: 0 <= i < j < |users| ==> users[i].username != users[j].username
    ensures forall i :: 0 <= i < |users| ==>
              users[i].username in UserVecToHashmap(users) && UserVecToHashmap(users)[users[i].username] == users[i]
    ensures UserVecToHashmap(users).Keys == set i | 0 <= i < |users| :: users[i].username
  {
    var keys := UserNames(users);
    assert forall a, b :: 0 <= a < b < |keys| ==> keys[a] != keys[b] by {
      forall a, b | 0 <= a < b < |keys|
        ensures keys[a] != keys[b]
      {
        assert keys[a] == users[a].username && keys[b] == users[b].username;
      }
    }
    forall i | 0 <= i < |users|
      ensures users[i].username in UserVecToHashmap(users) && UserVecToHashmap(users)[users[i].username] == users[i]
    {
      LastIndexOfDistinct(keys, i);
      assert keys[i] == users[i].username;
    }
    HashmapKeysAreNames(users);
  }

  // ---------------------------------------------------------------------
  // Shadow entries
  // ---------------------------------------------------------------------

  /** The usernames of a list of shadow entries, in order. */
  function EntryNames(entries: seq<SF.Shadow>): seq<string> {
    seq(|entries|, i requires 0 <= i < |entries| => entries[i].username)
  }

  /** The last shadow entry for a name, if any. */
  function LastEntryFor(entries: seq<SF.Shadow>, name: string): Option<SF.Shadow> {
    var i := LastIndexOf(EntryNames(entries), name);
    if i < 0 then None else Some(entries[i])
  }

  /** A user whose password becomes the given shadow entry, if any. */
  function WithShadow(u: User, e: Option<SF.Shadow>): User {
    match e
    case None => u
    case Some(entry) => u.(password := Shadow(entry))
  }

  /** The index of the first entry whose name has no user, or the number of
      entries when every name has one. */
  function FirstUnknown(users: map<string, User>, entries: seq<SF.Shadow>): (r: nat)
    ensures r <= |entries|
    ensures forall i :: 0 <= i < r ==> entries[i].username in users
    ensures r < |entries| ==> entries[r].username !in users
    decreases |entries|
  {
    if |entries| == 0 || entries[0].username !in users then 0
    else 1 + FirstUnknown(users, entries[1..])
  }

  /** `shadow_to_users`: each entry becomes the password of the user of its
      name, in order, so the last entry for a name wins; an entry for a name
      with no user is an error naming the first such entry. */
  function ShadowToUsers(users: map<string, User>, entries: seq<SF.Shadow>): (r: Result<map<string, User>>)
    ensures r.Ok? <==> FirstUnknown(users, entries) == |entries|
    ensures r.Err? ==> FirstUnknown(users, entries) < |entries|
                       && r.error == FromText("the user " + entries[FirstUnknown(users, entries)].username
                                              + " does not exist")
    ensures r.Ok? ==> r.value.Keys == users.Keys
    ensures r.Ok? ==> forall k :: k in users ==> r.value[k] == WithShadow(users[k], LastEntryFor(entries, k))
    decreases |entries|
  {
    if |entries| == 0 then Ok(users)
    else
      var e := entries[0];
      if e.username !in users then Err(FromText("the user " + e.username + " does not exist"))
      else
        var users' := users[e.username := users[e.username].(password := Shadow(e))];
        var r := ShadowToUsers(users', entries[1..]);
        ShadowToUsersStep(users, entries, r);
        r
  }

  /** One entry of `shadow_to_users`: the outcome for the remaining entries,
      over the users with the first entry applied, is the outcome for all. */
  lemma ShadowToUsersStep(users: map<string, User>, entries: seq<SF.Shadow>, r: Result<map<string, User>>)
    requires |entries| > 0 && entries[0].username in users
    requires var users' := users[entries[0].username := users[entries[0].username].(password := Shadow(entries[0]))];
             && (r.Ok? <==> FirstUnknown(users', entries[1..]) == |entries| - 1)
             && (r.Err? ==> FirstUnknown(users', entries[1..]) < |entries| - 1
                            && r.error == FromText("the user " + entries[1..][FirstUnknown(users', entries[1..])].username
                                                   + " does not exist"))
             && (r.Ok? ==> r.value.Keys == users'.Keys)
             && (r.Ok? ==> forall k :: k in users' ==> r.value[k] == WithShadow(users'[k], LastEntryFor(entries[1..], k)))
    ensures r.Ok? <==> FirstUnknown(users, entries) == |entries|
    ensures r.Err? ==> FirstUnknown(users, entries) < |entries|
                       && r.error == FromText("the user " + entries[FirstUnknown(users, entries)].username
                                              + " does not exist")
    ensures r.Ok? ==> r.value.Keys == users.Keys
    ensures r.Ok? ==> forall k :: k in users ==> r.value[k] == WithShadow(users[k], LastEntryFor(entries, k))
  {
    var e := entries[0];
    var users' := users[e.username := users[e.username].(password := Shadow(e))];
    SameKeysSameUnknown(users, users', entries[1..]);
    if r.Ok? {
      forall k | k in users
        ensures r.value[k] == WithShadow(users[k], LastEntryFor(entries, k))
      {
        LastEntryTail(entries, k);
      }
    }
  }

  /** Only the names of the users matter to `FirstUnknown`. */
  lemma {:induction false} SameKeysSameUnknown(a: map<string, User>, b: map<string, User>, entries: seq<SF.Shadow>)
    requires a.Keys == b.Keys
    ensures FirstUnknown(a, entries) == FirstUnknown(b, entries)
    decreases |entries|
  {
    if |entries| > 0 {
      SameKeysSameUnknown(a, b, entries[1..]);
    }
  }

  /** The last entry for a name among all entries is the last one among the
      entries after the first, or else the first entry itself. */
  lemma {:induction false} LastEntryTail(entries: seq<SF.Shadow>, k: string)
    requires |entries| > 0
    ensures LastEntryFor(entries, k) ==
              if LastEntryFor(entries[1..], k).Some? then LastEntryFor(entries[1..], k)
              else if entries[0].username == k then Some(entries[0])
              else None
    decreases |entries|
  {
    var n := |entries|;
    assert EntryNames(entries)[..n - 1] == EntryNames(entries[..n - 1]);
    if n > 1 {
      assert EntryNames(entries[1..])[..n - 2] == EntryNames(entries[1..][..n - 2]);
    }
    if n > 1 && entries[n - 1].username != k {
      assert entries[..n - 1][1..] == entries[1..][..n - 2];
      LastEntryTail(entries[..|entries| - 1], k);
    }
  }
}

=== FILE: options.dfy ===
/** Optional values, used wherever the Rust code returns an `Option`. */
module Options {

  datatype Option<+T> = None | Some(value: T) {

    /** The value, or `default` when there is none. */
    function GetOr(default: T): T {
      match this
      case Some(v) => v
      case None => default
    }
  }
}

=== FILE: passwd_fields.dfy ===
/**
 * Field types of a passwd record: the username rule, the encrypted password,
 * the numeric user and group ids, the home directory and the shell.
 */
module PasswdFields {
  import opened Errors
  import opened Decimal

  // ---------------------------------------------------------------------
  // Username
  // ---------------------------------------------------------------------

  /** `[a-z_]`: a character that may start a username. */
  predicate IsNameHead(c: char) {
    ('a' <= c <= 'z') || c == '_'
  }

  /** `[a-z0-9_-]`: a character that may follow the first one. */
  predicate IsNameChar(c: char) {
    ('a' <= c <= 'z') || ('0' <= c <= '9') || c == '_' || c == '-'
  }

  /** The username pattern `^[a-z_]([a-z0-9_-]{0,31}|[a-z0-9_-]{0,30}\$)$`:
      a head character, then up to 31 name characters, or up to 30 name
      characters and a final `$`. */
  predicate IsUsernameValid(name: string) {
    && |name| >= 1
    && IsNameHead(name[0])
    && (|| (|name| <= 32 && forall i :: 1 <= i < |name| ==> IsNameChar(name[i]))
        || (2 <= |name| <= 32 && name[|name| - 1] == '$'
            && forall i :: 1 <= i < |name| - 1 ==> IsNameChar(name[i])))
  }

  /** The only name accepted although it breaks the pattern. */
  const DEBIAN_EXIM := "Debian-exim"

  /** Runs the username pattern over `name` the way a regex engine scans it:
      one head character, the longest run of name characters, then either the
      end of the text or a `$` that ends it, with the run length bounded. */
  method MatchUsernamePattern(name: string) returns (matched: bool)
    ensures matched <==> IsUsernameValid(name)
  {
    if |name| == 0 || !IsNameHead(name[0]) {
      return false;
    }
    var i := 1;
    while i < |name| && IsNameChar(name[i])
      invariant 1 <= i <= |name|
      invariant forall k :: 1 <= k < i ==> IsNameChar(name[k])
      decreases |name| - i
    {
      i := i + 1;
    }
    if i == |name| {
      matched := i - 1 <= 31;
    } else {
      matched := i == |name| - 1 && name[i] == '$' && i - 1 <= 30;
      assert !IsNameChar(name[i]);
    }
  }

  /** `Username::try_from`: a name that matches the pattern, or exactly
      `Debian-exim`; anything else is rejected with a message naming it. */
  function UsernameTryFrom(s: string): (r: Result<string>)
    ensures r.Ok? <==> IsUsernameValid(s) || s == DEBIAN_EXIM
    ensures r.Ok? ==> r.value == s
    ensures r.Err? ==> r.error == FromText("Invalid username " + s)
  {
    if IsUsernameValid(s) then Ok(s)
    else if s == DEBIAN_EXIM then Ok(s)
    else Err(FromText("Invalid username " + s))
  }

  /** A name accepted by `Username::try_from`: it never holds a field or line
      separator of the account files. */
  predicate IsAcceptedUsername(s: string) {
    IsUsernameValid(s) || s == DEBIAN_EXIM
  }

  /** A valid name is 1 to 32 characters long, and `$` can only end it. */
  lemma ValidUsernameShape(name: string)
    requires IsUsernameValid(name)
    ensures 1 <= |name| <= 32
    ensures forall i :: 0 <= i < |name| - 1 ==> name[i] != '$'
  {
  }

  /** Accepted names hold neither `:`, `,` nor a line break. */
  lemma AcceptedUsernameHasNoSeparator(name: string)
    requires IsAcceptedUsername(name)
    ensures ':' !in name && ',' !in name && '\n' !in name && |name| > 0
  {
    if !IsUsernameValid(name) {
      assert name == "Debian-exim";
    }
  }

  /** The names the library's tests reject: an umlaut, a leading digit, a
      slash, and 33 characters. */
  lemma RejectedUsernameExamples()
    ensures UsernameTryFrom("täst") == Err(FromText("Invalid username täst"))
    ensures UsernameTryFrom("11elf").Err?
    ensures UsernameTryFrom("test/name").Err?
    ensures UsernameTryFrom("aaaaaaaaaaaaaaaaaaaaaaaaaaaaaaaaa").Err?
  {
    assert !IsNameChar("täst"[1]) && "täst"[3] != '$';
    assert !IsNameHead("11elf"[0]);
    assert !IsNameChar("test/name"[4]) && "test/name"[8] != '$';
    assert |"aaaaaaaaaaaaaaaaaaaaaaaaaaaaaaaaa"| == 33;
  }

  /** The names the library's tests accept. */
  lemma AcceptedUsernameExamples()
    ensures UsernameTryFrom(DEBIAN_EXIM) == Ok("Debian-exim")
    ensures UsernameTryFrom("t") == Ok("t")
    ensures UsernameTryFrom("superman") == Ok("superman")
    ensures UsernameTryFrom("anna3pete") == Ok("anna3pete")
    ensures UsernameTryFrom("enya$") == Ok("enya$")
  {
    assert IsUsernameValid("superman");
    assert IsUsernameValid("anna3pete");
    assert IsUsernameValid("enya$") by {
      assert "enya$"[4] == '$';
    }
  }

  // ---------------------------------------------------------------------
  // Encrypted password, home directory, shell
  // ---------------------------------------------------------------------

  /** `EncryptedPassword::try_from`, `HomeDir::try_from` and
      `ShellPath::try_from`: they only log, never fail, and keep the text. */
  function VerbatimTryFrom(s: string): (r: Result<string>)
    ensures r == Ok(s)
  {
    Ok(s)
  }

  // ---------------------------------------------------------------------
  // Uid and Gid
  // ---------------------------------------------------------------------

  /** `Uid::try_from` and `Gid::try_from`: `parse::<u32>`; the source unwraps
      the parse, so text that is not a `u32` is a parse failure here. */
  function ParseId(s: string): (r: Result<U32>)
    ensures r.Err? <==> ParseUnsigned(s, U32_LIMIT).None?
    ensures r.Err? ==> r.error == ParseError
  {
    match ParseUnsigned(s, U32_LIMIT)
    case None => Err(ParseError)
    case Some(v) => Ok(v)
  }

  /** `Display` of a `Uid` or `Gid`. */
  function IdToString(id: U32): string {
    NatToString(id)
  }

  /** Parsing the display of an id gives the id back. */
  lemma ParseIdOfDisplay(id: U32)
    ensures ParseId(IdToString(id)) == Ok(id)
  {
    ParseUnsignedOfDisplay(id, U32_LIMIT);
  }

  /** On canonical decimal text, displaying the parsed id reproduces the text. */
  lemma IdDisplayOfParse(s: string)
    requires IsCanonicalNat(s) && ParseId(s).Ok?
    ensures IdToString(ParseId(s).value) == s
  {
    DisplayOfParseUnsigned(s, U32_LIMIT);
  }

  /** `is_system_uid` / `is_system_gid`. */
  predicate IsSystemId(id: U32) {
    id < 1000
  }

  /** The system-id examples of the library's tests: 999 and 0 are system ids,
      1000 is not. */
  lemma SystemIdExamples()
    ensures ParseId("999").Ok? && IsSystemId(ParseId("999").value)
    ensures ParseId("0").Ok? && IsSystemId(ParseId("0").value)
    ensures ParseId("1000").Ok? && !IsSystemId(ParseId("1000").value)
  {
    ParsesAs999();
    ParsesAs0();
    ParsesAs1000();
  }

  lemma ParsesAs999()
    ensures ParseId("999") == Ok(999)
  {
    assert DigitsValue("999") == 999 by {
      assert "999"[..2] == "99" && "99"[..1] == "9" && "9"[..0] == "";
    }
  }

  lemma ParsesAs0()
    ensures ParseId("0") == Ok(0)
  {
    assert DigitsValue("0") == 0 by {
      assert "0"[..0] == "";
    }
  }

  lemma ParsesAs1000()
    ensures ParseId("1000") == Ok(1000)
  {
    assert DigitsValue("1000") == 1000 by {
      assert "1000"[..3] == "100" && "100"[..2] == "10";
      assert "10"[..1] == "1" && "1"[..0] == "";
    }
  }
}

=== FILE: shadow_fields.dfy ===
/**
 * A record (line) of the shadow file: nine colon-separated fields holding the
 * username, the hashed password, three dates and three durations counted in
 * days, and a numeric reserved field.
 *
 * Dates are kept as the second count the source stores (`days * 86400`) and
 * shown as that count divided by 86400; durations are kept as day counts.
 */
module ShadowFields {
  import opened Options
  import opened Errors
  import opened Text
  import opened Decimal
  import opened PasswdFields

  const SECONDS_PER_DAY: int := 86400

  datatype Shadow = Shadow(
    pos: U32,
    source: string,
    username: string,
    password: string,
    lastChange: Option<int>,
    earliestChange: Option<int>,
    latestChange: Option<int>,
    warnPeriod: Option<int>,
    deactivated: Option<int>,
    deactivatedSince: Option<int>,
    extensions: Option<nat>)

  /** Rust's `/` on `i64`, which truncates toward zero: the quotient has
      the sign of the dividend, and the product `q * b` lies on the zero
      side of `a`, less than one divisor away. */
  function TruncDiv(a: int, b: int): (q: int)
    requires b > 0
    ensures a >= 0 ==> 0 <= q && q * b <= a < q * b + b
    ensures a < 0 ==> q <= 0 && q * b - b < a <= q * b
  {
    if a >= 0 then a / b else -((-a) / b)
  }

  /** Dividing a whole number of days' seconds gives the day count back,
      whatever its sign. */
  lemma DaysOfSeconds(days: int)
    ensures TruncDiv(days * SECONDS_PER_DAY, SECONDS_PER_DAY) == days
  {
  }

  /** `date_since_epoch`: an empty field is no date; otherwise the `i64` day
      count becomes the second count `days * 86400`. A field that is not an
      `i64` fails where the source unwraps, and a product outside `i64`
      fails where the source's multiplication overflows. */
  function DateSinceEpoch(field: string): (r: Result<Option<int>>)
    ensures field == "" <==> r == Ok(None)
    ensures field != "" && ParseI64(field).None? ==> r == Err(ParseError)
    ensures r.Ok? && r.value.Some? ==> I64_MIN <= r.value.value <= I64_MAX
    ensures r.Ok? && r.value.Some? ==> r.value.value == ParseI64(field).value * SECONDS_PER_DAY
  {
    if field == "" then Ok(None)
    else match ParseI64(field)
      case None => Err(ParseError)
      case Some(days) =>
        var seconds := days * SECONDS_PER_DAY;
        if I64_MIN <= seconds <= I64_MAX then Ok(Some(seconds))
        else Err(FromText("attempt to multiply with overflow"))
  }

  /** `duration_for_days`: an empty field is no duration; otherwise the `i64`
      day count. */
  function DurationForDays(field: string): (r: Result<Option<int>>)
    ensures field == "" <==> r == Ok(None)
    ensures field != "" ==> (r.Ok? <==> ParseI64(field).Some?)
    ensures r.Ok? && r.value.Some? ==> r.value == ParseI64(field)
  {
    if field == "" then Ok(None)
    else match ParseI64(field)
      case None => Err(ParseError)
      case Some(days) => Ok(Some(days))
  }

  /** The reserved field: empty, or a `u64`. */
  function ParseExtensions(field: string): (r: Result<Option<nat>>)
    ensures field == "" <==> r == Ok(None)
    ensures field != "" ==> (r.Ok? <==> ParseUnsigned(field, U64_LIMIT).Some?)
    ensures r.Ok? && r.value.Some? ==> r.value.value < U64_LIMIT
  {
    if field == "" then Ok(None)
    else match ParseUnsigned(field, U64_LIMIT)
      case None => Err(ParseError)
      case Some(v) => Ok(Some(v))
  }

  /** `show_option_date`: empty, or the stored seconds divided by 86400. */
  function ShowOptionDate(date: Option<int>): string {
    match date
    case None => ""
    case Some(seconds) => IntToString(TruncDiv(seconds, SECONDS_PER_DAY))
  }

  /** `show_option_duration`: empty, or the day count. */
  function ShowOptionDuration(duration: Option<int>): string {
    match duration
    case None => ""
    case Some(days) => IntToString(days)
  }

  function ShowExtensions(extensions: Option<nat>): string {
    match extensions
    case None => ""
    case Some(v) => NatToString(v)
  }

  /** The nine fields `Display` writes, in order. */
  function Fields(s: Shadow): seq<string> {
    [s.username, s.password,
     ShowOptionDate(s.lastChange), ShowOptionDate(s.earliestChange), ShowOptionDate(s.latestChange),
     ShowOptionDuration(s.warnPeriod), ShowOptionDuration(s.deactivated),
     ShowOptionDuration(s.deactivatedSince), ShowExtensions(s.extensions)]
  }

  /** `Display`: the nine fields separated by colons. */
  function ShadowToString(s: Shadow): string {
    Join(Fields(s), ':')
  }

  /** Splitting the display at colons gives the fields back, provided no
      field holds a colon. */
  lemma SplitShadowDisplay(s: Shadow)
    requires forall i :: 0 <= i < 9 ==> ':' !in Fields(s)[i]
    ensures Split(ShadowToString(s), ':') == Fields(s)
  {
    SplitJoin(Fields(s), ':');
  }

  /** `Shadow::new_from_string`: exactly nine colon-separated fields, the
      first an accepted username, the password kept verbatim, the dates,
      durations and reserved field parsed in order; the first failure wins. */
  function ShadowFromString(line: string, pos: U32): (r: Result<Shadow>)
    ensures |Split(line, ':')| != 9 ==> r.Err? && r.error.Message?
    ensures r.Ok? ==> |Split(line, ':')| == 9
    ensures r.Ok? ==> r.value.source == line && r.value.pos == pos
    ensures r.Ok? ==> r.value.username == Split(line, ':')[0] && IsAcceptedUsername(r.value.username)
    ensures r.Ok? ==> r.value.password == Split(line, ':')[1]
  {
    var els := Split(line, ':');
    if |els| == 9 then
      var username :- UsernameTryFrom(els[0]);
      var password := VerbatimTryFrom(els[1]).value;
      var lastChange :- DateSinceEpoch(els[2]);
      var earliestChange :- DateSinceEpoch(els[3]);
      var latestChange :- DateSinceEpoch(els[4]);
      var warnPeriod :- DurationForDays(els[5]);
      var deactivated :- DurationForDays(els[6]);
      var deactivatedSince :- DurationForDays(els[7]);
      var extensions :- ParseExtensions(els[8]);
      Ok(Shadow(pos, line, username, password, lastChange, earliestChange, latestChange,
                warnPeriod, deactivated, deactivatedSince, extensions))
    else
      Err(FromText("Failed to parse: not enough elements (" + NatToString(|els|) + "): "
                   + DebugList(els)))
  }

  /** A numeric field as `Display` would print it: empty, or canonical. */
  predicate IsCanonicalIntField(field: string) {
    field == "" || IsCanonicalInt(field)
  }

  /** A shadow line whose numeric fields are written the way `Display`
      writes them. */
  predicate IsCanonicalLine(line: string) {
    var els := Split(line, ':');
    && |els| == 9
    && (forall i :: 2 <= i < 8 ==> IsCanonicalIntField(els[i]))
    && (els[8] == "" || IsCanonicalNat(els[8]))
  }

  /** A date field shows back as the text it was parsed from. */
  lemma DateRoundTrip(field: string)
    requires IsCanonicalIntField(field) && DateSinceEpoch(field).Ok?
    ensures ShowOptionDate(DateSinceEpoch(field).value) == field
  {
    if field != "" {
      var days := ParseI64(field).value;
      DaysOfSeconds(days);
      DisplayOfParseI64(field);
    }
  }

  /** A duration field shows back as the text it was parsed from. */
  lemma DurationRoundTrip(field: string)
    requires IsCanonicalIntField(field) && DurationForDays(field).Ok?
    ensures ShowOptionDuration(DurationForDays(field).value) == field
  {
    if field != "" {
      DisplayOfParseI64(field);
    }
  }

  /** The reserved field shows back as the text it was parsed from. */
  lemma ExtensionsRoundTrip(field: string)
    requires (field == "" || IsCanonicalNat(field)) && ParseExtensions(field).Ok?
    ensures ShowExtensions(ParseExtensions(field).value) == field
  {
    if field != "" {
      DisplayOfParseUnsigned(field, U64_LIMIT);
    }
  }

  /** Every field of a parsed record shows back as the field it came from. */
  lemma FieldsOfParsed(line: string, pos: U32)
    requires IsCanonicalLine(line) && ShadowFromString(line, pos).Ok?
    ensures Fields(ShadowFromString(line, pos).value) == Split(line, ':')
  {
    ParsedComponents(line, pos);
    FieldsOfComponents(ShadowFromString(line, pos).value, Split(line, ':'));
  }

  /** What each component of a parsed record was parsed from. */
  lemma ParsedComponents(line: string, pos: U32)
    requires ShadowFromString(line, pos).Ok?
    ensures var s := ShadowFromString(line, pos).value; var els := Split(line, ':');
            && |els| == 9 && s.username == els[0] && s.password == els[1]
            && DateSinceEpoch(els[2]) == Ok(s.lastChange)
            && DateSinceEpoch(els[3]) == Ok(s.earliestChange)
            && DateSinceEpoch(els[4]) == Ok(s.latestChange)
            && DurationForDays(els[5]) == Ok(s.warnPeriod)
            && DurationForDays(els[6]) == Ok(s.deactivated)
            && DurationForDays(els[7]) == Ok(s.deactivatedSince)
            && ParseExtensions(els[8]) == Ok(s.extensions)
  {
  }

  /** A record whose components were parsed from canonical fields shows
      those fields back. */
  lemma FieldsOfComponents(s: Shadow, els: seq<string>)
    requires |els| == 9 && s.username == els[0] && s.password == els[1]
    requires forall i :: 2 <= i < 8 ==> IsCanonicalIntField(els[i])
    requires els[8] == "" || IsCanonicalNat(els[8])
    requires DateSinceEpoch(els[2]) == Ok(s.lastChange)
    requires DateSinceEpoch(els[3]) == Ok(s.earliestChange)
    requires DateSinceEpoch(els[4]) == Ok(s.latestChange)
    requires DurationForDays(els[5]) == Ok(s.warnPeriod)
    requires DurationForDays(els[6]) == Ok(s.deactivated)
    requires DurationForDays(els[7]) == Ok(s.deactivatedSince)
    requires ParseExtensions(els[8]) == Ok(s.extensions)
    ensures Fields(s) == els
  {
    DateRoundTrip(els[2]);
    DateRoundTrip(els[3]);
    DateRoundTrip(els[4]);
    DurationRoundTrip(els[5]);
    DurationRoundTrip(els[6]);
    DurationRoundTrip(els[7]);
    ExtensionsRoundTrip(els[8]);
  }

  /** Round trip: displaying a record parsed from a canonical line gives the
      line back. */
  lemma ShadowRoundTrip(line: string, pos: U32)
    requires IsCanonicalLine(line) && ShadowFromString(line, pos).Ok?
    ensures ShadowToString(ShadowFromString(line, pos).value) == line
  {
    FieldsOfParsed(line, pos);
    JoinSplit(line, ':');
  }
}

=== FILE: text.dfy ===
/**
 * The string operations of Rust's `str` that the account-file codec relies on:
 * splitting on a character or on a string, joining, `trim`, `lines`, and the
 * UTF-8 byte length used by `str::len`.  Strings are sequences of Unicode
 * scalar values.
 */
module Text {
  import opened Options

  // ---------------------------------------------------------------------
  // Splitting on one character and joining
  // ---------------------------------------------------------------------

  /** `s.split(sep)`: the pieces between separators, never empty, one more
      piece than there are separators. */
  function Split(s: string, sep: char): (r: seq<string>)
    ensures |r| >= 1
    ensures forall i :: 0 <= i < |r| ==> sep !in r[i]
    decreases |s|
  {
    if |s| == 0 then [""]
    else
      var rest := Split(s[1..], sep);
      if s[0] == sep then [""] + rest
      else [[s[0]] + rest[0]] + rest[1..]
  }

  /** `parts.join(sep)` for a one-character separator. */
  function Join(parts: seq<string>, sep: char): string
    decreases |parts|
  {
    if |parts| == 0 then ""
    else if |parts| == 1 then parts[0]
    else parts[0] + [sep] + Join(parts[1..], sep)
  }

  /** `parts.join(sep)` for a separator string. */
  function JoinWith(parts: seq<string>, sep: string): string
    decreases |parts|
  {
    if |parts| == 0 then ""
    else if |parts| == 1 then parts[0]
    else parts[0] + sep + JoinWith(parts[1..], sep)
  }

  /** Joining the pieces of a split gives the original text back. */
  lemma {:induction false} JoinSplit(s: string, sep: char)
    ensures Join(Split(s, sep), sep) == s
    decreases |s|
  {
    if |s| > 0 {
      JoinSplit(s[1..], sep);
      var rest := Split(s[1..], sep);
      var r := Split(s, sep);
      if s[0] == sep {
        assert r[1..] == rest;
        assert s == [sep] + s[1..];
      } else if |rest| == 1 {
        assert s == [s[0]] + s[1..];
      } else {
        assert r[1..] == rest[1..];
        assert s == [s[0]] + s[1..];
      }
    }
  }

  /** A text without the separator is a single piece. */
  lemma {:induction false} SplitWithoutSeparator(a: string, sep: char)
    requires sep !in a
    ensures Split(a, sep) == [a]
    decreases |a|
  {
    if |a| > 0 {
      SplitWithoutSeparator(a[1..], sep);
      assert a == [a[0]] + a[1..];
    }
  }

  /** The first separator ends the first piece. */
  lemma {:induction false} SplitAtFirstSeparator(a: string, b: string, sep: char)
    requires sep !in a
    ensures Split(a + [sep] + b, sep) == [a] + Split(b, sep)
    decreases |a|
  {
    var s := a + [sep] + b;
    if |a| == 0 {
      assert s[1..] == b;
    } else {
      assert s[1..] == a[1..] + [sep] + b;
      SplitAtFirstSeparator(a[1..], b, sep);
      assert a == [a[0]] + a[1..];
    }
  }

  /** Splitting a join gives the parts back, provided no part holds the separator. */
  lemma {:induction false} SplitJoin(parts: seq<string>, sep: char)
    requires |parts| >= 1
    requires forall i :: 0 <= i < |parts| ==> sep !in parts[i]
    ensures Split(Join(parts, sep), sep) == parts
    decreases |parts|
  {
    if |parts| == 1 {
      SplitWithoutSeparator(parts[0], sep);
    } else {
      SplitJoin(parts[1..], sep);
      SplitAtFirstSeparator(parts[0], Join(parts[1..], sep), sep);
      assert parts == [parts[0]] + parts[1..];
    }
  }

  /** Joining a part in front of a non-empty list adds one separator. */
  lemma JoinCons(x: string, rest: seq<string>, sep: char)
    requires |rest| > 0
    ensures Join([x] + rest, sep) == x + [sep] + Join(rest, sep)
  {
    assert ([x] + rest)[1..] == rest;
  }

  /** Joining two non-empty lists of parts puts one separator between them. */
  lemma {:induction false} JoinConcat(a: seq<string>, b: seq<string>, sep: char)
    requires |a| > 0 && |b| > 0
    ensures Join(a + b, sep) == Join(a, sep) + [sep] + Join(b, sep)
    decreases |a|
  {
    assert (a + b)[0] == a[0];
    if |a| == 1 {
      assert (a + b)[1..] == b;
    } else {
      assert (a + b)[1..] == a[1..] + b;
      JoinConcat(a[1..], b, sep);
    }
  }

  /** The pieces of two texts with the last piece of the first fused to the
      first piece of the second. */
  function Fused(l: seq<string>, r: seq<string>): (f: seq<string>)
    requires |l| > 0 && |r| > 0
    ensures |f| == |l| + |r| - 1
  {
    l[..|l| - 1] + [l[|l| - 1] + r[0]] + r[1..]
  }

  lemma FusedCons(h: string, l: seq<string>, r: seq<string>)
    requires |l| > 0 && |r| > 0
    ensures Fused([h] + l, r) == [h] + Fused(l, r)
  {
    var hl := [h] + l;
    assert hl[..|hl| - 1] == [h] + l[..|l| - 1];
    assert hl[|hl| - 1] == l[|l| - 1];
  }

  lemma FusedTail(l: seq<string>, r: seq<string>)
    requires |l| > 1 && |r| > 0
    ensures Fused(l, r) == [l[0]] + Fused(l[1..], r)
  {
    FusedCons(l[0], l[1..], r);
    assert [l[0]] + l[1..] == l;
  }

  /** One character in front of the pieces: a separator opens a new empty
      piece, any other character joins the first piece. */
  function PrependChar(c: char, sep: char, pieces: seq<string>): seq<string>
    requires |pieces| > 0
  {
    if c == sep then [""] + pieces else [[c] + pieces[0]] + pieces[1..]
  }

  /** `Split` of a non-empty text is its first character put in front of the
      pieces of the rest. */
  lemma SplitUnfold(s: string, sep: char)
    requires |s| > 0
    ensures Split(s, sep) == PrependChar(s[0], sep, Split(s[1..], sep))
  {
  }

  /** Putting a character in front commutes with fusing. */
  lemma PrependFused(c: char, sep: char, l: seq<string>, r: seq<string>)
    requires |l| > 0 && |r| > 0
    ensures PrependChar(c, sep, Fused(l, r)) == Fused(PrependChar(c, sep, l), r)
  {
    if c == sep {
      FusedCons("", l, r);
    } else if |l| == 1 {
      assert [c] + (l[0] + r[0]) == ([c] + l[0]) + r[0];
    } else {
      FusedTail(l, r);
      FusedCons([c] + l[0], l[1..], r);
    }
  }

  /** Splitting a concatenation: the last piece of the left text and the first
      piece of the right text fuse. */
  lemma {:induction false} SplitConcat(x: string, y: string, sep: char)
    ensures Split(x + y, sep) == Fused(Split(x, sep), Split(y, sep))
    decreases |x|
  {
    if |x| == 0 {
      SplitConcatEmpty(x, y, sep);
    } else {
      SplitConcat(x[1..], y, sep);
      SplitConcatStep(x, y, sep);
    }
  }

  lemma SplitConcatEmpty(x: string, y: string, sep: char)
    requires |x| == 0
    ensures Split(x + y, sep) == Fused(Split(x, sep), Split(y, sep))
  {
    var r := Split(y, sep);
    assert x + y == y;
    assert "" + r[0] == r[0];
    assert [r[0]] + r[1..] == r;
  }

  /** One character more in front of the left text. */
  lemma SplitConcatStep(x: string, y: string, sep: char)
    requires |x| > 0
    requires Split(x[1..] + y, sep) == Fused(Split(x[1..], sep), Split(y, sep))
    ensures Split(x + y, sep) == Fused(Split(x, sep), Split(y, sep))
  {
    assert (x + y)[1..] == x[1..] + y && (x + y)[0] == x[0];
    SplitUnfold(x + y, sep);
    SplitUnfold(x, sep);
    PrependFused(x[0], sep, Split(x[1..], sep), Split(y, sep));
  }

  // ---------------------------------------------------------------------
  // Splitting on a string pattern
  // ---------------------------------------------------------------------

  /** `pat` occurs in `s` starting at index `i`. */
  predicate MatchAt(s: string, pat: string, i: nat) {
    i + |pat| <= |s| && s[i..i + |pat|] == pat
  }

  /** The first occurrence of a non-empty `pat` at or after `i`. */
  function FindFrom(s: string, pat: string, i: nat): (r: Option<nat>)
    requires |pat| > 0
    ensures r.Some? ==> i <= r.value && MatchAt(s, pat, r.value)
    decreases |s| - i
  {
    if i + |pat| > |s| then None
    else if s[i..i + |pat|] == pat then Some(i)
    else FindFrom(s, pat, i + 1)
  }

  /** A match found is the first one at or after `i`. */
  lemma {:induction false} FindFromIsFirst(s: string, pat: string, i: nat)
    requires |pat| > 0 && FindFrom(s, pat, i).Some?
    ensures forall j :: i <= j < FindFrom(s, pat, i).value ==> !MatchAt(s, pat, j)
    decreases |s| - i
  {
    if s[i..i + |pat|] != pat {
      FindFromIsFirst(s, pat, i + 1);
    }
  }

  /** `pat` occurs in `s` at index `k` and nowhere else. */
  ghost predicate OccursOnlyAt(s: string, pat: string, k: nat) {
    forall i: nat :: MatchAt(s, pat, i) ==> i == k
  }

  /** The search finds nothing only when `pat` occurs nowhere from `i` on. */
  lemma {:induction false} FindFromNone(s: string, pat: string, i: nat)
    requires |pat| > 0
    ensures FindFrom(s, pat, i).None? <==> forall j :: i <= j ==> !MatchAt(s, pat, j)
    decreases |s| - i
  {
    if i + |pat| <= |s| && s[i..i + |pat|] != pat {
      FindFromNone(s, pat, i + 1);
      forall j | i <= j && MatchAt(s, pat, j) ensures i + 1 <= j {
      }
    }
  }

  /** `s.split(pat)` for a string pattern: matches are taken left to right
      without overlap; the empty pattern matches at every character boundary. */
  function SplitStr(s: string, pat: string): (r: seq<string>)
    ensures |r| >= 1
  {
    if |pat| == 0 then [""] + seq(|s|, i requires 0 <= i < |s| => [s[i]]) + [""]
    else SplitOn(s, pat)
  }

  /** Splitting on a non-empty pattern. */
  function SplitOn(s: string, pat: string): (r: seq<string>)
    requires |pat| > 0
    ensures |r| >= 1
    decreases |s|
  {
    var found := FindFrom(s, pat, 0);
    if found.None? then [s]
    else [s[..found.value]] + SplitOn(s[found.value + |pat|..], pat)
  }

  // ---------------------------------------------------------------------
  // Trimming
  // ---------------------------------------------------------------------

  /** Rust's `char::is_whitespace`: the Unicode White_Space property. */
  predicate IsWhitespace(c: char) {
    || c == ' '
    || ('\t' <= c <= '\r')
    || c == '\U{0085}' || c == '\U{00A0}' || c == '\U{1680}'
    || ('\U{2000}' <= c <= '\U{200A}')
    || c == '\U{2028}' || c == '\U{2029}' || c == '\U{202F}' || c == '\U{205F}'
    || c == '\U{3000}'
  }

  /** `trim_start`: drops leading whitespace and nothing else. */
  function TrimStart(s: string): (r: string)
    ensures |r| <= |s| && r == s[|s| - |r|..]
    ensures forall i :: 0 <= i < |s| - |r| ==> IsWhitespace(s[i])
    ensures |r| > 0 ==> !IsWhitespace(r[0])
    decreases |s|
  {
    if |s| > 0 && IsWhitespace(s[0]) then TrimStart(s[1..]) else s
  }

  /** `trim_end`: drops trailing whitespace and nothing else. */
  function TrimEnd(s: string): (r: string)
    ensures |r| <= |s| && r == s[..|r|]
    ensures forall i :: |r| <= i < |s| ==> IsWhitespace(s[i])
    ensures |r| > 0 ==> !IsWhitespace(r[|r| - 1])
    decreases |s|
  {
    if |s| > 0 && IsWhitespace(s[|s| - 1]) then TrimEnd(s[..|s| - 1]) else s
  }

  /** `trim`: drops whitespace at both ends. */
  function Trim(s: string): string {
    TrimEnd(TrimStart(s))
  }

  /** `s[i..j]` lies between a whitespace-only prefix and a whitespace-only
      suffix of `s`. */
  predicate BetweenWhitespace(s: string, i: nat, j: nat) {
    && i <= j <= |s|
    && (forall k :: 0 <= k < i ==> IsWhitespace(s[k]))
    && (forall k :: j <= k < |s| ==> IsWhitespace(s[k]))
  }

  /** The characteristic of `trim`: the result is the slice of `s` between
      whitespace-only margins. */
  lemma TrimIsSliceBetweenWhitespace(s: string)
    ensures exists i: nat, j: nat :: BetweenWhitespace(s, i, j) && Trim(s) == s[i..j]
  {
    var t := TrimStart(s);
    var i := |s| - |t|;
    TrimEndInSlice(s, i);
    var j := i + |TrimEnd(t)|;
    assert BetweenWhitespace(s, i, j);
  }

  /** The result of `trim` neither starts nor ends with whitespace. */
  lemma TrimmedEnds(s: string)
    ensures var r := Trim(s); |r| > 0 ==> !IsWhitespace(r[0]) && !IsWhitespace(r[|r| - 1])
  {
    var t := TrimStart(s);
    var r := TrimEnd(t);
    if |r| > 0 {
      assert r[0] == t[0];
    }
  }

  /** Trimming the end of the tail `s[i..]` leaves a slice of `s` followed by
      whitespace only. */
  lemma TrimEndInSlice(s: string, i: nat)
    requires i <= |s|
    ensures var e := TrimEnd(s[i..]); var j := i + |e|;
            j <= |s| && e == s[i..j] && forall k :: j <= k < |s| ==> IsWhitespace(s[k])
  {
    var t := s[i..];
    var j := i + |TrimEnd(t)|;
    assert forall k :: j <= k < |s| ==> s[k] == t[k - i];
  }

  /** Trimming a text without whitespace at its ends changes nothing. */
  lemma TrimUntrimmed(s: string)
    requires |s| > 0 ==> !IsWhitespace(s[0]) && !IsWhitespace(s[|s| - 1])
    ensures Trim(s) == s
  {
  }

  /** `trim_matches(c)`: drops every copy of `c` at both ends. */
  function TrimMatches(s: string, c: char): (r: string)
    ensures |r| <= |s|
    ensures |r| > 0 ==> r[0] != c && r[|r| - 1] != c
    decreases |s|
  {
    if |s| > 0 && s[0] == c then TrimMatches(s[1..], c)
    else if |s| > 0 && s[|s| - 1] == c then TrimMatches(s[..|s| - 1], c)
    else s
  }

  // ---------------------------------------------------------------------
  // Lines and byte length
  // ---------------------------------------------------------------------

  /** Drops one trailing carriage return. */
  function StripCR(line: string): string {
    if |line| > 0 && line[|line| - 1] == '\r' then line[..|line| - 1] else line
  }

  /** `str::lines`: every piece followed by `\n` is a line (without a
      trailing `\r`), and the final piece is a line only when it is non-empty. */
  function Lines(s: string): (r: seq<string>)
    ensures forall i :: 0 <= i < |r| ==> '\n' !in r[i]
  {
    LinesOfPieces(Split(s, '\n'))
  }

  /** The lines made of the newline-separated pieces of a text. */
  function LinesOfPieces(parts: seq<string>): (r: seq<string>)
    requires |parts| >= 1
    requires forall i :: 0 <= i < |parts| ==> '\n' !in parts[i]
    ensures forall i :: 0 <= i < |r| ==> '\n' !in r[i]
  {
    var n := |parts|;
    seq(n - 1, i requires 0 <= i < n - 1 => StripCR(parts[i]))
      + (if parts[n - 1] == "" then [] else [parts[n - 1]])
  }

  /** A text ending with the separator has an empty last piece. */
  lemma SplitEndsEmpty(t: string, sep: char)
    requires |t| > 0 && t[|t| - 1] == sep
    ensures var l := Split(t, sep); l[|l| - 1] == ""
  {
    var t0 := t[..|t| - 1];
    assert t == t0 + [sep];
    assert Split([sep], sep) == ["", ""];
    SplitConcat(t0, [sep], sep);
  }

  /** An empty text has no lines. */
  lemma NoLinesInEmptyText()
    ensures Lines("") == []
  {
  }

  /** Appending a newline-free, non-empty `a` after a text ending in `\n`
      adds exactly one line, `a`, after the existing ones. */
  lemma {:induction false} LinesAfterNewline(t: string, a: string)
    requires |t| > 0 && t[|t| - 1] == '\n'
    requires a != "" && '\n' !in a
    ensures Lines(t + a) == Lines(t) + [a]
  {
    var l := Split(t, '\n');
    SplitEndsEmpty(t, '\n');
    SplitWithoutSeparator(a, '\n');
    SplitConcat(t, a, '\n');
    var m := Split(t + a, '\n');
    assert m == l[..|l| - 1] + ["" + a];
    assert "" + a == a;
    var n := |l|;
    assert |m| == n;
    assert forall i :: 0 <= i < n - 1 ==> m[i] == l[i];
    assert m[n - 1] == a;
    assert LinesOfPieces(m) == seq(n - 1, i requires 0 <= i < n - 1 => StripCR(l[i])) + [a];
  }

  /** Terminating a last line that does not end in `\r` keeps the lines. */
  lemma LinesOfTerminated(t: string)
    requires |t| > 0 && t[|t| - 1] != '\n' && t[|t| - 1] != '\r'
    ensures Lines(t + "\n") == Lines(t)
  {
    var l := Split(t, '\n');
    SplitWithNewline(t);
    LastPieceUnterminated(t);
    LinesOfPiecesDropEmpty(l);
  }

  /** A text with a newline appended splits into the pieces of the text and
      one empty piece. */
  lemma SplitWithNewline(t: string)
    ensures Split(t + "\n", '\n') == Split(t, '\n') + [""]
  {
    var l := Split(t, '\n');
    assert Split("\n", '\n') == ["", ""];
    SplitConcat(t, "\n", '\n');
    var m := Split(t + "\n", '\n');
    assert m == l[..|l| - 1] + [l[|l| - 1] + ""] + [""];
    assert l[|l| - 1] + "" == l[|l| - 1];
    assert l[..|l| - 1] + [l[|l| - 1]] == l;
  }

  /** The last piece of a text that ends in neither a newline nor a carriage
      return is not empty and keeps its last character. */
  lemma {:induction false} LastPieceUnterminated(t: string)
    requires |t| > 0 && t[|t| - 1] != '\n' && t[|t| - 1] != '\r'
    ensures var l := Split(t, '\n');
            |l[|l| - 1]| > 0 && StripCR(l[|l| - 1]) == l[|l| - 1]
  {
    var l := Split(t, '\n');
    var last := l[|l| - 1];
    JoinSplit(t, '\n');
    JoinEndsWithLast(l, '\n');
    if |l| == 1 {
      assert last == t;
    } else {
      assert t[|t| - |last| - 1] == '\n';
      assert |last| > 0;
    }
    assert last[|last| - 1] == t[|t| - 1];
  }

  /** An empty last piece adds no line after a last piece that has no
      carriage return to strip. */
  lemma LinesOfPiecesDropEmpty(l: seq<string>)
    requires |l| >= 1 && forall i :: 0 <= i < |l| ==> '\n' !in l[i]
    requires |l[|l| - 1]| > 0 && StripCR(l[|l| - 1]) == l[|l| - 1]
    ensures LinesOfPieces(l + [""]) == LinesOfPieces(l)
  {
    var m := l + [""];
    assert forall i :: 0 <= i < |m| ==> '\n' !in m[i];
    assert LinesOfPieces(m)[..|l| - 1] == LinesOfPieces(l)[..|l| - 1];
  }


  /** A join with at least two parts ends with its last part, after a separator. */
  lemma {:induction false} JoinEndsWithLast(parts: seq<string>, sep: char)
    requires |parts| >= 1
    ensures var j := Join(parts, sep); var last := parts[|parts| - 1];
            |j| >= |last| && j[|j| - |last|..] == last
            && (|parts| >= 2 ==> |j| > |last| && j[|j| - |last| - 1] == sep)
    decreases |parts|
  {
    if |parts| > 1 {
      JoinEndsWithLast(parts[1..], sep);
    }
  }

  /** Bytes in the UTF-8 encoding of `c`. */
  function CharUtf8Len(c: char): nat {
    if c as int < 0x80 then 1
    else if c as int < 0x800 then 2
    else if c as int < 0x1_0000 then 3
    else 4
  }

  /** `str::len`: the UTF-8 byte length. */
  function Utf8Len(s: string): (n: nat)
    ensures |s| <= n <= 4 * |s|
    decreases |s|
  {
    if |s| == 0 then 0 else Utf8Len(s[..|s| - 1]) + CharUtf8Len(s[|s| - 1])
  }

  /** The byte length of a concatenation is the sum of the parts' lengths,
      as for any encoding that writes each character on its own. */
  lemma {:induction false} Utf8LenConcat(a: string, b: string)
    ensures Utf8Len(a + b) == Utf8Len(a) + Utf8Len(b)
    decreases |b|
  {
    if |b| > 0 {
      var front := b[..|b| - 1];
      Utf8LenConcat(a, front);
      assert (a + b)[..|a + b| - 1] == a + front;
      assert (a + b)[|a + b| - 1] == b[|b| - 1];
    } else {
      assert a + b == a;
    }
  }

  /** ASCII text takes one byte per character. */
  lemma {:induction false} Utf8LenAscii(s: string)
    requires forall i :: 0 <= i < |s| ==> s[i] as int < 0x80
    ensures Utf8Len(s) == |s|
    decreases |s|
  {
    if |s| > 0 {
      Utf8LenAscii(s[..|s| - 1]);
    }
  }

  // ---------------------------------------------------------------------
  // Line splicing
  // ---------------------------------------------------------------------

  /** `remove_in`: splits `content` on every occurrence of `source`, trims
      each piece and joins the pieces with newlines. */
  function RemoveIn(content: string, source: string): string {
    Join(TrimAll(SplitStr(content, source)), '\n')
  }

  /** Every piece trimmed. */
  function TrimAll(pieces: seq<string>): (r: seq<string>)
    ensures |r| == |pieces|
  {
    seq(|pieces|, i requires 0 <= i < |pieces| => Trim(pieces[i]))
  }

  /** When `source` does not occur, `remove_in` only trims. */
  lemma RemoveInAbsent(content: string, source: string)
    requires |source| > 0
    requires forall i :: !MatchAt(content, source, i)
    ensures RemoveIn(content, source) == Trim(content)
  {
    FindFromNone(content, source, 0);
    assert SplitOn(content, source) == [content];
  }

  /** The first match found is the one before which nothing matches. */
  lemma FindFirstMatch(s: string, pat: string, k: nat)
    requires |pat| > 0 && MatchAt(s, pat, k)
    requires forall j :: 0 <= j < k ==> !MatchAt(s, pat, j)
    ensures FindFrom(s, pat, 0) == Some(k)
  {
    FindFromFirst(s, pat, 0, k);
  }

  /** Searching from `i` finds the first match at or after `i`. */
  lemma {:induction false} FindFromFirst(s: string, pat: string, i: nat, k: nat)
    requires |pat| > 0 && i <= k && MatchAt(s, pat, k)
    requires forall j :: i <= j < k ==> !MatchAt(s, pat, j)
    ensures FindFrom(s, pat, i) == Some(k)
    decreases k - i
  {
    if i < k {
      assert !MatchAt(s, pat, i);
      FindFromFirst(s, pat, i + 1, k);
    }
  }

  /** A match inside the tail of a text is a match in the text. */
  lemma MatchInTail(c: string, pat: string, off: nat, k: nat)
    requires off <= |c| && MatchAt(c[off..], pat, k)
    ensures MatchAt(c, pat, off + k)
  {
    assert c[off + k..off + k + |pat|] == c[off..][k..k + |pat|];
  }

  /** Splitting at the first match. */
  lemma SplitStrAtFirst(c: string, pat: string, k: nat)
    requires |pat| > 0 && FindFrom(c, pat, 0) == Some(k)
    ensures SplitOn(c, pat) == [c[..k]] + SplitOn(c[k + |pat|..], pat)
  {
    var found := FindFrom(c, pat, 0);
    assert found.Some? && found.value == k;
  }

  /** A tail of `c` past its only match holds no match. */
  lemma NoMatchPastOnlyMatch(c: string, pat: string, off: nat)
    requires off <= |c|
    requires forall i: nat :: MatchAt(c, pat, i) ==> i < off
    ensures forall k: nat :: !MatchAt(c[off..], pat, k)
  {
    forall k: nat | MatchAt(c[off..], pat, k)
      ensures false
    {
      MatchInTail(c, pat, off, k);
    }
  }

  /** A text in which `pat` occurs once splits into the text before and after it. */
  lemma SplitStrOnce(a: string, pat: string, b: string)
    requires |pat| > 0
    requires OccursOnlyAt(a + pat + b, pat, |a|)
    ensures SplitStr(a + pat + b, pat) == [a, b]
  {
    var c := a + pat + b;
    var off := |a| + |pat|;
    assert c[|a|..off] == pat;
    FindFirstMatch(c, pat, |a|);
    SplitStrAtFirst(c, pat, |a|);
    assert c[..|a|] == a;
    assert c[off..] == b;
    NoMatchPastOnlyMatch(c, pat, off);
    FindFromNone(b, pat, 0);
    assert SplitOn(b, pat) == [b];
  }

  /** When `source` occurs exactly once, between `a` and `b`, `remove_in`
      yields the trimmed text before it and after it on separate lines. */
  lemma RemoveInOnce(a: string, source: string, b: string)
    requires |source| > 0
    requires OccursOnlyAt(a + source + b, source, |a|)
    ensures RemoveIn(a + source + b, source) == Trim(a) + "\n" + Trim(b)
  {
    SplitStrOnce(a, source, b);
    TrimPair(a, b);
    JoinPair(Trim(a), Trim(b), '\n');
  }

  lemma TrimPair(a: string, b: string)
    ensures TrimAll([a, b]) == [Trim(a), Trim(b)]
  {
  }

  lemma JoinPair(x: string, y: string, sep: char)
    ensures Join([x, y], sep) == x + [sep] + y
  {
    assert [x, y][1..] == [y];
  }

  // ---------------------------------------------------------------------
  // `{:?}` of strings
  // ---------------------------------------------------------------------

  /** A lower-case hexadecimal digit. */
  function HexDigit(d: nat): (c: char)
    requires d < 16
  {
    if d < 10 then ('0' as int + d) as char else ('a' as int + d - 10) as char
  }

  /** The value of a lower-case hexadecimal digit, if it is one. */
  function HexValue(c: char): (r: Option<nat>)
    ensures r.Some? ==> r.value < 16
  {
    if '0' <= c <= '9' then Some(c as int - '0' as int)
    else if 'a' <= c <= 'f' then Some(c as int - 'a' as int + 10)
    else None
  }

  /** Lower-case hexadecimal without leading zeros, as `{:x}` writes it;
      below 256 here, which covers the characters escaped that way. */
  function Hex(n: nat): (r: string)
    requires n < 256
    ensures 1 <= |r| <= 2
  {
    if n < 16 then [HexDigit(n)] else [HexDigit(n / 16), HexDigit(n % 16)]
  }

  /** `char::escape_debug` as `{:?}` of a string applies it: the double
      quote, the backslash, NUL, tab, carriage return and line feed get a
      backslash escape, the other ASCII control characters are written as
      `\u{..}` in hexadecimal, and every other character stands for itself. */
  function EscapeDebug(c: char): string {
    if c == '\0' then "\\0"
    else if c == '\t' then "\\t"
    else if c == '\r' then "\\r"
    else if c == '\n' then "\\n"
    else if c == '\\' then "\\\\"
    else if c == '"' then "\\\""
    else if c as int < 32 || c as int == 127 then "\\u{" + Hex(c as int) + "}"
    else [c]
  }

  /** The escaped characters of a string, in order. */
  function EscapeAll(s: string): string
    decreases |s|
  {
    if |s| == 0 then "" else EscapeDebug(s[0]) + EscapeAll(s[1..])
  }

  /** `{:?}` of a string: its escaped characters between double quotes. */
  function DebugString(s: string): string {
    "\"" + EscapeAll(s) + "\""
  }

  /** `{:?}` of a list of strings: the items as `{:?}` writes them,
      separated by `, ` and bracketed. */
  function DebugList(items: seq<string>): string {
    "[" + JoinWith(seq(|items|, i requires 0 <= i < |items| => DebugString(items[i])), ", ") + "]"
  }

  /** `c` in front of an optional text. */
  function Prepend(c: char, rest: Option<string>): Option<string> {
    if rest.None? then None else Some([c] + rest.value)
  }

  /** Reads back escaped text: the inverse of `EscapeAll`, and `None` for
      text `EscapeAll` never writes, such as a bare double quote. */
  function Unescape(t: string): (r: Option<string>)
    decreases |t|
  {
    if |t| == 0 then Some("")
    else if t[0] == '"' then None
    else if t[0] != '\\' then Prepend(t[0], Unescape(t[1..]))
    else if |t| < 2 then None
    else if t[1] == 'u' then
      if |t| >= 5 && t[2] == '{' && HexValue(t[3]).Some? && t[4] == '}' then
        Prepend(HexValue(t[3]).value as char, Unescape(t[5..]))
      else if |t| >= 6 && t[2] == '{' && HexValue(t[3]).Some? && HexValue(t[4]).Some? && t[5] == '}' then
        Prepend((16 * HexValue(t[3]).value + HexValue(t[4]).value) as char, Unescape(t[6..]))
      else None
    else if t[1] == '0' then Prepend('\0', Unescape(t[2..]))
    else if t[1] == 't' then Prepend('\t', Unescape(t[2..]))
    else if t[1] == 'r' then Prepend('\r', Unescape(t[2..]))
    else if t[1] == 'n' then Prepend('\n', Unescape(t[2..]))
    else if t[1] == '\\' then Prepend('\\', Unescape(t[2..]))
    else if t[1] == '"' then Prepend('"', Unescape(t[2..]))
    else None
  }

  /** Reading back one escaped character in front of more text. */
  lemma UnescapeOne(c: char, rest: string)
    ensures Unescape(EscapeDebug(c) + rest) == Prepend(c, Unescape(rest))
  {
    var e := EscapeDebug(c);
    var t := e + rest;
    if c as int < 32 || c as int == 127 {
      if c != '\0' && c != '\t' && c != '\r' && c != '\n' {
        var n := c as int;
        var h := Hex(n);
        assert e == "\\u{" + h + "}";
        if n < 16 {
          assert t[3] == HexDigit(n) && t[4] == '}' && t[5..] == rest;
        } else {
          assert n / 16 < 16;
          assert t[3] == HexDigit(n / 16) && t[4] == HexDigit(n % 16) && t[5] == '}' && t[6..] == rest;
          assert HexValue(t[4]).Some? && HexValue(t[3]).value * 16 + HexValue(t[4]).value == n;
        }
      } else {
        assert t[2..] == rest;
      }
    } else if c == '\\' || c == '"' {
      assert t[2..] == rest;
    } else {
      assert t[1..] == rest;
    }
  }

  /** `Unescape` reads back every escaped string: `{:?}` loses nothing. */
  lemma {:induction false} UnescapeEscapeAll(s: string)
    ensures Unescape(EscapeAll(s)) == Some(s)
    decreases |s|
  {
    if |s| > 0 {
      UnescapeEscapeAll(s[1..]);
      UnescapeOne(s[0], EscapeAll(s[1..]));
      assert [s[0]] + s[1..] == s;
    }
  }

  /** A string of printable ASCII without quotes or backslashes is written
      by `{:?}` as itself. */
  lemma {:induction false} EscapeAllPlain(s: string)
    requires forall i :: 0 <= i < |s| ==> 32 <= s[i] as int < 127 && s[i] != '"' && s[i] != '\\'
    ensures EscapeAll(s) == s
    decreases |s|
  {
    if |s| > 0 {
      EscapeAllPlain(s[1..]);
      assert [s[0]] + s[1..] == s;
    }
  }

  /** A one-item list is shown as the item's `{:?}` in brackets, and the
      item reads back from between the quotes. */
  lemma DebugListSingle(s: string)
    ensures DebugList([s]) == "[\"" + EscapeAll(s) + "\"]"
    ensures var d := DebugList([s]); Unescape(d[2..|d| - 2]) == Some(s)
  {
    DebugListOne(s);
    var e := EscapeAll(s);
    var d := "[\"" + e + "\"]";
    assert d[2..|d| - 2] == e;
    UnescapeEscapeAll(s);
  }

  lemma DebugListOne(s: string)
    ensures DebugList([s]) == "[\"" + EscapeAll(s) + "\"]"
  {
    var x := DebugString(s);
    var items := seq(1, i requires 0 <= i < 1 => DebugString([s][i]));
    assert items == [x];
    assert JoinWith(items, ", ") == x;
  }

  /** The field `a"b` is shown as `["a\"b"]`. */
  lemma DebugListQuoteExample()
    ensures DebugList(["a\"b"]) == "[\"a\\\"b\"]"
  {
    var s := "a\"b";
    assert s[1..][1..][1..] == "";
    assert EscapeAll(s[1..][1..]) == "b";
    assert EscapeAll(s[1..]) == "\\\"b";
    assert EscapeAll(s) == "a\\\"b";
    var items := seq(1, i requires 0 <= i < 1 => DebugString(["a\"b"][i]));
    assert items == [DebugString(s)];
  }
}

=== FILE: user.dfy ===
/**
 * A record (line) of the passwd file: seven colon-separated fields, plus the
 * memberships the database links to it after loading.
 */
module UserRecord {
  import opened Options
  import opened Errors
  import opened Text
  import opened Decimal
  import opened PasswdFields
  import opened GecosFields
  import SF = ShadowFields

  /** Where a user's password lives: in the passwd line itself, in a shadow
      entry, or nowhere. */
  datatype Password = Encrypted(password: string) | Shadow(entry: SF.Shadow) | Disabled

  /** `Display` of a password: the encrypted text verbatim, otherwise `x`. */
  function PasswordToString(p: Password): (r: string)
    ensures p.Encrypted? ==> r == p.password
    ensures !p.Encrypted? ==> r == "x"
  {
    match p
    case Encrypted(text) => text
    case Shadow(_) => "x"
    case Disabled => "x"
  }

  /** Only an encrypted password displays as something other than `x`. */
  lemma PasswordToStringIsX(p: Password)
    ensures PasswordToString(p) == "x" <==> !p.Encrypted? || p.password == "x"
  {
  }

  /** How a user belongs to a group: it is the group of the user's gid, or the
      group lists the user. */
  datatype MembershipKind = Primary | Member

  /** A membership edge; the group is named by its gid. */
  datatype Link = Link(kind: MembershipKind, gid: U32)

  datatype User = User(
    source: string,
    pos: U32,
    username: string,
    password: Password,
    uid: U32,
    gid: U32,
    gecos: Gecos,
    homeDir: string,
    shellPath: string,
    links: seq<Link>)

  /** `get_shadow`. */
  function GetShadow(u: User): (r: Option<SF.Shadow>)
    ensures r.Some? <==> u.password.Shadow?
    ensures r.Some? ==> r.value == u.password.entry
  {
    match u.password
    case Shadow(s) => Some(s)
    case _ => None
  }

  /** `get_password`: the encrypted text, from the passwd line or from the
      shadow entry; none when the password is disabled. */
  function GetPassword(u: User): (r: Option<string>)
    ensures r.None? <==> u.password.Disabled?
    ensures u.password.Encrypted? ==> r == Some(u.password.password)
    ensures u.password.Shadow? ==> r == Some(u.password.entry.password)
  {
    match u.password
    case Encrypted(text) => Some(text)
    case Shadow(s) => Some(s.password)
    case Disabled => None
  }

  const NOT_ENOUGH_ELEMENTS := "Failed to parse: not enough elements"

  /** `User::new_from_string`: exactly seven colon-separated fields; the
      username must be accepted, the ids must be `u32` and the gecos must
      have one or at least four items, checked in field order. The line is
      kept as `source`, and the password is always the encrypted text. */
  function UserFromString(line: string, pos: U32): (r: Result<User>)
    ensures |Split(line, ':')| != 7 ==> r == Err(FromText(NOT_ENOUGH_ELEMENTS))
    ensures r.Ok? ==> |Split(line, ':')| == 7
    ensures r.Ok? ==> r.value.source == line && r.value.pos == pos && r.value.links == []
    ensures r.Ok? ==> r.value.password == Encrypted(Split(line, ':')[1])
    ensures r.Ok? ==> r.value.username == Split(line, ':')[0] && IsAcceptedUsername(r.value.username)
    ensures r.Ok? ==> GecosToString(r.value.gecos) == Split(line, ':')[4]
    ensures r.Ok? ==> r.value.homeDir == Split(line, ':')[5] && r.value.shellPath == Split(line, ':')[6]
  {
    var els := Split(line, ':');
    if |els| == 7 then
      var username :- UsernameTryFrom(els[0]);
      var uid :- ParseId(els[2]);
      var gid :- ParseId(els[3]);
      var gecos :- GecosTryFrom(els[4]);
      Ok(User(line, pos, username, Encrypted(VerbatimTryFrom(els[1]).value), uid, gid, gecos,
              VerbatimTryFrom(els[5]).value, VerbatimTryFrom(els[6]).value, []))
    else
      Err(FromText(NOT_ENOUGH_ELEMENTS))
  }

  /** On a seven-field line the checks run in field order: the line is
      accepted exactly when the username, both ids and the gecos are, the
      ids and the gecos are the values their parsers give, and the first
      rejected field's error is the outcome. */
  lemma UserFromStringChecks(line: string, pos: U32)
    requires |Split(line, ':')| == 7
    ensures var els := Split(line, ':');
            var r := UserFromString(line, pos);
            && (r.Ok? <==> IsAcceptedUsername(els[0]) && ParseId(els[2]).Ok? && ParseId(els[3]).Ok?
                           && GecosTryFrom(els[4]).Ok?)
            && (r.Ok? ==> Ok(r.value.uid) == ParseId(els[2]) && Ok(r.value.gid) == ParseId(els[3])
                          && Ok(r.value.gecos) == GecosTryFrom(els[4]))
            && (!IsAcceptedUsername(els[0]) ==> r == Err(FromText("Invalid username " + els[0])))
            && (IsAcceptedUsername(els[0]) && (ParseId(els[2]).Err? || ParseId(els[3]).Err?) ==> r == Err(ParseError))
            && (IsAcceptedUsername(els[0]) && ParseId(els[2]).Ok? && ParseId(els[3]).Ok? && GecosTryFrom(els[4]).Err?
                ==> r == Err(GecosTryFrom(els[4]).error))
  {
  }

  /** The seven fields `Display` writes, in order. */
  function Fields(u: User): seq<string> {
    [u.username, PasswordToString(u.password), IdToString(u.uid), IdToString(u.gid),
     GecosToString(u.gecos), u.homeDir, u.shellPath]
  }

  /** `Display`: the seven fields separated by colons. */
  function UserToString(u: User): string {
    Join(Fields(u), ':')
  }

  /** Splitting the display at colons gives the fields back, provided no
      field holds a colon. */
  lemma SplitUserDisplay(u: User)
    requires forall i :: 0 <= i < 7 ==> ':' !in Fields(u)[i]
    ensures Split(UserToString(u), ':') == Fields(u)
  {
    SplitJoin(Fields(u), ':');
  }

  /** The empty line is not a user. */
  lemma EmptyLineIsNotAUser(pos: U32)
    ensures UserFromString("", pos) == Err(FromText(NOT_ENOUGH_ELEMENTS))
  {
    assert Split("", ':') == [""];
  }

  /** Round trip: a user parsed from a line whose ids are written in canonical
      decimal displays as that very line. */
  lemma UserRoundTrip(line: string, pos: U32)
    requires UserFromString(line, pos).Ok?
    requires IsCanonicalNat(Split(line, ':')[2]) && IsCanonicalNat(Split(line, ':')[3])
    ensures UserToString(UserFromString(line, pos).value) == line
  {
    var els := Split(line, ':');
    var u := UserFromString(line, pos).value;
    assert u.uid == ParseId(els[2]).value && u.gid == ParseId(els[3]).value;
    IdDisplayOfParse(els[2]);
    IdDisplayOfParse(els[3]);
    assert Fields(u) == els;
    JoinSplit(line, ':');
  }

  /** A user whose display parses back to it: accepted name, encrypted
      password, canonical gecos, no colon in any field, no memberships, and
      the display as its source. */
  predicate IsPrintable(u: User) {
    && IsAcceptedUsername(u.username)
    && u.password.Encrypted?
    && IsCanonical(u.gecos)
    && (forall i :: 0 <= i < 7 ==> ':' !in Fields(u)[i])
    && u.links == []
  }

  /** Reverse round trip: parsing the display of a printable user gives the
      user back, with the display as its source. */
  lemma UserParseOfDisplay(u: User)
    requires IsPrintable(u)
    ensures UserFromString(UserToString(u), u.pos) == Ok(u.(source := UserToString(u)))
  {
    SplitUserDisplay(u);
    var els := Split(UserToString(u), ':');
    ParseOfToString(u.gecos);
  }

  // ---------------------------------------------------------------------
  // Ordering, default and setters
  // ---------------------------------------------------------------------

  datatype Ordering = Less | Equal | Greater

  /** `Ord for User`: users compare by their line position only. */
  function Compare(a: User, b: User): (o: Ordering)
    ensures o == Equal <==> a.pos == b.pos
    ensures o == Less <==> a.pos < b.pos
  {
    if a.pos < b.pos then Less else if a.pos == b.pos then Equal else Greater
  }

  /** The comparison is a total preorder: antisymmetric and transitive. */
  lemma CompareIsTotalPreorder(a: User, b: User, c: User)
    ensures Compare(a, b) == Less <==> Compare(b, a) == Greater
    ensures Compare(a, b) != Greater && Compare(b, c) != Greater ==> Compare(a, c) != Greater
  {
  }

  /** `User::default`. */
  function DefaultUser(): (u: User)
    ensures u.username == "defaultusername" && u.password == Disabled
    ensures u.uid == 1001 && u.gid == 1001 && u.gecos == Gecos.Simple("")
    ensures u.homeDir == "/" && u.shellPath == "/bin/nologin"
    ensures u.pos == U32_LIMIT - 1 && u.source == "" && u.links == []
  {
    User("", 0xFFFF_FFFF, "defaultusername", Disabled, 1001, 1001, Gecos.Simple(""),
         "/", "/bin/nologin", [])
  }

  /** How the default user with a given name displays. */
  lemma DefaultUserDisplay(name: string)
    ensures UserToString(DefaultUser().(username := name))
         == name + ":x:1001:1001::/:/bin/nologin"
  {
    assert [':'] + "x:1001:1001::/:/bin/nologin" == ":x:1001:1001::/:/bin/nologin";
    assert name + [':'] + "x:1001:1001::/:/bin/nologin" == name + ([':'] + "x:1001:1001::/:/bin/nologin");
    var tail := ["x", "1001", "1001", "", "/", "/bin/nologin"];
    DefaultUserFields(name);
    DefaultFieldsTail();
    JoinCons(name, tail, ':');
  }

  /** The fields of the default user with a given name. */
  lemma DefaultUserFields(name: string)
    ensures UserToString(DefaultUser().(username := name))
         == Join([name] + ["x", "1001", "1001", "", "/", "/bin/nologin"], ':')
  {
    var u := DefaultUser().(username := name);
    assert UserToString(u) == Join(Fields(u), ':');
    DefaultIdDisplay();
    assert Fields(u) == [name] + ["x", "1001", "1001", "", "/", "/bin/nologin"];
  }

  lemma DefaultIdDisplay()
    ensures IdToString(1001) == "1001"
  {
    assert DigitsValue("1001") == 1001 by {
      assert "1001"[..3] == "100" && "100"[..2] == "10";
      assert "10"[..1] == "1" && "1"[..0] == "";
    }
    NatToStringOfCanonical("1001");
  }

  lemma DefaultFieldsTail()
    ensures Join(["x", "1001", "1001", "", "/", "/bin/nologin"], ':') == "x:1001:1001::/:/bin/nologin"
  {
    assert "x" + [':'] + "1001:1001::/:/bin/nologin" == "x:1001:1001::/:/bin/nologin";
    var rest := ["1001", "1001", "", "/", "/bin/nologin"];
    DefaultFieldsTail4();
    JoinCons("x", rest, ':');
    assert ["x"] + rest == ["x", "1001", "1001", "", "/", "/bin/nologin"];
  }

  lemma DefaultFieldsTail4()
    ensures Join(["1001", "1001", "", "/", "/bin/nologin"], ':') == "1001:1001::/:/bin/nologin"
  {
    DefaultFieldsTail2();
    JoinCons("1001", ["", "/", "/bin/nologin"], ':');
    JoinCons("1001", ["1001", "", "/", "/bin/nologin"], ':');
  }

  lemma DefaultFieldsTail2()
    ensures Join(["", "/", "/bin/nologin"], ':') == ":/:/bin/nologin"
  {
    JoinCons("/", ["/bin/nologin"], ':');
    JoinCons("", ["/", "/bin/nologin"], ':');
  }

  /** The `username` setter; no validation takes place. */
  function SetUsername(u: User, name: string): (r: User)
    ensures r.username == name && r.(username := u.username) == u
  {
    u.(username := name)
  }

  /** The `disable_password` setter. */
  function DisablePassword(u: User): (r: User)
    ensures r.password == Disabled && r.(password := u.password) == u
  {
    u.(password := Disabled)
  }

  /** The `uid` setter. */
  function SetUid(u: User, uid: U32): (r: User)
    ensures r.uid == uid && r.(uid := u.uid) == u
  {
    u.(uid := uid)
  }

  /** The `gid` setter. */
  function SetGid(u: User, gid: U32): (r: User)
    ensures r.gid == gid && r.(gid := u.gid) == u
  {
    u.(gid := gid)
  }

  /** The `home_dir` setter. */
  function SetHomeDir(u: User, path: string): (r: User)
    ensures r.homeDir == path && r.(homeDir := u.homeDir) == u
  {
    u.(homeDir := path)
  }

  /** The `shell_path` setter. */
  function SetShellPath(u: User, path: string): (r: User)
    ensures r.shellPath == path && r.(shellPath := u.shellPath) == u
  {
    u.(shellPath := path)
  }

  /** `add_group`: records a membership edge after the existing ones. */
  function AddGroup(u: User, kind: MembershipKind, gid: U32): (r: User)
    ensures r.links == u.links + [Link(kind, gid)] && r.(links := u.links) == u
  {
    u.(links := u.links + [Link(kind, gid)])
  }
}
